=== FILE: README.md ===
# Quest engine of a card game, in Dafny

This project models the core of a turn-based card game in the style of *Quests of
the Round Table*. A player who sponsors a quest builds its stages from the
adventure cards in their hand. The other players join and fight stage by stage
with weapon attacks. The survivors of the last stage win shields. Event cards
(Plague, Queen's Favor, Prosperity) change shields or hand out cards. Hands are
held to twelve cards.

The model covers three source classes:

- `Stage`: a checked accumulator of cards, with one Foe at most and no repeated weapon type.
- `Deck`: a draw pile used as a stack plus a discard pile. The discard pile is shuffled back when the draw pile runs out.
- `GameController`: sponsorship, quest building, stage resolution, attacks, cleanup, hand trimming and events.

Everything is a pure function over immutable data:

- The game state is a `Table`. It holds the seated players' hands and shields, the current player and the adventure deck.
- Each routine returns a `Result`: either a value with the table and the input left over, or a `Fault`.
- User input is an `Input`: a finite list of yes/no answers and a finite list of card choices, used up from the front. Running out is the fault `InputExhausted`. It stands for the source's unbounded re-prompting.
- An unguarded `getHand().get(choice - 1)` with a bad choice gives `IndexOutOfRange`. That is the source's `IndexOutOfBoundsException`.
- Drawing from two empty piles gives `NoCardsLeft`.
- `Collections.shuffle` is Fisher–Yates driven by a random oracle, so every property holds for every random outcome. The `k`-th draw of the game uses oracle `rng(k)`.
- Cards carry an `id`, so datatype equality stands for Java object identity. This matters for `removeCardFromHand`.

Two behaviours of the code that its messages do not suggest:

- **Quest building never reports failure.** `handleQuest` prints "Failed to build quest properly" when `buildQuest` returns `false` (`GameController.java:50-52`). But `buildQuest` always returns `true` (`:104`), so that branch cannot be reached. `BuildQuest` stops early only when the sponsor stops answering or picks a card outside the hand.
- **A bad card index is not asked again.** In `buildQuest` and `buildAttack` the chosen index goes unchecked to `List.get` (`:96`, `:187`). A choice outside the hand therefore ends the routine with `IndexOutOfRange`. Only `trimHandIfNeeded` checks the index (`:241`), and there a bad choice is simply asked again.

Plague takes two shields through `loseShields` (`:214`). `Events.Plagued` assumes that call does not clamp, so shields can go negative (see "Left out").

Modules:

- `Results`, `Seqs`: shared wrappers and sequence facts.
- `Cards`: the adventure cards.
- `Stages`: `Stage`.
- `Decks`: `Deck`.
- `Attacks`: the part of `Attack` that is used.
- `Quests`: the part of `Quest` that is used. Its `addStage` test is a parameter `StageRule`; `MonotoneRule` accepts a valid stage no weaker than the one before it.
- `Game`: the table, the hands and the deck boundary.
- `HandTrim`: `trimHandIfNeeded`.
- `Sponsorship`: `findSponsor` and the participant question.
- `QuestBuilding`: `buildQuest`.
- `QuestResolution`: `resolveQuest`, `buildAttack` and `discardAttackCards`.
- `QuestCleanup`: `cleanupQuest`.
- `Events`: `handleEvent`.
- `QuestFlow`: `handleQuest`, with corrected and as-written quest building, and the card-duplication finding.

`Stage.getValue` and `Stage.getCards` are the fields `value` and `cards` of the `Stage` datatype. `Stages.Inv` ties them together: the value is the sum of the cards. `Deck.size` is `Decks.Size`, the length of the draw pile only.

## Model

| member | source | states |
|---|---|---|
| Stages.AddCard | src/main/java/Model/Stage.java:15-34 | a card is accepted iff it is a Foe and the stage has none, or a Weapon whose type the stage lacks; a refused card leaves the stage unchanged; an accepted one is appended and its value added; the stage invariant (value = sum, one Foe at most, distinct weapon types) is kept |
| Stages.IsValid | src/main/java/Model/Stage.java:44-46 | a stage is valid exactly when its cards include a Foe |
| Stages.NewStageInvalid | src/main/java/Model/Stage.java:10-13 | a fresh stage satisfies the invariant, has value 0 and is not valid |
| Stages.Place | src/main/java/Model/Stage.java:15-34 | offering cards one by one keeps the invariant, only appends to the stage, and appends only cards that were offered |
| Stages.BuiltStageInvariant | src/main/java/Model/Stage.java:15-42 | whatever cards are offered to a fresh stage, its value is the sum of its cards, it has at most one Foe and distinct weapon types, holds only offered cards, and is valid iff it holds a Foe |
| Stages.StageCardsDistinct | src/main/java/Model/Stage.java:15-29 | no card sits twice in one stage |
| Cards.AnyWeaponOfType | src/main/java/Model/Stage.java:23-26 | the weapon-type search is true iff some Weapon of that type is among the cards |
| Decks.AddCard | src/main/java/Model/Deck.java:14-16 | the card goes on top of the draw pile, the size grows by one, the rest of the deck is unchanged |
| Decks.Discard | src/main/java/Model/Deck.java:28-30 | the card goes on top of the discard pile; the draw pile and its size are unchanged |
| Decks.Shuffle | src/main/java/Model/Deck.java:33-34 | shuffling yields a permutation of the cards, for every random outcome |
| Decks.ShuffleDeck | src/main/java/Model/Deck.java:39-41 | `shuffle` permutes the draw pile and leaves the discard pile alone |
| Decks.Reshuffle | src/main/java/Model/Deck.java:32-37 | the shuffled discard pile lands on the (old) draw pile, the discard pile is emptied, no card is made or lost |
| Decks.Pop | src/main/java/Model/Deck.java:25 | popping removes the last card of a non-empty draw pile and nothing else |
| Decks.DrawCard | src/main/java/Model/Deck.java:18-26 | drawing fails iff both piles are empty; with cards on the draw pile it returns the top one; with only discards it recycles them first and draws one of them; the drawn card plus the deck left equal the deck before |
| Decks.DrawAfterAdd | src/main/java/Model/Deck.java:14-26 | pushing a card and drawing returns that card and the deck as it was |
| Decks.DrawMany | src/main/java/Model/Deck.java:18-26 | `n` draws give `n` cards and lose none; they can fail only when the deck holds fewer than `n` cards |
| Decks.RecycleReturnsDiscards | src/main/java/Model/Deck.java:18-37 | with the draw pile exhausted, drawing as many cards as were discarded returns exactly the discarded multiset and empties the deck |
| Decks.ReshuffleScenario | src/main/java/Model/Deck.java:18-37 | one card on the draw pile and three discarded: the first draw returns the top card, the second succeeds by recycling and empties the discard pile; a draw from an empty deck fails |
| Attacks.AddWeapon | src/main/java/Controller/GameController.java:193-196 | a weapon is refused iff its type is already in the attack; an accepted weapon is appended and its value added; one weapon per type, value = sum, is kept |
| Seqs.RemoveFirst | src/main/java/Controller/GameController.java:166 | removing a card from a hand takes one occurrence out of its multiset, or leaves the hand alone when the card is not in it |
| Game.DrawAdventure | src/main/java/Controller/GameController.java:127 | drawing an adventure card fails iff both piles are empty; otherwise the card leaves the deck, hands untouched |
| Game.DiscardAdventure | src/main/java/Controller/GameController.java:165 | a discarded card goes on top of the adventure discard pile and adds one card to the game |
| Game.DrawInto | src/main/java/Controller/GameController.java:127-128 | a drawn card goes into the player's hand; nothing else changes and no card is made or lost |
| Game.DrawCards | src/main/java/Controller/GameController.java:172-174 | `n` draws into one hand fail iff the deck holds fewer than `n` cards; on success the hand grows by exactly the drawn cards |
| Game.DiscardFromHand | src/main/java/Controller/GameController.java:163-168 | each listed card goes onto the discard pile and one occurrence leaves the hand; other hands and all shields are untouched |
| Game.DiscardFromHandSurplus | src/main/java/Controller/GameController.java:163-168 | discarding adds to the game exactly the listed cards the hand did not hold |
| Game.DiscardFromHandConserves | src/main/java/Controller/GameController.java:204-209 | discarding cards all held in the hand makes and loses no card |
| HandTrim.TrimStep | src/main/java/Controller/GameController.java:240-245 | a choice inside the hand removes exactly that card; any other choice changes nothing |
| HandTrim.TrimLoop | src/main/java/Controller/GameController.java:236-246 | a hand within the limit is left alone; otherwise trimming ends at exactly twelve cards, the kept and discarded cards together are the old hand, or input runs out while over the limit |
| HandTrim.TrimLoopFollows | src/main/java/Controller/GameController.java:236-246 | the cards kept and discarded are those the choices read give when applied one at a time as `TrimStep` says, every shorter run of those choices left the hand over twelve, and the rest of the choices is unread; it runs out of input only if every run of the choices leaves the hand over twelve |
| HandTrim.TrimFinishes | src/main/java/Controller/GameController.java:236-246 | with as many usable choices as cards over the limit, trimming always finishes and uses exactly that many choices |
| HandTrim.TrimHand | src/main/java/Controller/GameController.java:235-247 | `trimHandIfNeeded` leaves the hand at most twelve (exactly twelve if it was over), puts every removed card on the discard pile, touches no other hand or shield and makes or loses no card |
| HandTrim.TrimHandFollows | src/main/java/Controller/GameController.java:235-247 | `trimHandIfNeeded` leaves the hand and pushes onto the discard pile what the choices it read give one at a time through `TrimStep`, stops at the first choice that brings the hand down to twelve, and fails only if no run of the choices does |
| HandTrim.DrawThenTrim | src/main/java/Controller/GameController.java:219-222 | drawing `n` cards then trimming fails for lack of cards iff the deck holds fewer than `n`; runs out of input only if the hand went over the limit; otherwise the hand ends at min(old + n, 12), holds only old and drawn cards, and no card is made or lost |
| Sponsorship.SeatsDistinct | src/main/java/Controller/GameController.java:63-64 | no player is offered the quest twice in one round of offers |
| Sponsorship.SeatsCover | src/main/java/Controller/GameController.java:63-64 | every player is offered the quest within one round of offers |
| Sponsorship.Offer | src/main/java/Controller/GameController.java:63-71 | the first yes wins, and every earlier offer was declined; no sponsor means all declined |
| Sponsorship.FindSponsor | src/main/java/Controller/GameController.java:58-72 | offers go from the current player round the table; the sponsor is the first to say yes and every earlier player said no; nobody sponsors iff all players decline |
| Sponsorship.Ask | src/main/java/Controller/GameController.java:111-117 | every player but the sponsor from a seat on is asked once, in seat order; exactly the yes-sayers join |
| Sponsorship.SelectParticipants | src/main/java/Controller/GameController.java:111-117 | participants are exactly the non-sponsors who answered yes, each asked once in seating order; it fails iff fewer answers remain than players to ask |
| QuestBuilding.BuildStage | src/main/java/Controller/GameController.java:82-102 | a stage is closed only when valid and accepted by the quest's rule, and a first answer of 0 to such a stage closes it; the closed stage extends the one given and adds only hand cards; a first choice outside the hand fails with `IndexOutOfRange` (later choices: see `BuildStageStops`) |
| QuestBuilding.BuildStageStops | src/main/java/Controller/GameController.java:82-102 | the prompt loop reads choices up to the first one it cannot read past, and that choice decides: a 0 there closes the stage the earlier choices built and leaves every later choice untouched; a 0 given earlier to a stage that was not yet valid or accepted only re-prompted; a choice outside the hand there fails with `IndexOutOfRange`; running out of choices first fails with `InputExhausted`; such a point always exists |
| QuestBuilding.BuildStagePlaces | src/main/java/Controller/GameController.java:82-102 | the stage the prompt loop closes is the given stage with every card the read choices name offered to it, in order, placed cards skipped, and no other card; it reads at least one choice and leaves the rest untouched |
| QuestBuilding.BuildStages | src/main/java/Controller/GameController.java:78-103 | exactly the required number of stages, each committed by the rule given the stages before it; with placed cards refused, no card appears in two stages |
| QuestBuilding.ExtendsCommitted | src/main/java/Controller/GameController.java:84-94 | built stages are accepted in order, valid, and made of hand cards |
| QuestBuilding.BuildQuestAsWritten | src/main/java/Controller/GameController.java:74-105 | as written: `count` committed stages from the sponsor's hand, table unchanged; it never reports failure itself |
| QuestBuilding.BuildQuest | src/main/java/Controller/GameController.java:74-105 | corrected: as above, and additionally no card is used twice, so the stages' cards form a sub-multiset of the sponsor's hand |
| Quests.MonotoneRuleOrdersStages | src/main/java/Controller/GameController.java:89-93 | stages accepted one by one under `MonotoneRule` are valid and have non-decreasing values |
| Quests.MonotoneScenario | src/main/java/Controller/GameController.java:89-92 | stages of value 3 then 5 are accepted; a further stage of value 2 is refused; one of value 5 is accepted |
| Quests.StageCards | src/main/java/Controller/GameController.java:163-164 | the cards of all stages are exactly those found in some stage |
| QuestResolution.AttackChoice | src/main/java/Controller/GameController.java:187-196 | a non-weapon or a repeated weapon type is refused and leaves the attack unchanged; any other weapon joins it |
| QuestResolution.BuildAttack | src/main/java/Controller/GameController.java:179-202 | a first answer of 0 ends the attack as it is; the attack extends the one given and holds only weapons from the hand, one per type, with value their sum; a first choice outside the hand fails with `IndexOutOfRange` (later choices: see `BuildAttackStops`) |
| QuestResolution.BuildAttackStops | src/main/java/Controller/GameController.java:179-202 | `buildAttack` reads choices up to the first one that is not a hand position: a 0 there ends with the given attack plus the weapons the earlier choices name, offered in order, and leaves every later choice untouched; any other value there fails with `IndexOutOfRange`; running out of choices first fails with `InputExhausted`; such a point always exists |
| QuestResolution.BuildAttackArms | src/main/java/Controller/GameController.java:179-202 | the attack `buildAttack` ends with is the given one with every card the read choices name offered to it, in order, and no other card; it reads at least one choice and leaves the rest untouched |
| QuestResolution.DiscardAttackCards | src/main/java/Controller/GameController.java:204-209 | every attack weapon goes on the discard pile and leaves the hand; other hands and shields are untouched; weapons from the hand make and lose no card |
| QuestResolution.AttackRound | src/main/java/Controller/GameController.java:134-140 | exactly the active participants attack, each from their own hand, and every attack is discarded whatever its strength |
| QuestResolution.Survivors | src/main/java/Controller/GameController.java:136-138 | a player who attacked goes on iff their attack's value is at least the stage's value; nobody else goes on |
| QuestResolution.SurvivorsMonotone | src/main/java/Controller/GameController.java:136-138 | a stronger stage lets no more players through; a stage no stronger than every attack lets all attackers through |
| QuestResolution.DrawAndTrim | src/main/java/Controller/GameController.java:127-129 | one card drawn then trimmed: it fails for lack of cards iff the deck is empty, takes at most one card from the deck, and the hand grows by one or is cut back to twelve, holding only old cards and the new one |
| QuestResolution.DrawRound | src/main/java/Controller/GameController.java:126-130 | exactly the active participants draw one card each and are trimmed; others are untouched and no card is made or lost |
| QuestResolution.DrawRoundBudget | src/main/java/Controller/GameController.java:126-130 | the draw loop takes at most one card of the deck per participant still to draw, so a deck holding that many cards never runs out during it |
| QuestResolution.AttackRoundKeepsDeck | src/main/java/Controller/GameController.java:134-140 | the attack loop takes nothing from the draw pile and only adds to the discard pile |
| QuestResolution.PlayStage | src/main/java/Controller/GameController.java:125-140 | a stage: each participant draws exactly one card and is trimmed, then attacks; each ends within the limit with an attack of distinct weapon types, and their new hand plus the attack's weapons come from the old hand plus the one drawn card; nobody else changes and no card is made or lost; a stage takes at most one card of the deck per participant, so it never runs out of cards while the deck holds one per participant |
| QuestResolution.Award | src/main/java/Controller/GameController.java:143-149 | exactly the winners gain `reward` shields; hands and the deck are untouched |
| QuestResolution.WinnersBeatEveryStage | src/main/java/Controller/GameController.java:121-149 | the winners are exactly the players who reached every stage, the last included, and whose attack was at least each stage's value |
| QuestResolution.TwoStageScenario | src/main/java/Controller/GameController.java:121-149 | stages of values 3 and 5: attacks of 4 and 2 leave only the first player, whose tie of 5 at the last stage makes them the only winner |
| QuestResolution.ResolveFrom | src/main/java/Controller/GameController.java:121-150 | stages are played while some remain and someone is in, each round by the survivors of the one before; every round records one drawn card and one legal attack for each player in it; the winners are among the starters, gain the reward, and no card is made or lost; the deck gives up at most one card per starter and stage left |
| QuestResolution.ResolveFromBudget | src/main/java/Controller/GameController.java:121-150 | a deck holding one card per starter and stage left never runs out before the stages end |
| QuestResolution.PlayedWithin | src/main/java/Controller/GameController.java:121-150 | stages joined by at most every player but the sponsor never run out of cards while the deck holds one card per non-sponsor and stage plus the cleanup draw |
| QuestResolution.PlayedLeaves | src/main/java/Controller/GameController.java:107-154 | such stages, when they end without a fault, leave at least the cards the sponsor draws at cleanup |
| QuestResolution.ResolveQuest | src/main/java/Controller/GameController.java:107-154 | participants are the non-sponsors who said yes; the stages are played as above with legal attacks; the sponsor draws as many cards as the stages held plus one per stage and keeps only what remains of the old hand and those cards; the game gains exactly the stage cards the sponsor did not hold |
| QuestResolution.ResolveQuestBudget | src/main/java/Controller/GameController.java:107-154 | a quest never fails for lack of cards while the deck holds one card per non-sponsor and stage plus the stage count the sponsor draws back |
| QuestCleanup.Cleanup | src/main/java/Controller/GameController.java:156-177 | stage cards are discarded from the sponsor's hand, then cards used plus stage count are drawn and the hand trimmed; it fails for lack of cards iff the deck holds fewer than the stage count; the game gains exactly the stage cards the sponsor did not hold |
| QuestCleanup.CleanupConserves | src/main/java/Controller/GameController.java:156-177 | when the stage cards came from the sponsor's hand, cleanup makes and loses no card and the sponsor ends with min(old size + stage count, 12) cards |
| Events.Plagued | src/main/java/Controller/GameController.java:213-217 | the current player loses exactly two shields, with no floor; nothing else changes |
| Events.ProsperityFrom | src/main/java/Controller/GameController.java:225-230 | every player from a seat on draws two cards and is trimmed, in seating order; the deck cannot run dry while it holds two cards per player still to draw |
| Events.HandleEvent | src/main/java/Controller/GameController.java:211-233 | Plague costs the current player two shields and nothing else; Queen's Favor refills the current player by two, failing for lack of cards iff the deck holds fewer than two; Prosperity refills everyone by two; no event makes or loses a card |
| QuestFlow.RunQuest | src/main/java/Controller/GameController.java:49-55 | corrected: a built and resolved quest has the stage count asked for, committed from the sponsor's hand, excludes the sponsor from the participants, has legal attacks, refills the sponsor, and makes or loses no card |
| QuestFlow.RunQuestAsWritten | src/main/java/Controller/GameController.java:49-55 | as written: the quest runs as above, but the game gains every stage card the sponsor did not hold |
| QuestFlow.RunQuestBudget | src/main/java/Controller/GameController.java:49-55 | building draws no card, so a built and resolved quest never fails for lack of cards while the deck holds a card per player and stage |
| QuestFlow.RunQuestAsWrittenBudget | src/main/java/Controller/GameController.java:49-55 | as written: the same deck bound rules out running out of cards |
| QuestFlow.QuestDraws | src/main/java/Controller/GameController.java:121-177 | one card per non-sponsor and stage plus one per stage for the sponsor is one card per player and stage |
| QuestFlow.HandleQuest | src/main/java/Controller/GameController.java:42-56 | corrected: nobody sponsoring leaves the table unchanged; otherwise the quest is built and resolved as `RunQuest` says; no card is made or lost |
| QuestFlow.HandleQuestAsWritten | src/main/java/Controller/GameController.java:42-56 | as written: nobody sponsoring leaves the table unchanged; otherwise the quest runs as `RunQuestAsWritten` says and the game gains the stage cards the sponsor did not hold |
| QuestFlow.HandleQuestBudget | src/main/java/Controller/GameController.java:42-56 | finding a sponsor draws no card, so handling a quest never fails for lack of cards while the deck holds a card per player and stage |
| QuestFlow.HandleQuestAsWrittenBudget | src/main/java/Controller/GameController.java:42-56 | as written: the same deck bound rules out running out of cards |
| QuestFlow.AsWrittenPlacesTwice | src/main/java/Controller/GameController.java:82-102 | as written, choosing the sponsor's only Foe, closing, and choosing it again closes two stages holding the same card |
| QuestFlow.ExclusiveRefuses | src/main/java/Controller/GameController.java:82-102 | with placed cards refused, the same answers cannot close the second stage |
| QuestFlow.DuplicatedStageCard | src/main/java/Controller/GameController.java:96-101 | for a sponsor holding one Foe, the answers 1,0,1,0 build two stages from that one card as written, and the corrected building refuses them |
| QuestFlow.CleanupDuplicates | src/main/java/Controller/GameController.java:163-167 | cleaning up two stages that share the sponsor's only card succeeds and leaves the game with one more copy of that card |

## Left out

- Display and prompting (`GameView`) are left out. Answers and card choices are an `Input` parameter; an exhausted input stands for the endless re-prompting.
- The turn loop (`startGame`, `playTurn`, `endTurn`, `announceWinners`) is left out. So are the event deck and the game-over test, which live in Game.java. Game.java is not part of this model.
- Player.java, Quest.java and Attack.java are not part of this model.
  - `removeCardFromHand` is assumed to be `List.remove(Object)`: the first equal card goes.
  - `addShields` and `loseShields` are assumed to add and subtract with no clamp.
  - `Quest.addStage` is the parameter `StageRule`; `MonotoneRule` accepts a valid stage no weaker than the one before it.
  - `Attack.addWeapon` and `Attack.getValue` are modelled minimally in `Attacks`.
- The `HashSet` iteration in `resolveQuest` is modelled as seating order. The order in which participants draw and attack inside a stage is unspecified in the source. It changes which cards they draw but not the properties stated here.
- `Decks.Shuffle`: every result is proved to be a permutation. That each permutation can be reached is not proved.
- QuestFlow.RunQuest: builds the stages with the corrected `BuildQuest`, so it does not make cards. The code as written is `QuestFlow.RunQuestAsWritten` (see "Findings").
- QuestFlow.HandleQuest: likewise uses the corrected building. The code as written is `QuestFlow.HandleQuestAsWritten`.
- QuestResolution.ResolveFrom: the record of a round keeps the drawn card and a legal attack for each player in it. That the attack's weapons came from that player's hand is stated per stage by `PlayStage`, not in the record.
- QuestResolution.ResolveQuestBudget: the deck bound is sufficient, not necessary. Players knocked out draw no more cards, so a smaller deck can also carry a quest through; which size is needed depends on the attacks.
- State after a fault is not modelled: a fault ends the routine with no table. The source would leave a partly updated game behind an exception.
- Integer width: shields, values and counts are unbounded integers. No 32-bit overflow can occur at the sizes of this game.

## Findings

| source | as written | input that shows it | evidently intended | confidence | as-written member | corrected member |
|---|---|---|---|---|---|---|
| src/main/java/Controller/GameController.java:96-101, 163-167 | `buildQuest` checks a chosen card only against the current stage, so a card already placed in an earlier stage can be placed again; `cleanupQuest` then discards it once per stage but removes it from the hand only once | a sponsor holding one Foe, building a 2-stage quest with choices 1, 0, 1, 0: both stages hold that Foe, and cleanup puts it on the discard pile twice, so the game has one more copy of the card | a card in one stage cannot be placed in another, so stage cards are a sub-multiset of the sponsor's hand and cleanup neither makes nor loses a card | not executed | QuestFlow.DuplicatedStageCard, QuestFlow.CleanupDuplicates, QuestBuilding.BuildQuestAsWritten, QuestFlow.HandleQuestAsWritten | QuestBuilding.BuildQuest, QuestFlow.HandleQuest |

=== FILE: attack.dfy ===
/**
 * `Attack`: the weapons one participant commits against one stage. Attack.java
 * is not part of this model; this is the minimal behaviour the controller
 * relies on: a weapon of a type already present is refused, and the value is
 * the running sum of the accepted weapons.
 */
module Attacks {
  import Seqs
  import opened Cards

  datatype Attack = Attack(weapons: seq<AdventureCard>, value: int)

  /** `new Attack()`. */
  const NewAttack: Attack := Attack([], 0)

  /** Only weapons, one per type, and the value is their sum. */
  predicate Inv(a: Attack) {
    && (forall w <- a.weapons :: w.Weapon?)
    && WeaponTypesDistinct(a.weapons)
    && a.value == Total(a.weapons)
  }

  /** `addWeapon`: refuse a weapon whose type is already in the attack. */
  function AddWeapon(a: Attack, w: AdventureCard): (r: (bool, Attack))
    requires w.Weapon?
    ensures r.0 <==> !HasWeaponOfType(a.weapons, w.kind)
    ensures !r.0 ==> r.1 == a
    ensures r.0 ==> r.1.weapons == a.weapons + [w] && r.1.value == a.value + w.value
    ensures Inv(a) ==> Inv(r.1)
  {
    TotalSnoc(a.weapons, w);
    if AnyWeaponOfType(a.weapons, w.kind) then (false, a)
    else (true, Attack(a.weapons + [w], a.value + w.value))
  }

  /** An attack never holds the same card twice. */
  lemma WeaponsDistinct(a: Attack)
    requires Inv(a)
    ensures Seqs.Distinct(a.weapons)
  {
  }

  /**
   * Offer the cards `cs` to `a` one after another: a non-weapon is passed
   * over, a weapon goes through `addWeapon`.
   */
  function Arm(a: Attack, cs: seq<AdventureCard>): (r: Attack)
    ensures Inv(a) ==> Inv(r)
    ensures a.weapons <= r.weapons
    ensures forall w <- r.weapons :: w in a.weapons || w in cs
    decreases |cs|
  {
    if cs == [] then a
    else
      var a1 := if cs[0].Weapon? then AddWeapon(a, cs[0]).1 else a;
      assert forall w <- cs[1..] :: w in cs;
      Arm(a1, cs[1..])
  }

  /** Arming with one card more in front is arming with that card first. */
  lemma ArmCons(a: Attack, c: AdventureCard, cs: seq<AdventureCard>)
    ensures Arm(a, [c] + cs) == Arm(if c.Weapon? then AddWeapon(a, c).1 else a, cs)
  {
    assert ([c] + cs)[1..] == cs;
  }
}

=== FILE: build.dfy ===
/** `buildQuest`: the sponsor assembles the quest's stages from their hand. */
module QuestBuilding {
  import opened Results
  import opened Seqs
  import opened Cards
  import opened Stages
  import opened Quests
  import opened Game

  /** The stages, with the choices left unused. */
  datatype Built = Built(stages: seq<Stage>, rest: seq<int>)

  /**
   * A stage the prompt loop may close: valid, accepted by `rule` after
   * `built`, and made of hand cards not in `placed`.
   */
  ghost predicate StageClosed(hand: seq<AdventureCard>, rule: StageRule, built: seq<Stage>, placed: seq<AdventureCard>,
                              s: Stage) {
    && Inv(s) && IsValid(s) && rule(built, s)
    && (forall c <- s.cards :: c in hand && c !in placed)
  }

  /**
   * `s` is `st` with the cards that the choices read before `rest` name
   * placed in order.
   */
  ghost predicate PlacedFrom(hand: seq<AdventureCard>, placed: seq<AdventureCard>, st: Stage, choices: seq<int>,
                             s: Stage, rest: seq<int>) {
    && |rest| < |choices| && rest == choices[|choices| - |rest|..]
    && s == Place(st, Picked(hand, placed, choices[..|choices| - |rest|]))
    && st.cards <= s.cards
  }

  /**
   * The prompt loop for one stage, continuing from the partly built `st`.
   * Choice 0 commits the stage if it is valid and `rule` accepts it, and
   * otherwise re-prompts for the same stage; a choice `i` offers the `i`-th
   * hand card to the stage (refused cards change nothing); a non-zero choice
   * outside the hand is an index error. Cards in `placed` are refused too:
   * the code as written passes none.
   */
  function BuildStage(hand: seq<AdventureCard>, rule: StageRule, built: seq<Stage>,
                      placed: seq<AdventureCard>, st: Stage, choices: seq<int>)
    : (r: Result<(Stage, seq<int>), Fault>)
    requires Inv(st)
    requires forall c <- st.cards :: c in hand && c !in placed
    ensures r.Failure? ==> r.error == InputExhausted || r.error == IndexOutOfRange
    ensures choices != [] && choices[0] != 0 && !(1 <= choices[0] <= |hand|) ==> r == Failure(IndexOutOfRange)
    ensures choices != [] && choices[0] == 0 && IsValid(st) && rule(built, st) ==> r == Success((st, choices[1..]))
    ensures r.Success? ==> StageClosed(hand, rule, built, placed, r.value.0)
    ensures r.Success? ==>
              var (s, rest) := r.value;
              st.cards <= s.cards && |rest| < |choices| && rest == choices[|choices| - |rest|..]
    decreases |choices|
  {
    if choices == [] then Failure(InputExhausted)
    else
      assert forall k {:trigger choices[k..]} | 1 <= k <= |choices| :: choices[1..][k - 1..] == choices[k..];
      var c := choices[0];
      if c == 0 then
        if IsValid(st) && rule(built, st) then Success((st, choices[1..]))
        else BuildStage(hand, rule, built, placed, st, choices[1..])
      else if c < 1 || c > |hand| then Failure(IndexOutOfRange)
      else if hand[c - 1] in placed then BuildStage(hand, rule, built, placed, st, choices[1..])
      else
        var st1 := AddCard(st, hand[c - 1]).1;
        assert st.cards <= st1.cards;
        BuildStage(hand, rule, built, placed, st1, choices[1..])
  }

  /**
   * The stage the prompt loop closes is `st` with the cards that the choices
   * it read name placed in order, cards in `placed` left out: every chosen
   * card is offered to the stage, and nothing else is.
   */
  lemma {:induction false} BuildStagePlaces(hand: seq<AdventureCard>, rule: StageRule, built: seq<Stage>,
                                            placed: seq<AdventureCard>, st: Stage, choices: seq<int>)
    requires Inv(st)
    requires forall c <- st.cards :: c in hand && c !in placed
    ensures var r := BuildStage(hand, rule, built, placed, st, choices);
      r.Success? ==> PlacedFrom(hand, placed, st, choices, r.value.0, r.value.1)
    decreases |choices|
  {
    var r := BuildStage(hand, rule, built, placed, st, choices);
    if choices != [] && r.Success? {
      var c := choices[0];
      if c == 0 && IsValid(st) && rule(built, st) {
        PlacedAtOnce(hand, placed, st, choices);
      } else {
        var st1 := if c != 0 && hand[c - 1] !in placed then AddCard(st, hand[c - 1]).1 else st;
        assert r == BuildStage(hand, rule, built, placed, st1, choices[1..]);
        BuildStagePlaces(hand, rule, built, placed, st1, choices[1..]);
        PlacedResumed(hand, placed, st, st1, choices, r.value.0, r.value.1);
      }
    }
  }

  /** Answering 0 first places nothing. */
  lemma PlacedAtOnce(hand: seq<AdventureCard>, placed: seq<AdventureCard>, st: Stage, choices: seq<int>)
    requires choices != [] && choices[0] == 0
    ensures PlacedFrom(hand, placed, st, choices, st, choices[1..])
  {
    assert choices[..1] == [0];
    assert Picked(hand, placed, [0]) == Named(hand, placed, 0) + Picked(hand, placed, []);
  }

  /**
   * The stage a run of choices builds is `st` with the cards they name
   * placed in order, when the first choice names its card (or nothing)
   * and the rest of the run places the others.
   */
  lemma PlacedResumed(hand: seq<AdventureCard>, placed: seq<AdventureCard>, st: Stage, st1: Stage,
                      choices: seq<int>, s: Stage, rest: seq<int>)
    requires choices != []
    requires Named(hand, placed, choices[0]) == [] ==> st1 == st
    requires Named(hand, placed, choices[0]) != [] ==> st1 == AddCard(st, hand[choices[0] - 1]).1
    requires PlacedFrom(hand, placed, st1, choices[1..], s, rest)
    ensures PlacedFrom(hand, placed, st, choices, s, rest)
  {
    SuffixStep(choices, rest);
    PickedResumed(hand, placed, choices, rest);
    var later := Picked(hand, placed, choices[1..][..|choices| - 1 - |rest|]);
    var picked := Picked(hand, placed, choices[..|choices| - |rest|]);
    if Named(hand, placed, choices[0]) != [] {
      var card := hand[choices[0] - 1];
      assert picked == [card] + later;
      PlaceCons(st, card, later);
    } else {
      assert picked == later;
    }
  }

  /** The stage the first `j` choices build from `st`: the cards they name, offered in order. */
  ghost function StageAfter(hand: seq<AdventureCard>, placed: seq<AdventureCard>, st: Stage, choices: seq<int>, j: nat)
    : (r: Stage)
    requires j <= |choices|
  {
    Place(st, Picked(hand, placed, choices[..j]))
  }

  /** Choice `j` is a 0 given to a stage that is valid and that `rule` accepts. */
  ghost predicate ClosesAt(hand: seq<AdventureCard>, rule: StageRule, built: seq<Stage>, placed: seq<AdventureCard>,
                           st: Stage, choices: seq<int>, j: nat) {
    && j < |choices| && choices[j] == 0
    && IsValid(StageAfter(hand, placed, st, choices, j))
    && rule(built, StageAfter(hand, placed, st, choices, j))
  }

  /** Choice `j` is read and the prompt goes on: a 0 that cannot close the stage yet, or a hand card. */
  ghost predicate ReadsOn(hand: seq<AdventureCard>, rule: StageRule, built: seq<Stage>, placed: seq<AdventureCard>,
                          st: Stage, choices: seq<int>, j: nat) {
    && j < |choices| && (choices[j] == 0 || 1 <= choices[j] <= |hand|)
    && !ClosesAt(hand, rule, built, placed, st, choices, j)
  }

  /** The prompt goes on past each of the first `k` choices. */
  ghost predicate ReadsThrough(hand: seq<AdventureCard>, rule: StageRule, built: seq<Stage>, placed: seq<AdventureCard>,
                               st: Stage, choices: seq<int>, k: nat) {
    forall j | 0 <= j < k :: ReadsOn(hand, rule, built, placed, st, choices, j)
  }

  /**
   * What the prompt loop for a stage yields when choice `k` is the first
   * it does not read past: input runs out if the choices end there, a 0
   * closes the stage built so far, and any other choice is an index error.
   */
  ghost function StageOutcome(hand: seq<AdventureCard>, rule: StageRule, built: seq<Stage>, placed: seq<AdventureCard>,
                              st: Stage, choices: seq<int>, k: nat)
    : (r: Result<(Stage, seq<int>), Fault>)
    requires k <= |choices|
  {
    if k == |choices| then Failure(InputExhausted)
    else if ClosesAt(hand, rule, built, placed, st, choices, k) then
      Success((StageAfter(hand, placed, st, choices, k), choices[k + 1..]))
    else Failure(IndexOutOfRange)
  }

  /** Choice `k` is the first the prompt does not read past (or the choices end there). */
  ghost predicate StopsAt(hand: seq<AdventureCard>, rule: StageRule, built: seq<Stage>, placed: seq<AdventureCard>,
                          st: Stage, choices: seq<int>, k: nat) {
    && k <= |choices|
    && ReadsThrough(hand, rule, built, placed, st, choices, k)
    && !ReadsOn(hand, rule, built, placed, st, choices, k)
  }

  /**
   * `r` is what the prompt loop for a stage yields by the rule of its
   * stopping point: some choice is the first it does not read past (or the
   * choices end there), and at that point `StageOutcome` gives `r`.
   */
  ghost predicate StopsWith(hand: seq<AdventureCard>, rule: StageRule, built: seq<Stage>, placed: seq<AdventureCard>,
                            st: Stage, choices: seq<int>, r: Result<(Stage, seq<int>), Fault>) {
    && (exists k: nat :: StopsAt(hand, rule, built, placed, st, choices, k))
    && (forall k: nat | StopsAt(hand, rule, built, placed, st, choices, k) ::
          k <= |choices| && r == StageOutcome(hand, rule, built, placed, st, choices, k))
  }

  /**
   * The prompt loop for a stage reads choices up to the first it cannot
   * read past, and that choice decides the outcome as `StageOutcome` says:
   * a 0 there closes the stage the earlier choices built, with the rest of
   * the choices untouched; a 0 given earlier to a stage that was not yet
   * valid or accepted only re-prompted; a choice outside the hand there is
   * an index error; reaching the end first runs out of input. Such a
   * stopping point always exists.
   */
  lemma {:induction false} BuildStageStops(hand: seq<AdventureCard>, rule: StageRule, built: seq<Stage>,
                                           placed: seq<AdventureCard>, st: Stage, choices: seq<int>)
    requires Inv(st)
    requires forall c <- st.cards :: c in hand && c !in placed
    ensures StopsWith(hand, rule, built, placed, st, choices, BuildStage(hand, rule, built, placed, st, choices))
    decreases |choices|
  {
    if !ReadsOn(hand, rule, built, placed, st, choices, 0) {
      BuildStageAtOnce(hand, rule, built, placed, st, choices);
      StopsAtOnce(hand, rule, built, placed, st, choices, BuildStage(hand, rule, built, placed, st, choices));
    } else {
      var c := choices[0];
      var st1 := if Named(hand, placed, c) != [] then AddCard(st, hand[c - 1]).1 else st;
      BuildStageReads(hand, rule, built, placed, st, st1, choices);
      BuildStageStops(hand, rule, built, placed, st1, choices[1..]);
      StopsLater(hand, rule, built, placed, st, st1, choices, BuildStage(hand, rule, built, placed, st1, choices[1..]));
    }
  }

  /** A first choice the prompt does not read past decides the loop's outcome there. */
  lemma {:induction false} BuildStageAtOnce(hand: seq<AdventureCard>, rule: StageRule, built: seq<Stage>,
                                            placed: seq<AdventureCard>, st: Stage, choices: seq<int>)
    requires Inv(st)
    requires forall c <- st.cards :: c in hand && c !in placed
    requires !ReadsOn(hand, rule, built, placed, st, choices, 0)
    ensures BuildStage(hand, rule, built, placed, st, choices) == StageOutcome(hand, rule, built, placed, st, choices, 0)
  {
  }

  /** A first choice the prompt reads past hands the loop on to the rest, from the stage it gives. */
  lemma {:induction false} BuildStageReads(hand: seq<AdventureCard>, rule: StageRule, built: seq<Stage>,
                                           placed: seq<AdventureCard>, st: Stage, st1: Stage, choices: seq<int>)
    requires Inv(st)
    requires forall c <- st.cards :: c in hand && c !in placed
    requires ReadsOn(hand, rule, built, placed, st, choices, 0)
    requires Named(hand, placed, choices[0]) == [] ==> st1 == st
    requires Named(hand, placed, choices[0]) != [] ==> st1 == AddCard(st, hand[choices[0] - 1]).1
    ensures Inv(st1) && forall c <- st1.cards :: c in hand && c !in placed
    ensures BuildStage(hand, rule, built, placed, st, choices) == BuildStage(hand, rule, built, placed, st1, choices[1..])
  {
  }

  /** A first choice the prompt does not read past is where it stops. */
  lemma {:induction false} StopsAtOnce(hand: seq<AdventureCard>, rule: StageRule, built: seq<Stage>,
                                       placed: seq<AdventureCard>, st: Stage, choices: seq<int>,
                                       r: Result<(Stage, seq<int>), Fault>)
    requires !ReadsOn(hand, rule, built, placed, st, choices, 0)
    requires r == StageOutcome(hand, rule, built, placed, st, choices, 0)
    ensures StopsWith(hand, rule, built, placed, st, choices, r)
  {
    assert choices[..0] == [];
    assert ReadsThrough(hand, rule, built, placed, st, choices, 0);
    assert StopsAt(hand, rule, built, placed, st, choices, 0);
  }

  /**
   * A first choice the prompt reads past leaves the outcome `r` to the rest
   * of the choices, from the stage that choice gives.
   */
  lemma {:induction false} StopsLater(hand: seq<AdventureCard>, rule: StageRule, built: seq<Stage>,
                                      placed: seq<AdventureCard>, st: Stage, st1: Stage, choices: seq<int>,
                                      r: Result<(Stage, seq<int>), Fault>)
    requires ReadsOn(hand, rule, built, placed, st, choices, 0)
    requires Named(hand, placed, choices[0]) == [] ==> st1 == st
    requires Named(hand, placed, choices[0]) != [] ==> st1 == AddCard(st, hand[choices[0] - 1]).1
    requires StopsWith(hand, rule, built, placed, st1, choices[1..], r)
    ensures StopsWith(hand, rule, built, placed, st, choices, r)
  {
    var tail := choices[1..];
    var k1: nat :| StopsAt(hand, rule, built, placed, st1, tail, k1);
    StopsShift(hand, rule, built, placed, st, st1, choices, k1);
    forall k: nat | StopsAt(hand, rule, built, placed, st, choices, k)
      ensures k <= |choices| && r == StageOutcome(hand, rule, built, placed, st, choices, k)
    {
      var k0 := k - 1;
      StopsShift(hand, rule, built, placed, st, st1, choices, k0);
      StageOutcomeStep(hand, rule, built, placed, st, st1, choices, k0);
    }
  }

  /** Past a first choice the prompt reads past, it stops where it stops over the rest. */
  lemma {:induction false} StopsShift(hand: seq<AdventureCard>, rule: StageRule, built: seq<Stage>, placed: seq<AdventureCard>,
                                      st: Stage, st1: Stage, choices: seq<int>, k: int)
    requires ReadsOn(hand, rule, built, placed, st, choices, 0)
    requires Named(hand, placed, choices[0]) == [] ==> st1 == st
    requires Named(hand, placed, choices[0]) != [] ==> st1 == AddCard(st, hand[choices[0] - 1]).1
    ensures k >= 0 ==> (StopsAt(hand, rule, built, placed, st, choices, k + 1) == StopsAt(hand, rule, built, placed, st1, choices[1..], k))
    ensures !StopsAt(hand, rule, built, placed, st, choices, 0)
  {
    if k >= 0 {
      ReadsShift(hand, rule, built, placed, st, st1, choices, k);
    }
  }

  /** The stage the first `j + 1` choices build is the one the rest builds from the stage the first gives. */
  lemma {:induction false} StageAfterStep(hand: seq<AdventureCard>, placed: seq<AdventureCard>, st: Stage, st1: Stage,
                       choices: seq<int>, j: nat)
    requires j < |choices|
    requires Named(hand, placed, choices[0]) == [] ==> st1 == st
    requires Named(hand, placed, choices[0]) != [] ==> st1 == AddCard(st, hand[choices[0] - 1]).1
    ensures StageAfter(hand, placed, st, choices, j + 1) == StageAfter(hand, placed, st1, choices[1..], j)
  {
    var later := Picked(hand, placed, choices[1..][..j]);
    assert choices[..j + 1][0] == choices[0] && choices[..j + 1][1..] == choices[1..][..j];
    assert Picked(hand, placed, choices[..j + 1]) == Named(hand, placed, choices[0]) + later;
    if Named(hand, placed, choices[0]) != [] {
      PlaceCons(st, hand[choices[0] - 1], later);
    } else {
      assert Named(hand, placed, choices[0]) + later == later;
    }
  }

  /** Past the first choice, a 0 closes the stage as it does over the rest from the stage that choice gives. */
  lemma {:induction false} ClosesShift(hand: seq<AdventureCard>, rule: StageRule, built: seq<Stage>, placed: seq<AdventureCard>,
                                       st: Stage, st1: Stage, choices: seq<int>, k: nat)
    requires choices != []
    requires Named(hand, placed, choices[0]) == [] ==> st1 == st
    requires Named(hand, placed, choices[0]) != [] ==> st1 == AddCard(st, hand[choices[0] - 1]).1
    ensures ClosesAt(hand, rule, built, placed, st, choices, k + 1) == ClosesAt(hand, rule, built, placed, st1, choices[1..], k)
  {
    if k + 1 < |choices| {
      StageAfterStep(hand, placed, st, st1, choices, k);
      assert choices[k + 1] == choices[1..][k];
    }
  }

  /** Past the first choice, the prompt reads on as it does over the rest from the stage that choice gives. */
  lemma {:induction false} ReadsShift(hand: seq<AdventureCard>, rule: StageRule, built: seq<Stage>, placed: seq<AdventureCard>,
                   st: Stage, st1: Stage, choices: seq<int>, k: nat)
    requires choices != []
    requires Named(hand, placed, choices[0]) == [] ==> st1 == st
    requires Named(hand, placed, choices[0]) != [] ==> st1 == AddCard(st, hand[choices[0] - 1]).1
    ensures ClosesAt(hand, rule, built, placed, st, choices, k + 1) == ClosesAt(hand, rule, built, placed, st1, choices[1..], k)
    ensures ReadsOn(hand, rule, built, placed, st, choices, k + 1) == ReadsOn(hand, rule, built, placed, st1, choices[1..], k)
    ensures ReadsThrough(hand, rule, built, placed, st, choices, k + 1)
         == (ReadsOn(hand, rule, built, placed, st, choices, 0) && ReadsThrough(hand, rule, built, placed, st1, choices[1..], k))
  {
    forall j | 0 <= j < |choices| - 1
      ensures choices[j + 1] == choices[1..][j]
      ensures StageAfter(hand, placed, st, choices, j + 1) == StageAfter(hand, placed, st1, choices[1..], j)
    {
      StageAfterStep(hand, placed, st, st1, choices, j);
    }
    if ReadsThrough(hand, rule, built, placed, st, choices, k + 1) {
      forall j | 0 <= j < k ensures ReadsOn(hand, rule, built, placed, st1, choices[1..], j) {
        assert ReadsOn(hand, rule, built, placed, st, choices, j + 1);
      }
    }
    if ReadsOn(hand, rule, built, placed, st, choices, 0) && ReadsThrough(hand, rule, built, placed, st1, choices[1..], k) {
      forall j | 0 <= j < k + 1 ensures ReadsOn(hand, rule, built, placed, st, choices, j) {
        if j > 0 { assert ReadsOn(hand, rule, built, placed, st1, choices[1..], j - 1); }
      }
    }
  }

  /** Past the first choice, the outcome is that of the rest from the stage that choice gives. */
  lemma {:induction false} StageOutcomeStep(hand: seq<AdventureCard>, rule: StageRule, built: seq<Stage>, placed: seq<AdventureCard>,
                                            st: Stage, st1: Stage, choices: seq<int>, k: nat)
    requires k < |choices|
    requires Named(hand, placed, choices[0]) == [] ==> st1 == st
    requires Named(hand, placed, choices[0]) != [] ==> st1 == AddCard(st, hand[choices[0] - 1]).1
    ensures StageOutcome(hand, rule, built, placed, st, choices, k + 1) == StageOutcome(hand, rule, built, placed, st1, choices[1..], k)
  {
    if k + 1 < |choices| {
      ClosesShift(hand, rule, built, placed, st, st1, choices, k);
      if ClosesAt(hand, rule, built, placed, st1, choices[1..], k) {
        StageAfterStep(hand, placed, st, st1, choices, k);
        assert choices[k + 2..] == choices[1..][k + 1..];
      }
    }
  }

  /** The cards of stages `built` plus one more stage, in order. */
  lemma StageCardsSnoc(built: seq<Stage>, s: Stage)
    ensures StageCards(built + [s]) == StageCards(built) + s.cards
  {
    assert (built + [s])[..|built|] == built;
  }

  /** Stage `i` is one that `buildQuest` commits given the stages before it. */
  predicate GoodStage(hand: seq<AdventureCard>, rule: StageRule, stages: seq<Stage>, i: nat)
    requires i < |stages|
  {
    && Inv(stages[i]) && IsValid(stages[i]) && rule(stages[..i], stages[i])
    && forall c <- stages[i].cards :: c in hand
  }

  /** `stages` continues `built` with committed stages only. */
  predicate Extends(hand: seq<AdventureCard>, rule: StageRule, built: seq<Stage>, stages: seq<Stage>) {
    && |built| <= |stages| && stages[..|built|] == built
    && forall i | |built| <= i < |stages| :: GoodStage(hand, rule, stages, i)
  }

  /** A committed stage followed by committed stages extends what came before it. */
  lemma ExtendsStep(hand: seq<AdventureCard>, rule: StageRule, built: seq<Stage>, s: Stage, stages: seq<Stage>)
    requires Extends(hand, rule, built + [s], stages)
    requires Inv(s) && IsValid(s) && rule(built, s) && forall c <- s.cards :: c in hand
    ensures Extends(hand, rule, built, stages)
  {
    assert stages[..|built|] == (built + [s])[..|built|];
    assert stages[|built|] == s && stages[..|built|] == built;
  }

  /** A stage with no card of the earlier stages keeps the stages' cards distinct. */
  lemma DistinctStep(built: seq<Stage>, s: Stage)
    requires Distinct(StageCards(built)) && Inv(s)
    requires forall c <- s.cards :: c !in StageCards(built)
    ensures Distinct(StageCards(built + [s]))
  {
    StageCardsSnoc(built, s);
    StageCardsDistinct(s);
    DistinctConcat(StageCards(built), s.cards);
  }

  /**
   * The outer loop of `buildQuest`, from stage `|built| + 1` to `count`. With
   * `exclusive`, a card placed in an earlier stage is refused.
   */
  function BuildStages(hand: seq<AdventureCard>, rule: StageRule, count: nat, built: seq<Stage>,
                       exclusive: bool, choices: seq<int>)
    : (r: Result<Built, Fault>)
    requires |built| <= count
    ensures r.Failure? ==> r.error == InputExhausted || r.error == IndexOutOfRange
    ensures r.Success? ==>
              var Built(stages, rest) := r.value;
              && |stages| == count
              && Extends(hand, rule, built, stages)
              && (exclusive && Distinct(StageCards(built)) ==> Distinct(StageCards(stages)))
              && |rest| <= |choices| && rest == choices[|choices| - |rest|..]
    decreases count - |built|
  {
    if |built| == count then Success(Built(built, choices))
    else
      var placed := if exclusive then StageCards(built) else [];
      var one := BuildStage(hand, rule, built, placed, NewStage, choices);
      if one.Failure? then Failure(one.error)
      else
        var (s, rest) := one.value;
        var more := BuildStages(hand, rule, count, built + [s], exclusive, rest);
        if more.Failure? then Failure(more.error)
        else
          ExtendsStep(hand, rule, built, s, more.value.stages);
          if exclusive && Distinct(StageCards(built)) then
            DistinctStep(built, s);
            more
          else more
  }

  /** Every stage of a built quest satisfies what `buildQuest` commits. */
  predicate Committed(hand: seq<AdventureCard>, rule: StageRule, stages: seq<Stage>) {
    && AcceptedInOrder(stages, rule)
    && (forall s <- stages :: Inv(s) && IsValid(s))
    && (forall s <- stages, c <- s.cards :: c in hand)
  }

  /** Committed stages from the start form a committed quest whose cards all come from the hand. */
  lemma ExtendsCommitted(hand: seq<AdventureCard>, rule: StageRule, stages: seq<Stage>)
    requires Extends(hand, rule, [], stages)
    ensures Committed(hand, rule, stages)
    ensures forall c <- StageCards(stages) :: c in hand
  {
    forall s <- stages
      ensures Inv(s) && IsValid(s) && forall c <- s.cards :: c in hand
    {
      var i :| 0 <= i < |stages| && stages[i] == s;
      assert GoodStage(hand, rule, stages, i);
    }
    forall i | 0 <= i < |stages|
      ensures rule(stages[..i], stages[i])
    {
      assert GoodStage(hand, rule, stages, i);
    }
  }

  /**
   * `buildQuest` as written: exactly `count` stages, each committed only when
   * valid and accepted by `rule`, built from cards of the sponsor's hand; the
   * table is not changed. It never reports failure itself: it stops only on
   * an index error or when the sponsor stops answering.
   */
  function BuildQuestAsWritten(t: Table, sponsor: nat, rule: StageRule, count: nat, inp: Input)
    : (r: Result<Step<seq<Stage>>, Fault>)
    requires sponsor < |t.players|
    ensures r.Failure? ==> r.error == InputExhausted || r.error == IndexOutOfRange
    ensures r.Success? ==>
              && |r.value.value| == count
              && Committed(Hand(t, sponsor), rule, r.value.value)
              && r.value.table == t
              && Consumed(inp, r.value.input) && r.value.input.answers == inp.answers
  {
    var b := BuildStages(Hand(t, sponsor), rule, count, [], false, inp.choices);
    if b.Failure? then Failure(b.error)
    else
      ExtendsCommitted(Hand(t, sponsor), rule, b.value.stages);
      Success(Step(b.value.stages, t, inp.(choices := b.value.rest)))
  }

  /**
   * `buildQuest` with a card refused once it sits in an earlier stage: as
   * above, and in addition no card is used twice, so the stages' cards are a
   * sub-multiset of the sponsor's hand.
   */
  function BuildQuest(t: Table, sponsor: nat, rule: StageRule, count: nat, inp: Input)
    : (r: Result<Step<seq<Stage>>, Fault>)
    requires sponsor < |t.players|
    ensures r.Failure? ==> r.error == InputExhausted || r.error == IndexOutOfRange
    ensures r.Success? ==>
              && |r.value.value| == count
              && Committed(Hand(t, sponsor), rule, r.value.value)
              && Distinct(StageCards(r.value.value))
              && multiset(StageCards(r.value.value)) <= multiset(Hand(t, sponsor))
              && r.value.table == t
              && Consumed(inp, r.value.input) && r.value.input.answers == inp.answers
  {
    var b := BuildStages(Hand(t, sponsor), rule, count, [], true, inp.choices);
    if b.Failure? then Failure(b.error)
    else
      ExtendsCommitted(Hand(t, sponsor), rule, b.value.stages);
      DistinctSubMultiset(StageCards(b.value.stages), Hand(t, sponsor));
      Success(Step(b.value.stages, t, inp.(choices := b.value.rest)))
  }
}

=== FILE: cards.dfy ===
/** The adventure cards that stages, attacks, hands and the adventure deck hold. */
module Cards {

  /** A weapon-type tag (horse, sword, lance, ...); only equality between tags matters. */
  datatype WeaponType = WeaponType(tag: nat)

  /**
   * The closed Foe | Weapon family. `id` stands for the card object's identity,
   * so that two equal-looking cards are still two cards.
   */
  datatype AdventureCard =
    | Foe(id: nat, value: int)
    | Weapon(id: nat, kind: WeaponType, value: int)

  /** Sum of the cards' values, as a running `value += card.getValue()` computes it. */
  function Total(cs: seq<AdventureCard>): int {
    if cs == [] then 0 else Total(cs[..|cs| - 1]) + cs[|cs| - 1].value
  }

  /** Appending one card adds exactly its value. */
  lemma TotalSnoc(cs: seq<AdventureCard>, c: AdventureCard)
    ensures Total(cs + [c]) == Total(cs) + c.value
  {
    assert (cs + [c])[..|cs|] == cs;
  }

  /** Some card in `cs` is a Foe. */
  predicate HasFoe(cs: seq<AdventureCard>) {
    exists c <- cs :: c.Foe?
  }

  /** Some card in `cs` is a Weapon of type `k`. */
  predicate HasWeaponOfType(cs: seq<AdventureCard>, k: WeaponType) {
    exists c <- cs :: c.Weapon? && c.kind == k
  }

  /** No two Weapons in `cs` share a type. */
  predicate WeaponTypesDistinct(cs: seq<AdventureCard>) {
    forall i, j | 0 <= i < j < |cs| && cs[i].Weapon? && cs[j].Weapon? :: cs[i].kind != cs[j].kind
  }

  /** The weapon-type search `cards.stream().filter(Weapon).anyMatch(sameType)`. */
  function AnyWeaponOfType(cs: seq<AdventureCard>, k: WeaponType): (b: bool)
    ensures b <==> HasWeaponOfType(cs, k)
  {
    if cs == [] then false
    else
      assert cs == [cs[0]] + cs[1..];
      (cs[0].Weapon? && cs[0].kind == k) || AnyWeaponOfType(cs[1..], k)
  }

  /**
   * The card a 1-based choice names: none for a choice outside the hand
   * (0 among them) or for one naming a card in `skip`.
   */
  function Named(hand: seq<AdventureCard>, skip: seq<AdventureCard>, c: int): (r: seq<AdventureCard>)
    ensures |r| <= 1
    ensures r != [] <==> 1 <= c <= |hand| && hand[c - 1] !in skip
    ensures r != [] ==> r == [hand[c - 1]]
  {
    if 1 <= c <= |hand| && hand[c - 1] !in skip then [hand[c - 1]] else []
  }

  /** The cards a run of choices names, in order. */
  function Picked(hand: seq<AdventureCard>, skip: seq<AdventureCard>, choices: seq<int>): (r: seq<AdventureCard>)
    ensures |r| <= |choices|
    ensures forall c <- r :: c in hand && c !in skip
  {
    if choices == [] then [] else Named(hand, skip, choices[0]) + Picked(hand, skip, choices[1..])
  }

  /** The cards a run of choices names: what its first choice names, then what the others name. */
  lemma PickedResumed(hand: seq<AdventureCard>, skip: seq<AdventureCard>, choices: seq<int>, rest: seq<int>)
    requires choices != [] && |rest| < |choices|
    ensures Picked(hand, skip, choices[..|choices| - |rest|])
         == Named(hand, skip, choices[0]) + Picked(hand, skip, choices[1..][..|choices| - 1 - |rest|])
  {
    var used := choices[..|choices| - |rest|];
    assert used[0] == choices[0] && used[1..] == choices[1..][..|choices| - 1 - |rest|];
  }
}

=== FILE: cleanup.dfy ===
/** `cleanupQuest`: the sponsor gives up the quest's cards and is paid back in new ones. */
module QuestCleanup {
  import opened Results
  import opened Seqs
  import opened Cards
  import opened Stages
  import opened Quests
  import opened Game
  import opened HandTrim

  /**
   * `cleanupQuest`: every card of every stage, in stage order, goes onto the
   * adventure discard pile and leaves the sponsor's hand; then the sponsor
   * draws as many cards as the stages held plus one per stage (`count`), and
   * trims. The draw fails exactly when the deck, before cleanup, holds fewer
   * than `count` cards, since the stage cards go into it first. Stage cards
   * missing from the sponsor's hand are discarded all the same, and they
   * are exactly the cards the cleanup adds to the game.
   */
  function Cleanup(t: Table, sponsor: nat, stages: seq<Stage>, count: nat, rng: Rng, inp: Input)
    : (r: Result<Step<seq<AdventureCard>>, Fault>)
    requires sponsor < |t.players|
    ensures r.Failure? ==> r.error == NoCardsLeft || r.error == InputExhausted
    ensures r.Failure? && r.error == NoCardsLeft <==> count > DeckSize(t)
    ensures r.Failure? && r.error == InputExhausted ==>
              |Hand(t, sponsor)| + |StageCards(stages)| + count > HandLimit
    ensures r.Success? ==>
              var Step(drawn, t', rest) := r.value;
              var used := StageCards(stages);
              && |drawn| == |used| + count && sponsor < |t'.players|
              && |Hand(t', sponsor)| <= HandLimit
              && multiset(Hand(t', sponsor)) <= multiset(Hand(t, sponsor)) - multiset(used) + multiset(drawn)
              && HandsKeptOutside(t, t', {sponsor}) && ShieldsKept(t, t')
              && AllCards(t') == AllCards(t) + (multiset(used) - multiset(Hand(t, sponsor)))
              && Consumed(inp, rest) && rest.answers == inp.answers
  {
    var used := StageCards(stages);
    var t1 := DiscardFromHand(t, sponsor, used);
    DiscardFromHandSurplus(t, sponsor, used);
    var d := DrawThenTrim(t1, sponsor, |used| + count, rng, inp);
    if d.Failure? then Failure(d.error)
    else
      var Step(drawn, t2, rest) := d.value;
      HandsKeptTrans(t, t1, t2, {sponsor}, {sponsor});
      ShieldsKeptTrans(t, t1, t2);
      Success(Step(drawn, t2, rest))
  }

  /**
   * When the stages' cards all came from the sponsor's hand, cleanup loses
   * and makes no card, and the sponsor ends with the old hand size plus one
   * card per stage, cut back to the hand limit.
   */
  lemma CleanupConserves(t: Table, sponsor: nat, stages: seq<Stage>, count: nat, rng: Rng, inp: Input)
    requires sponsor < |t.players|
    requires multiset(StageCards(stages)) <= multiset(Hand(t, sponsor))
    ensures var r := Cleanup(t, sponsor, stages, count, rng, inp);
      r.Success? ==>
        && AllCards(r.value.table) == AllCards(t)
        && |Hand(r.value.table, sponsor)| == Refill(|Hand(t, sponsor)|, count)
  {
    var used := StageCards(stages);
    var t1 := DiscardFromHand(t, sponsor, used);
    DiscardFromHandConserves(t, sponsor, used);
    assert multiset(used) - multiset(Hand(t, sponsor)) == multiset{};
    assert |Hand(t1, sponsor)| + |used| == |Hand(t, sponsor)|;
  }
}

=== FILE: deck.dfy ===
/**
 * `Deck<T>`: a draw pile used as a stack (its top is the last element) and a
 * discard pile, with one draw entry point that recycles the discard pile when
 * the draw pile is exhausted.
 */
module Decks {
  import opened Results

  datatype Deck<T> = Deck(draw: seq<T>, discard: seq<T>)

  /** A drawn card together with the deck left behind. */
  datatype Drawn<T> = Drawn(card: T, deck: Deck<T>)

  /** `drawCard` on two empty piles: "No cards left in deck!". */
  datatype DeckError = EmptyDeck

  /**
   * A random source: `rnd(i) % i` is the value `Random.nextInt(i)` returns
   * when the shuffle asks for it at bound `i`.
   */
  type Rnd = nat -> nat

  /** A freshly constructed deck: both piles empty. */
  function NewDeck<T>(): Deck<T> {
    Deck([], [])
  }

  /** Every card the deck holds, in either pile. */
  function Held<T>(d: Deck<T>): multiset<T> {
    multiset(d.draw) + multiset(d.discard)
  }

  /** `size`: the number of cards on the draw pile only. */
  function Size<T>(d: Deck<T>): nat {
    |d.draw|
  }

  /** `addCard`: push onto the draw pile. */
  function AddCard<T>(d: Deck<T>, c: T): (r: Deck<T>)
    ensures Size(r) == Size(d) + 1
    ensures r.draw[|r.draw| - 1] == c && r.draw[..Size(d)] == d.draw
    ensures r.discard == d.discard
    ensures Held(r) == Held(d) + multiset{c}
  {
    d.(draw := d.draw + [c])
  }

  /** `discard`: push onto the discard pile. */
  function Discard<T>(d: Deck<T>, c: T): (r: Deck<T>)
    ensures r.draw == d.draw && Size(r) == Size(d)
    ensures |r.discard| == |d.discard| + 1
    ensures r.discard[|d.discard|] == c && r.discard[..|d.discard|] == d.discard
    ensures Held(r) == Held(d) + multiset{c}
  {
    d.(discard := d.discard + [c])
  }

  /** `Collections.swap`. */
  function Swap<T>(s: seq<T>, i: nat, j: nat): (r: seq<T>)
    requires i < |s| && j < |s|
    ensures |r| == |s| && multiset(r) == multiset(s)
    ensures r[i] == s[j] && r[j] == s[i]
    ensures forall k | 0 <= k < |s| && k != i && k != j :: r[k] == s[k]
  {
    s[i := s[j]][j := s[i]]
  }

  /**
   * The shuffle loop `for i := |s| downto 2: swap(i - 1, nextInt(i))`,
   * run from bound `i` down.
   */
  function ShuffleFrom<T>(s: seq<T>, i: nat, rnd: Rnd): (r: seq<T>)
    requires i <= |s|
    ensures |r| == |s| && multiset(r) == multiset(s)
    ensures forall k | i <= k < |s| :: r[k] == s[k]
    decreases i
  {
    if i <= 1 then s
    else ShuffleFrom(Swap(s, i - 1, rnd(i) % i), i - 1, rnd)
  }

  /** `Collections.shuffle`: a permutation of `s` chosen by the random source. */
  function Shuffle<T>(s: seq<T>, rnd: Rnd): (r: seq<T>)
    ensures |r| == |s| && multiset(r) == multiset(s)
  {
    ShuffleFrom(s, |s|, rnd)
  }

  /** `shuffle`: permute the draw pile; the discard pile is untouched. */
  function ShuffleDeck<T>(d: Deck<T>, rnd: Rnd): (r: Deck<T>)
    ensures Size(r) == Size(d) && multiset(r.draw) == multiset(d.draw)
    ensures r.discard == d.discard
    ensures Held(r) == Held(d)
  {
    d.(draw := Shuffle(d.draw, rnd))
  }

  /**
   * `reshuffleDiscardPile`: the shuffled discard pile is put on top of the
   * draw pile and the discard pile is cleared.
   */
  function Reshuffle<T>(d: Deck<T>, rnd: Rnd): (r: Deck<T>)
    ensures r.discard == []
    ensures |r.draw| == |d.draw| + |d.discard| && r.draw[..|d.draw|] == d.draw
    ensures multiset(r.draw[|d.draw|..]) == multiset(d.discard)
    ensures Held(r) == Held(d)
  {
    var shuffled := Shuffle(d.discard, rnd);
    assert (d.draw + shuffled)[|d.draw|..] == shuffled;
    Deck(d.draw + shuffled, [])
  }

  /** Pop the top of a non-empty draw pile. */
  function Pop<T>(d: Deck<T>): (r: Drawn<T>)
    requires d.draw != []
    ensures r.deck.draw + [r.card] == d.draw && r.deck.discard == d.discard
    ensures Held(r.deck) + multiset{r.card} == Held(d)
  {
    var top := d.draw[|d.draw| - 1];
    var rest := d.draw[..|d.draw| - 1];
    assert d.draw == rest + [top];
    Drawn(top, Deck(rest, d.discard))
  }

  /**
   * `drawCard`: recycle the discard pile when the draw pile is empty, then pop
   * the top of the draw pile; fails exactly when both piles are empty.
   */
  function DrawCard<T>(d: Deck<T>, rnd: Rnd): (r: Result<Drawn<T>, DeckError>)
    ensures r.Failure? <==> d.draw == [] && d.discard == []
    ensures d.draw != [] ==>
              && r.Success?
              && r.value.card == d.draw[|d.draw| - 1]
              && r.value.deck.draw + [r.value.card] == d.draw
              && r.value.deck.discard == d.discard
    ensures d.draw == [] && d.discard != [] ==>
              && r.Success?
              && r.value.deck.discard == []
              && multiset(r.value.deck.draw) + multiset{r.value.card} == multiset(d.discard)
    ensures r.Success? ==> Held(r.value.deck) + multiset{r.value.card} == Held(d)
  {
    if d.draw == [] && d.discard == [] then Failure(EmptyDeck)
    else if d.draw == [] then
      var d1 := Reshuffle(d, rnd);
      assert d1.draw != [];
      Success(Pop(d1))
    else
      var r := Pop(d);
      assert r.card == d.draw[|d.draw| - 1] by {
        assert (r.deck.draw + [r.card])[|d.draw| - 1] == r.card;
      }
      Success(r)
  }

  /** Pushing a card and drawing returns that card and the deck as it was. */
  lemma DrawAfterAdd<T>(d: Deck<T>, c: T, rnd: Rnd)
    ensures DrawCard(AddCard(d, c), rnd) == Success(Drawn(c, d))
  {
    var r := DrawCard(AddCard(d, c), rnd);
    assert r.value.deck.draw + [c] == d.draw + [c];
    assert r.value.deck.draw == (d.draw + [c])[..|d.draw|];
  }

  /** `n` consecutive `drawCard` calls, the cards in the order drawn. */
  function DrawMany<T>(d: Deck<T>, n: nat, rnd: Rnd): (r: Result<(seq<T>, Deck<T>), DeckError>)
    ensures r.Success? ==> |r.value.0| == n && Held(r.value.1) + multiset(r.value.0) == Held(d)
    ensures r.Failure? ==> n > |d.draw| + |d.discard|
    decreases n
  {
    if n == 0 then Success(([], d))
    else
      var first := DrawCard(d, rnd);
      if first.Failure? then Failure(first.error)
      else
        var Drawn(c, d1) := first.value;
        assert |Held(d)| == |d.draw| + |d.discard|;
        assert |Held(d1)| == |d1.draw| + |d1.discard|;
        var more := DrawMany(d1, n - 1, rnd);
        if more.Failure? then Failure(more.error)
        else
          var (cs, d2) := more.value;
          assert multiset([c] + cs) == multiset{c} + multiset(cs);
          Success(([c] + cs, d2))
  }

  /**
   * Recycling: once the draw pile is exhausted, drawing as many cards as were
   * discarded succeeds, returns exactly the discarded cards, and empties the deck.
   */
  lemma {:induction false} RecycleReturnsDiscards<T>(d: Deck<T>, rnd: Rnd)
    requires d.draw == []
    ensures var r := DrawMany(d, |d.discard|, rnd);
      && r.Success?
      && multiset(r.value.0) == multiset(d.discard)
      && r.value.1 == NewDeck()
  {
    var r := DrawMany(d, |d.discard|, rnd);
    assert r.Success?;
    assert |Held(r.value.1)| == 0;
  }

  /**
   * One card on the draw pile and three discarded: two draws succeed, the
   * second after recycling; once every card is out, a further draw fails.
   */
  lemma ReshuffleScenario<T>(top: T, a: T, b: T, c: T, rnd: Rnd)
    ensures var d := Deck([top], [a, b, c]);
      && DrawCard(d, rnd).Success?
      && DrawCard(d, rnd).value.card == top
      && DrawCard(DrawCard(d, rnd).value.deck, rnd).Success?
      && DrawCard(DrawCard(d, rnd).value.deck, rnd).value.deck.discard == []
      && DrawCard(NewDeck<T>(), rnd) == Failure(EmptyDeck)
  {
  }
}

=== FILE: events.dfy ===
/** `handleEvent`: the three event cards that are not quests. */
module Events {
  import opened Results
  import opened Cards
  import opened Game
  import opened HandTrim

  datatype EventKind = Plague | QueensFavor | Prosperity

  /** `loseShields(2)` on the current player: no floor, so shields can go negative. */
  function Plagued(t: Table): (r: Table)
    requires Seated(t)
    ensures |r.players| == |t.players| && r.current == t.current && r.deck == t.deck && r.draws == t.draws
    ensures r.players[t.current].shields == t.players[t.current].shields - 2
    ensures forall q | 0 <= q < |t.players| && q != t.current :: r.players[q].shields == t.players[q].shields
    ensures HandsKeptOutside(t, r, {}) && AllCards(r) == AllCards(t)
  {
    var pl := t.players[t.current];
    var r := t.(players := t.players[t.current := pl.(shields := pl.shields - 2)]);
    HandsSame(t.players, r.players);
    r
  }

  /**
   * Players from seat `p` on each drew two cards and trimmed: their hands
   * grew by two or were cut back to the limit, and no one else's changed.
   */
  ghost predicate FedFrom(t: Table, t': Table, p: nat) {
    && |t'.players| == |t.players| && t'.current == t.current
    && (forall q | 0 <= q < |t.players| && q < p :: t'.players[q].hand == t.players[q].hand)
    && (forall q | p <= q < |t.players| :: |t'.players[q].hand| == Refill(|t.players[q].hand|, 2))
  }

  /** Player `p` fed, then the players after `p`. */
  lemma FedStep(t: Table, t1: Table, t2: Table, p: nat)
    requires p < |t.players| && p < |t1.players|
    requires |Hand(t1, p)| == Refill(|Hand(t, p)|, 2) && HandsKeptOutside(t, t1, {p})
    requires FedFrom(t1, t2, p + 1)
    ensures FedFrom(t, t2, p)
  {
  }

  /**
   * The Prosperity loop from seat `p` on: each player in seating order draws
   * two cards and trims. The deck cannot run dry while it holds two cards
   * for every player still to draw, since trimming only refills it.
   */
  function ProsperityFrom(t: Table, p: nat, rng: Rng, inp: Input): (r: Result<Step<()>, Fault>)
    requires p <= |t.players|
    ensures r.Failure? ==> r.error == NoCardsLeft || r.error == InputExhausted
    ensures DeckSize(t) >= 2 * (|t.players| - p) ==> r != Failure(NoCardsLeft)
    ensures r.Success? ==>
              var Step(_, t', rest) := r.value;
              && FedFrom(t, t', p) && ShieldsKept(t, t')
              && AllCards(t') == AllCards(t)
              && Consumed(inp, rest) && rest.answers == inp.answers
    decreases |t.players| - p
  {
    if p == |t.players| then Success(Step((), t, inp))
    else
      var d := DrawThenTrim(t, p, 2, rng, inp);
      if d.Failure? then Failure(d.error)
      else
        var Step(_, t1, inp1) := d.value;
        assert DeckSize(t1) + 2 >= DeckSize(t);
        var more := ProsperityFrom(t1, p + 1, rng, inp1);
        if more.Failure? then Failure(more.error)
        else
          var Step(_, t2, inp2) := more.value;
          FedStep(t, t1, t2, p);
          ShieldsKeptTrans(t, t1, t2);
          ConsumedTrans(inp, inp1, inp2);
          Success(Step((), t2, inp2))
  }

  /**
   * `handleEvent`: Plague costs the current player two shields; Queen's
   * Favor gives the current player two cards, then trims; Prosperity gives
   * every player two cards, each trimmed in turn. No event makes or loses
   * a card, and the two card events change no shields.
   */
  function HandleEvent(t: Table, e: EventKind, rng: Rng, inp: Input): (r: Result<Step<()>, Fault>)
    requires Seated(t)
    ensures r.Failure? ==> e != Plague && (r.error == NoCardsLeft || r.error == InputExhausted)
    ensures e == QueensFavor ==> (r == Failure(NoCardsLeft) <==> DeckSize(t) < 2)
    ensures e == Prosperity && DeckSize(t) >= 2 * |t.players| ==> r != Failure(NoCardsLeft)
    ensures r.Success? ==>
              var Step(_, t', rest) := r.value;
              && |t'.players| == |t.players| && AllCards(t') == AllCards(t)
              && Consumed(inp, rest) && rest.answers == inp.answers
              && match e
                 case Plague =>
                   && rest == inp && HandsKeptOutside(t, t', {})
                   && forall q | 0 <= q < |t.players| ::
                        t'.players[q].shields == t.players[q].shields - (if q == t.current then 2 else 0)
                 case QueensFavor =>
                   && ShieldsKept(t, t') && HandsKeptOutside(t, t', {t.current})
                   && |Hand(t', t.current)| == Refill(|Hand(t, t.current)|, 2)
                 case Prosperity =>
                   ShieldsKept(t, t') && FedFrom(t, t', 0)
  {
    match e
    case Plague => Success(Step((), Plagued(t), inp))
    case QueensFavor =>
      var d := DrawThenTrim(t, t.current, 2, rng, inp);
      if d.Failure? then Failure(d.error)
      else Success(Step((), d.value.table, d.value.input))
    case Prosperity => ProsperityFrom(t, 0, rng, inp)
  }
}

=== FILE: game.dfy ===
/**
 * The game state the controller works on: the players in seating order with
 * their hands and shields, the current player, and the adventure deck. This
 * stands for the `Game` and `Player` objects, whose classes are not part of
 * this model; only the calls the controller makes on them are modelled.
 */
module Game {
  import opened Results
  import opened Seqs
  import opened Cards
  import Decks

  /** The maximum hand size that trimming enforces. */
  const HandLimit: nat := 12

  datatype Player = Player(hand: seq<AdventureCard>, shields: int)

  /**
   * `draws` counts the adventure draws so far; it only selects which stream of
   * the random source a reshuffle uses.
   */
  datatype Table = Table(players: seq<Player>, current: nat, deck: Decks.Deck<AdventureCard>, draws: nat)

  /** The random source: the `k`-th draw reshuffles, if it must, with `rng(k)`. */
  type Rng = nat -> Decks.Rnd

  /**
   * The answers the players give, consumed front to back: yes/no answers, and
   * card choices (0 means done; `i` means the `i`-th card of the hand).
   */
  datatype Input = Input(answers: seq<bool>, choices: seq<int>)

  /**
   * Why a routine stops without finishing: the adventure deck is empty
   * (`IllegalStateException`), the players stopped answering before the
   * routine could finish (the source would keep prompting), or a card choice
   * outside the hand was used to index it (`IndexOutOfBoundsException`).
   */
  datatype Fault = NoCardsLeft | InputExhausted | IndexOutOfRange

  /** `rest` is what remains of `inp` after some answers and choices were used up. */
  predicate Consumed(inp: Input, rest: Input) {
    && Suffix(inp.answers, rest.answers)
    && |rest.choices| <= |inp.choices| && rest.choices == inp.choices[|inp.choices| - |rest.choices|..]
  }

  /**
   * `t` is what is left of `s` once some of its front is used up. A suffix
   * as long as `s` is `s` itself; saying so apart keeps the prover from
   * dropping nothing from `s` again and again.
   */
  predicate Suffix<T(==)>(s: seq<T>, t: seq<T>) {
    && |t| <= |s|
    && (|t| == |s| ==> t == s)
    && (|t| < |s| ==> t == s[|s| - |t|..])
  }

  /** Using up input in two steps uses it up in one. */
  lemma ConsumedTrans(a: Input, b: Input, c: Input)
    requires Consumed(a, b) && Consumed(b, c)
    ensures Consumed(a, c)
  {
  }

  /** A routine's value with the state and input it leaves behind. */
  datatype Step<T> = Step(value: T, table: Table, input: Input)

  /** The current player is one of the seated players. */
  predicate Seated(t: Table) {
    t.current < |t.players|
  }

  function Hand(t: Table, p: nat): seq<AdventureCard>
    requires p < |t.players|
  {
    t.players[p].hand
  }

  /** Player `p`'s hand replaced by `h`; nothing else changes. */
  function WithHand(t: Table, p: nat, h: seq<AdventureCard>): (r: Table)
    requires p < |t.players|
    ensures |r.players| == |t.players| && r.current == t.current
    ensures r.deck == t.deck && r.draws == t.draws
    ensures r.players[p] == Player(h, t.players[p].shields)
    ensures forall q | 0 <= q < |t.players| && q != p :: r.players[q] == t.players[q]
  {
    t.(players := t.players[p := t.players[p].(hand := h)])
  }

  /** The cards in all the players' hands. */
  function Hands(ps: seq<Player>): multiset<AdventureCard> {
    if ps == [] then multiset{} else Hands(ps[..|ps| - 1]) + multiset(ps[|ps| - 1].hand)
  }

  /** Every card on the table: all hands and both piles of the adventure deck. */
  function AllCards(t: Table): multiset<AdventureCard> {
    Hands(t.players) + Decks.Held(t.deck)
  }

  /** Replacing one hand swaps exactly that hand's cards in the total. */
  lemma {:induction false} HandsUpdate(ps: seq<Player>, p: nat, h: seq<AdventureCard>)
    requires p < |ps|
    ensures Hands(ps[p := ps[p].(hand := h)]) + multiset(ps[p].hand) == Hands(ps) + multiset(h)
  {
    var ps' := ps[p := ps[p].(hand := h)];
    var n := |ps| - 1;
    var was, now := multiset(ps[p].hand), multiset(h);
    assert Hands(ps) == Hands(ps[..n]) + multiset(ps[n].hand);
    assert Hands(ps') == Hands(ps'[..n]) + multiset(ps'[n].hand);
    if p < n {
      assert ps'[..n] == ps[..n][p := ps[p].(hand := h)];
      assert ps'[n] == ps[n];
      HandsUpdate(ps[..n], p, h);
      SwapInSum(Hands(ps'[..n]), Hands(ps[..n]), multiset(ps[n].hand), was, now);
    } else {
      assert ps'[..n] == ps[..n];
    }
  }

  /** An exchange inside one part of a sum is an exchange in the whole sum. */
  lemma SwapInSum(a: multiset<AdventureCard>, b: multiset<AdventureCard>, c: multiset<AdventureCard>,
                  w: multiset<AdventureCard>, x: multiset<AdventureCard>)
    requires a + w == b + x
    ensures (a + c) + w == (b + c) + x
  {
    forall y
      ensures ((a + c) + w)[y] == ((b + c) + x)[y]
    {
      assert (a + w)[y] == (b + x)[y];
    }
  }

  /** Players with the same hands hold the same cards. */
  lemma {:induction false} HandsSame(ps: seq<Player>, qs: seq<Player>)
    requires |ps| == |qs|
    requires forall i | 0 <= i < |ps| :: ps[i].hand == qs[i].hand
    ensures Hands(ps) == Hands(qs)
  {
    if ps != [] {
      HandsSame(ps[..|ps| - 1], qs[..|qs| - 1]);
    }
  }

  /** Changing one hand changes the table's cards by exactly that hand's difference. */
  lemma WithHandCards(t: Table, p: nat, h: seq<AdventureCard>)
    requires p < |t.players|
    ensures AllCards(WithHand(t, p, h)) + multiset(Hand(t, p)) == AllCards(t) + multiset(h)
  {
    var t' := WithHand(t, p, h);
    assert t'.players == t.players[p := t.players[p].(hand := h)];
    HandsUpdate(t.players, p, h);
    var deck, was, now := Decks.Held(t.deck), multiset(Hand(t, p)), multiset(h);
    calc {
      AllCards(t') + was;
      (Hands(t'.players) + was) + deck;
      (Hands(t.players) + now) + deck;
      AllCards(t) + now;
    }
  }

  /** Same seats and current player; hands differ only for players in `s`. */
  predicate HandsKeptOutside(t: Table, t': Table, s: set<nat>) {
    && |t'.players| == |t.players|
    && t'.current == t.current
    && forall q | 0 <= q < |t.players| && q !in s :: t'.players[q].hand == t.players[q].hand
  }

  /** Every player's shield count is as in `t`. */
  predicate ShieldsKept(t: Table, t': Table) {
    && |t'.players| == |t.players|
    && forall q | 0 <= q < |t.players| :: t'.players[q].shields == t.players[q].shields
  }

  /** Hand changes confined to `s1`, then to `s2`, are confined to both together. */
  lemma HandsKeptTrans(t1: Table, t2: Table, t3: Table, s1: set<nat>, s2: set<nat>)
    requires HandsKeptOutside(t1, t2, s1) && HandsKeptOutside(t2, t3, s2)
    ensures HandsKeptOutside(t1, t3, s1 + s2)
  {
  }

  /** Keeping shields is transitive. */
  lemma ShieldsKeptTrans(t1: Table, t2: Table, t3: Table)
    requires ShieldsKept(t1, t2) && ShieldsKept(t2, t3)
    ensures ShieldsKept(t1, t3)
  {
  }

  /** Every hand in `s` respects the hand limit. */
  predicate WithinLimit(t: Table, s: set<nat>) {
    forall q | 0 <= q < |t.players| && q in s :: |t.players[q].hand| <= HandLimit
  }

  /** `game.drawAdventureCard()`: a draw from the adventure deck. */
  function DrawAdventure(t: Table, rng: Rng): (r: Result<(AdventureCard, Table), Fault>)
    ensures r.Failure? <==> t.deck.draw == [] && t.deck.discard == []
    ensures r.Failure? ==> r.error == NoCardsLeft
    ensures r.Success? ==>
              && r.value.1.players == t.players && r.value.1.current == t.current
              && Decks.Held(r.value.1.deck) + multiset{r.value.0} == Decks.Held(t.deck)
  {
    var r := Decks.DrawCard(t.deck, rng(t.draws));
    if r.Failure? then Failure(NoCardsLeft)
    else Success((r.value.card, t.(deck := r.value.deck, draws := t.draws + 1)))
  }

  /** `game.discardAdventureCard(card)`: push onto the adventure discard pile. */
  function DiscardAdventure(t: Table, c: AdventureCard): (r: Table)
    ensures r.players == t.players && r.current == t.current && r.deck.draw == t.deck.draw
    ensures r.deck.discard == t.deck.discard + [c]
    ensures AllCards(r) == AllCards(t) + multiset{c}
  {
    t.(deck := Decks.Discard(t.deck, c))
  }

  /** `player.addCardToHand(game.drawAdventureCard())`. */
  function DrawInto(t: Table, p: nat, rng: Rng): (r: Result<(AdventureCard, Table), Fault>)
    requires p < |t.players|
    ensures r.Failure? <==> t.deck.draw == [] && t.deck.discard == []
    ensures r.Failure? ==> r.error == NoCardsLeft
    ensures r.Success? ==>
              var (c, t') := r.value;
              && p < |t'.players|
              && Hand(t', p) == Hand(t, p) + [c]
              && HandsKeptOutside(t, t', {p}) && ShieldsKept(t, t')
              && |t'.deck.draw| + |t'.deck.discard| + 1 == |t.deck.draw| + |t.deck.discard|
              && Decks.Held(t'.deck) + multiset{c} == Decks.Held(t.deck)
              && AllCards(t') == AllCards(t)
  {
    var first := DrawAdventure(t, rng);
    if first.Failure? then Failure(first.error)
    else
      var (c, t0) := first.value;
      var t1 := WithHand(t0, p, Hand(t0, p) + [c]);
      WithHandCards(t0, p, Hand(t0, p) + [c]);
      var hands, deck, was := Hands(t.players), Decks.Held(t1.deck), multiset(Hand(t, p));
      assert |Decks.Held(t.deck)| == |t.deck.draw| + |t.deck.discard|;
      assert |Decks.Held(t1.deck)| == |t1.deck.draw| + |t1.deck.discard|;
      calc {
        AllCards(t1) + was;
        AllCards(t0) + multiset(Hand(t, p) + [c]);
        (hands + deck) + (was + multiset{c});
        (hands + (deck + multiset{c})) + was;
        AllCards(t) + was;
      }
      MultisetCancel(AllCards(t1), AllCards(t), was);
      Success((c, t1))
  }

  /**
   * For each card in turn, `game.discardAdventureCard(card)` then
   * `player.removeCardFromHand(card)`.
   */
  function DiscardFromHand(t: Table, p: nat, cards: seq<AdventureCard>): (r: Table)
    requires p < |t.players|
    ensures r.deck.draw == t.deck.draw && r.deck.discard == t.deck.discard + cards
    ensures r.draws == t.draws
    ensures HandsKeptOutside(t, r, {p}) && ShieldsKept(t, r)
    ensures Hand(r, p) == Seqs.RemoveAll(Hand(t, p), cards)
  {
    var t1 := t.(deck := t.deck.(discard := t.deck.discard + cards));
    WithHand(t1, p, Seqs.RemoveAll(Hand(t, p), cards))
  }

  /**
   * The card count behind discarding from a hand: if the table's cards
   * `after` plus the old hand equal the cards `moved` (the old table plus
   * the discards) plus the new hand, and the new hand is the old one less
   * the discards, then `after` gained exactly the discards the hand lacked.
   */
  lemma DiscardCount(before: multiset<AdventureCard>, moved: multiset<AdventureCard>, after: multiset<AdventureCard>,
                     hand: multiset<AdventureCard>, gone: multiset<AdventureCard>, kept: multiset<AdventureCard>)
    requires after + hand == moved + kept
    requires moved == before + gone && kept == hand - gone
    ensures after == before + (gone - hand)
  {
    assert gone + (hand - gone) == hand + (gone - hand) by {
      forall x
        ensures (gone + (hand - gone))[x] == (hand + (gone - hand))[x]
      {
      }
    }
    calc {
      after + hand;
      (before + gone) + (hand - gone);
      (before + (gone - hand)) + hand;
    }
    MultisetCancel(after, before + (gone - hand), hand);
  }

  /**
   * Discarding cards from a hand: each card goes onto the discard pile, but
   * only those the hand holds leave it, so exactly the missing ones are made
   * out of nothing.
   */
  lemma DiscardFromHandSurplus(t: Table, p: nat, cards: seq<AdventureCard>)
    requires p < |t.players|
    ensures AllCards(DiscardFromHand(t, p, cards)) == AllCards(t) + (multiset(cards) - multiset(Hand(t, p)))
  {
    var t1 := t.(deck := t.deck.(discard := t.deck.discard + cards));
    var h := Seqs.RemoveAll(Hand(t, p), cards);
    var t2 := WithHand(t1, p, h);
    assert AllCards(t2) + multiset(Hand(t, p)) == AllCards(t1) + multiset(h) by {
      WithHandCards(t1, p, h);
    }
    assert AllCards(t1) == AllCards(t) + multiset(cards) by {
      assert Hands(t1.players) == Hands(t.players);
    }
    DiscardCount(AllCards(t), AllCards(t1), AllCards(t2), multiset(Hand(t, p)), multiset(cards), multiset(h));
  }

  /** Discarding cards that are all in the hand moves them without losing or making any. */
  lemma DiscardFromHandConserves(t: Table, p: nat, cards: seq<AdventureCard>)
    requires p < |t.players|
    requires multiset(cards) <= multiset(Hand(t, p))
    ensures var r := DiscardFromHand(t, p, cards);
      && multiset(Hand(r, p)) == multiset(Hand(t, p)) - multiset(cards)
      && |Hand(r, p)| == |Hand(t, p)| - |cards|
      && AllCards(r) == AllCards(t)
  {
    DiscardFromHandSurplus(t, p, cards);
    assert multiset(cards) - multiset(Hand(t, p)) == multiset{};
  }

  /** What drawing `cs` into `p`'s hand keeps, for the table's draws so far. */
  predicate DrewInto(t: Table, t': Table, p: nat, cs: seq<AdventureCard>)
    requires p < |t.players|
  {
    && p < |t'.players|
    && Hand(t', p) == Hand(t, p) + cs
    && HandsKeptOutside(t, t', {p}) && ShieldsKept(t, t')
    && Decks.Held(t'.deck) + multiset(cs) == Decks.Held(t.deck)
    && AllCards(t') == AllCards(t)
  }

  /** One card drawn, then more: together they are drawn in that order. */
  lemma DrewIntoChain(t: Table, t1: Table, t2: Table, p: nat, c: AdventureCard, cs: seq<AdventureCard>)
    requires p < |t.players|
    requires DrewInto(t, t1, p, [c]) && DrewInto(t1, t2, p, cs)
    ensures DrewInto(t, t2, p, [c] + cs)
  {
    assert Hand(t, p) + ([c] + cs) == Hand(t, p) + [c] + cs;
    HandsKeptTrans(t, t1, t2, {p}, {p});
    ShieldsKeptTrans(t, t1, t2);
    calc {
      Decks.Held(t2.deck) + multiset([c] + cs);
      (Decks.Held(t2.deck) + multiset(cs)) + multiset{c};
      Decks.Held(t1.deck) + multiset{c};
      Decks.Held(t.deck);
    }
  }

  /**
   * `n` times `player.addCardToHand(game.drawAdventureCard())`. Fails exactly
   * when the deck holds fewer than `n` cards.
   */
  function DrawCards(t: Table, p: nat, n: nat, rng: Rng): (r: Result<(seq<AdventureCard>, Table), Fault>)
    requires p < |t.players|
    ensures r.Failure? <==> n > |t.deck.draw| + |t.deck.discard|
    ensures r.Failure? ==> r.error == NoCardsLeft
    ensures r.Success? ==> |r.value.0| == n && DrewInto(t, r.value.1, p, r.value.0)
    decreases n
  {
    if n == 0 then
      assert Hand(t, p) + [] == Hand(t, p);
      Success(([], t))
    else
      var first := DrawInto(t, p, rng);
      if first.Failure? then Failure(first.error)
      else
        var (c, t1) := first.value;
        assert DrewInto(t, t1, p, [c]);
        var more := DrawCards(t1, p, n - 1, rng);
        if more.Failure? then Failure(more.error)
        else
          var (cs, t2) := more.value;
          DrewIntoChain(t, t1, t2, p, c, cs);
          Success(([c] + cs, t2))
  }
}

=== FILE: quest.dfy ===
/**
 * The part of `Quest` the controller relies on. Quest.java is not part of this
 * model: its `addStage` acceptance test is a parameter of the building
 * routines, and `MonotoneRule` is one instance of it.
 */
module Quests {
  import opened Cards
  import opened Stages

  /** `quest.addStage(stage)`: given the stages accepted so far, is `stage` accepted? */
  type StageRule = (seq<Stage>, Stage) -> bool

  /**
   * A stage must be valid and no weaker than the previously accepted stage.
   */
  function MonotoneRule(accepted: seq<Stage>, stage: Stage): bool {
    IsValid(stage) && (accepted == [] || accepted[|accepted| - 1].value <= stage.value)
  }

  /** Every stage was accepted by `rule` given the stages before it. */
  predicate AcceptedInOrder(stages: seq<Stage>, rule: StageRule) {
    forall i | 0 <= i < |stages| :: rule(stages[..i], stages[i])
  }

  /** Stage values never decrease along the quest. */
  predicate NonDecreasing(stages: seq<Stage>) {
    forall i, j | 0 <= i <= j < |stages| :: stages[i].value <= stages[j].value
  }

  /** Stages accepted one by one under `MonotoneRule` have non-decreasing values. */
  lemma {:induction false} MonotoneRuleOrdersStages(stages: seq<Stage>)
    requires AcceptedInOrder(stages, MonotoneRule)
    ensures NonDecreasing(stages)
    ensures forall s <- stages :: IsValid(s)
  {
    if stages != [] {
      var init := stages[..|stages| - 1];
      assert AcceptedInOrder(init, MonotoneRule) by {
        forall i | 0 <= i < |init|
          ensures MonotoneRule(init[..i], init[i])
        {
          assert init[..i] == stages[..i];
          assert MonotoneRule(stages[..i], stages[i]);
        }
      }
      MonotoneRuleOrdersStages(init);
      var n := |stages| - 1;
      assert MonotoneRule(stages[..n], stages[n]);
      forall i, j | 0 <= i <= j < |stages|
        ensures stages[i].value <= stages[j].value
      {
        if j == n && i < n {
          assert stages[..n][n - 1] == init[n - 1];
          assert init[i].value <= init[n - 1].value;
        } else if j < n {
          assert init[i].value <= init[j].value;
        }
      }
      forall s <- stages
        ensures IsValid(s)
      {
        var k :| 0 <= k < |stages| && stages[k] == s;
        assert MonotoneRule(stages[..k], stages[k]);
      }
    }
  }

  /**
   * Stages of value 3 then 5 are accepted in turn; a third stage of value 2
   * is refused, while one of equal value 5 is accepted.
   */
  lemma MonotoneScenario(foe3: AdventureCard, foe5: AdventureCard, foe2: AdventureCard)
    requires foe3.Foe? && foe3.value == 3
    requires foe5.Foe? && foe5.value == 5
    requires foe2.Foe? && foe2.value == 2
    ensures var s3, s5, s2 := AddCard(NewStage, foe3).1, AddCard(NewStage, foe5).1, AddCard(NewStage, foe2).1;
      && MonotoneRule([], s3)
      && MonotoneRule([s3], s5)
      && !MonotoneRule([s3, s5], s2)
      && MonotoneRule([s3, s5], s5)
  {
    var s3, s5, s2 := AddCard(NewStage, foe3).1, AddCard(NewStage, foe5).1, AddCard(NewStage, foe2).1;
    assert s3.value == 3 && IsValid(s3);
    assert s5.value == 5 && IsValid(s5);
    assert s2.value == 2;
  }

  /** All the cards of all the stages, stage by stage, in placement order. */
  function StageCards(stages: seq<Stage>): (cs: seq<AdventureCard>)
    ensures forall s <- stages, c <- s.cards :: c in cs
    ensures forall c <- cs :: exists s <- stages :: c in s.cards
  {
    if stages == [] then []
    else StageCards(stages[..|stages| - 1]) + stages[|stages| - 1].cards
  }
}

=== FILE: quest_flow.dfy ===
/** `handleQuest`: sponsorship, building and resolution of one quest card. */
module QuestFlow {
  import opened Results
  import opened Seqs
  import opened Cards
  import opened Stages
  import opened Quests
  import Decks
  import HandTrim
  import opened Game
  import opened Sponsorship
  import opened QuestBuilding
  import opened QuestCleanup
  import opened QuestResolution

  /** How a quest card played out: nobody sponsored it, or it was built and resolved. */
  datatype QuestResult =
    | Unsponsored
    | Resolved(sponsor: nat, stages: seq<Stage>, outcome: QuestOutcome)

  /**
   * A sponsored quest that ran to its end: `count` stages committed from the
   * sponsor's hand, the sponsor not among the participants, the winners
   * among them, every attack legal, the table left as `QuestLeft` says, and
   * the sponsor's new hand drawn from what was left of the old one and the
   * `|used| + count` cards of the cleanup.
   */
  ghost predicate QuestRan(t: Table, t': Table, count: nat, rule: StageRule,
                           sponsor: nat, stages: seq<Stage>, outcome: QuestOutcome) {
    var used := StageCards(stages);
    && sponsor < |t.players|
    && |stages| == count && Committed(Hand(t, sponsor), rule, stages)
    && sponsor !in outcome.participants
    && Played(stages, 0, outcome.participants, outcome.resolution) && Legal(outcome.resolution)
    && outcome.resolution.winners <= outcome.participants
    && QuestLeft(t, t', sponsor, outcome.participants, outcome.resolution.winners, count, used)
    && |outcome.refill| == |used| + count
    && multiset(Hand(t', sponsor)) <= multiset(Hand(t, sponsor)) - multiset(used) + multiset(outcome.refill)
  }

  /** A quest that ran to its end without making or losing a card. */
  ghost predicate QuestPlayed(t: Table, t': Table, count: nat, rule: StageRule,
                              sponsor: nat, stages: seq<Stage>, outcome: QuestOutcome) {
    && QuestRan(t, t', count, rule, sponsor, stages, outcome)
    && AllCards(t') == AllCards(t)
  }

  /** Building the quest for `sponsor` so that no card is placed twice, then resolving it. */
  function RunQuest(t: Table, sponsor: nat, count: nat, rule: StageRule, rng: Rng, inp: Input)
    : (r: Result<Step<(seq<Stage>, QuestOutcome)>, Fault>)
    requires sponsor < |t.players|
    ensures r.Success? ==>
              && QuestPlayed(t, r.value.table, count, rule, sponsor, r.value.value.0, r.value.value.1)
              && Consumed(inp, r.value.input)
  {
    var b := BuildQuest(t, sponsor, rule, count, inp);
    if b.Failure? then Failure(b.error)
    else
      var Step(stages, _, inp1) := b.value;
      var q := ResolveQuest(t, sponsor, stages, count, rng, inp1);
      if q.Failure? then Failure(q.error)
      else
        var Step(outcome, t', inp2) := q.value;
        QuestPlayedFrom(t, t', count, rule, sponsor, stages, outcome);
        ConsumedTrans(inp, inp1, inp2);
        Success(Step((stages, outcome), t', inp2))
  }

  /** A quest whose stage cards all came from the sponsor's hand makes and loses no card. */
  lemma QuestPlayedFrom(t: Table, t': Table, count: nat, rule: StageRule,
                        sponsor: nat, stages: seq<Stage>, outcome: QuestOutcome)
    requires QuestRan(t, t', count, rule, sponsor, stages, outcome)
    requires multiset(StageCards(stages)) <= multiset(Hand(t, sponsor))
    ensures QuestPlayed(t, t', count, rule, sponsor, stages, outcome)
  {
    assert multiset(StageCards(stages)) - multiset(Hand(t, sponsor)) == multiset{};
  }

  /**
   * Building a quest draws no card, so a quest runs out of cards only if
   * its stages and cleanup do: never when the deck holds a card for every
   * player but the sponsor at every stage and `count` more for the
   * sponsor's cleanup, a card per player and stage in all (`QuestDraws`).
   */
  lemma {:induction false} RunQuestBudget(t: Table, sponsor: nat, count: nat, rule: StageRule, rng: Rng, inp: Input)
    requires sponsor < |t.players|
    ensures HandTrim.DeckSize(t) >= StageDraws(|t.players| - 1, count) + count ==>
              RunQuest(t, sponsor, count, rule, rng, inp) != Failure(NoCardsLeft)
  {
    var b := BuildQuest(t, sponsor, rule, count, inp);
    if b.Success? {
      ResolveQuestBudget(t, sponsor, b.value.value, count, rng, b.value.input);
    }
  }

  /** A card per player but the sponsor and stage, then `count` for the sponsor: a card per player and stage. */
  lemma QuestDraws(players: nat, count: nat)
    requires players > 0
    ensures StageDraws(players - 1, count) + count == players * count
  {
    StageDrawsProduct(players - 1, count);
    assert (players - 1) * count + count == players * count;
  }

  /**
   * `buildQuest` as written, then resolving the quest: the quest runs to its
   * end just the same, but the game gains every stage card the sponsor did
   * not hold as often as it was placed.
   */
  function RunQuestAsWritten(t: Table, sponsor: nat, count: nat, rule: StageRule, rng: Rng, inp: Input)
    : (r: Result<Step<(seq<Stage>, QuestOutcome)>, Fault>)
    requires sponsor < |t.players|
    ensures r.Success? ==>
              var Step((stages, outcome), t', rest) := r.value;
              && QuestRan(t, t', count, rule, sponsor, stages, outcome)
              && AllCards(t') == AllCards(t) + (multiset(StageCards(stages)) - multiset(Hand(t, sponsor)))
              && Consumed(inp, rest)
  {
    var b := BuildQuestAsWritten(t, sponsor, rule, count, inp);
    if b.Failure? then Failure(b.error)
    else
      var Step(stages, _, inp1) := b.value;
      var q := ResolveQuest(t, sponsor, stages, count, rng, inp1);
      if q.Failure? then Failure(q.error)
      else
        var Step(outcome, t', inp2) := q.value;
        ConsumedTrans(inp, inp1, inp2);
        Success(Step((stages, outcome), t', inp2))
  }

  /** `RunQuestBudget` for stages built as written. */
  lemma {:induction false} RunQuestAsWrittenBudget(t: Table, sponsor: nat, count: nat, rule: StageRule, rng: Rng, inp: Input)
    requires sponsor < |t.players|
    ensures HandTrim.DeckSize(t) >= StageDraws(|t.players| - 1, count) + count ==>
              RunQuestAsWritten(t, sponsor, count, rule, rng, inp) != Failure(NoCardsLeft)
  {
    var b := BuildQuestAsWritten(t, sponsor, rule, count, inp);
    if b.Success? {
      ResolveQuestBudget(t, sponsor, b.value.value, count, rng, b.value.input);
    }
  }

  /**
   * What a finished quest card leaves: nobody sponsoring leaves the table as
   * it was; otherwise the quest was built and resolved as `QuestPlayed`
   * says. Either way no card is made or lost and input was read in order.
   */
  ghost predicate QuestHandled(t: Table, count: nat, rule: StageRule, inp: Input, s: Step<QuestResult>) {
    && Consumed(inp, s.input)
    && AllCards(s.table) == AllCards(t)
    && match s.value
       case Unsponsored => s.table == t
       case Resolved(sponsor, stages, outcome) => QuestPlayed(t, s.table, count, rule, sponsor, stages, outcome)
  }

  /**
   * `handleQuest` for a quest card of `count` stages, with stages built so
   * that no card is placed twice.
   */
  function HandleQuest(t: Table, count: nat, rule: StageRule, rng: Rng, inp: Input): (r: Result<Step<QuestResult>, Fault>)
    requires Seated(t)
    ensures r.Success? ==> QuestHandled(t, count, rule, inp, r.value)
  {
    var f := FindSponsor(t, inp);
    if f.Failure? then Failure(f.error)
    else
      var Step(who, _, inp1) := f.value;
      if who.None? then
        Success(Step(Unsponsored, t, inp1))
      else
        var q := RunQuest(t, who.value, count, rule, rng, inp1);
        if q.Failure? then Failure(q.error)
        else
          var Step((stages, outcome), t', inp2) := q.value;
          ConsumedTrans(inp, inp1, inp2);
          ResolvedHandled(t, t', count, rule, who.value, stages, outcome, inp, inp2);
          Success(Step(Resolved(who.value, stages, outcome), t', inp2))
  }

  /**
   * Finding a sponsor draws no card either: a quest card whose deck holds a
   * card per player and stage never runs out of cards.
   */
  lemma {:induction false} HandleQuestBudget(t: Table, count: nat, rule: StageRule, rng: Rng, inp: Input)
    requires Seated(t)
    ensures HandTrim.DeckSize(t) >= StageDraws(|t.players| - 1, count) + count ==>
              HandleQuest(t, count, rule, rng, inp) != Failure(NoCardsLeft)
  {
    var f := FindSponsor(t, inp);
    if f.Success? && f.value.value.Some? {
      RunQuestBudget(t, f.value.value.value, count, rule, rng, f.value.input);
    }
  }

  /** A quest that was played is a quest card handled. */
  lemma ResolvedHandled(t: Table, t': Table, count: nat, rule: StageRule,
                        sponsor: nat, stages: seq<Stage>, outcome: QuestOutcome, inp: Input, rest: Input)
    requires QuestPlayed(t, t', count, rule, sponsor, stages, outcome) && Consumed(inp, rest)
    ensures QuestHandled(t, count, rule, inp, Step(Resolved(sponsor, stages, outcome), t', rest))
  {
  }

  /**
   * What a finished quest card leaves when its stages are built as written:
   * nobody sponsoring leaves the table as it was; otherwise the quest ran as
   * `QuestRan` says and the game gained the stage cards the sponsor did not
   * hold.
   */
  ghost predicate QuestHandledAsWritten(t: Table, count: nat, rule: StageRule, inp: Input, s: Step<QuestResult>) {
    && Consumed(inp, s.input)
    && match s.value
       case Unsponsored => s.table == t
       case Resolved(sponsor, stages, outcome) =>
         && QuestRan(t, s.table, count, rule, sponsor, stages, outcome)
         && AllCards(s.table) == AllCards(t) + (multiset(StageCards(stages)) - multiset(Hand(t, sponsor)))
  }

  /** `handleQuest` for a quest card of `count` stages, with `buildQuest` as written. */
  function HandleQuestAsWritten(t: Table, count: nat, rule: StageRule, rng: Rng, inp: Input)
    : (r: Result<Step<QuestResult>, Fault>)
    requires Seated(t)
    ensures r.Success? ==> QuestHandledAsWritten(t, count, rule, inp, r.value)
  {
    var f := FindSponsor(t, inp);
    if f.Failure? then Failure(f.error)
    else
      var Step(who, _, inp1) := f.value;
      if who.None? then
        Success(Step(Unsponsored, t, inp1))
      else
        var q := RunQuestAsWritten(t, who.value, count, rule, rng, inp1);
        if q.Failure? then Failure(q.error)
        else
          var Step((stages, outcome), t', inp2) := q.value;
          ConsumedTrans(inp, inp1, inp2);
          Success(Step(Resolved(who.value, stages, outcome), t', inp2))
  }

  /** `HandleQuestBudget` for stages built as written. */
  lemma {:induction false} HandleQuestAsWrittenBudget(t: Table, count: nat, rule: StageRule, rng: Rng, inp: Input)
    requires Seated(t)
    ensures HandTrim.DeckSize(t) >= StageDraws(|t.players| - 1, count) + count ==>
              HandleQuestAsWritten(t, count, rule, rng, inp) != Failure(NoCardsLeft)
  {
    var f := FindSponsor(t, inp);
    if f.Success? && f.value.value.Some? {
      RunQuestAsWrittenBudget(t, f.value.value.value, count, rule, rng, f.value.input);
    }
  }

  /**
   * The card-duplication defect of `buildQuest` as written. The sponsor holds
   * a single foe and answers "card 1, done" for each of two stages: the same
   * foe is placed in both stages (`FoeTwice`), and `CleanupDuplicates` shows
   * the game then gains a card. Building so that a placed card is refused
   * does not accept these answers: the second stage never closes.
   */
  lemma DuplicatedStageCard(t: Table)
    requires |t.players| > 0 && Hand(t, 0) == [Foe(0, 5)]
    ensures var s := Stage([Foe(0, 5)], 5, Some(Foe(0, 5)));
      var inp := Input([], [1, 0, 1, 0]);
      && BuildQuestAsWritten(t, 0, MonotoneRule, 2, inp) == Success(Step([s, s], t, Input([], [])))
      && BuildQuest(t, 0, MonotoneRule, 2, inp).Failure?
  {
    AsWrittenPlacesTwice();
    ExclusiveRefuses();
  }

  /** The two stages of `DuplicatedStageCard` hold the foe twice. */
  lemma FoeTwice()
    ensures var s := Stage([Foe(0, 5)], 5, Some(Foe(0, 5)));
      StageCards([s, s]) == [Foe(0, 5), Foe(0, 5)]
  {
    var s := Stage([Foe(0, 5)], 5, Some(Foe(0, 5)));
    assert [s, s][..1] == [s] && [s][..0] == [];
    assert StageCards([s]) == StageCards([]) + [Foe(0, 5)];
  }

  /**
   * Cleanup after a quest whose two stages both hold the sponsor's only card,
   * as in `DuplicatedStageCard`: it succeeds, and the game has that card once
   * more than before.
   */
  lemma CleanupDuplicates(t: Table, stages: seq<Stage>, rng: Rng, inp: Input)
    requires |t.players| > 0 && |Hand(t, 0)| == 1 && StageCards(stages) == [Hand(t, 0)[0], Hand(t, 0)[0]]
    requires HandTrim.DeckSize(t) >= 2
    ensures var c := Cleanup(t, 0, stages, 2, rng, inp);
      c.Success? && AllCards(c.value.table) == AllCards(t) + multiset{Hand(t, 0)[0]}
  {
    var foe := Hand(t, 0)[0];
    var c := Cleanup(t, 0, stages, 2, rng, inp);
    assert |Hand(t, 0)| + |StageCards(stages)| + 2 <= HandLimit;
    assert c.Success?;
    TwiceLessOnce(Hand(t, 0), foe);
  }

  /** Two copies of a card less a one-card hand holding it leave one copy. */
  lemma TwiceLessOnce(hand: seq<AdventureCard>, foe: AdventureCard)
    requires |hand| == 1 && hand[0] == foe
    ensures multiset([foe, foe]) - multiset(hand) == multiset{foe}
  {
    assert hand == [foe];
  }

  /** The first stage of the scenario: the foe is chosen, then the stage is closed. */
  lemma FirstStageOfFoe()
    ensures var foe := Foe(0, 5);
      BuildStage([foe], MonotoneRule, [], [], NewStage, [1, 0, 1, 0])
        == Success((Stage([foe], 5, Some(foe)), [1, 0]))
  {
    var foe := Foe(0, 5);
    var s := Stage([foe], 5, Some(foe));
    assert AddCard(NewStage, foe).1 == s;
    assert MonotoneRule([], s);
    assert BuildStage([foe], MonotoneRule, [], [], s, [0, 1, 0]) == Success((s, [1, 0]));
  }

  /** The second stage of the scenario, read as written: the same foe again, accepted. */
  lemma SecondStageOfFoe()
    ensures var foe := Foe(0, 5);
      var s := Stage([foe], 5, Some(foe));
      BuildStage([foe], MonotoneRule, [s], [], NewStage, [1, 0]) == Success((s, []))
  {
    var foe := Foe(0, 5);
    var s := Stage([foe], 5, Some(foe));
    assert AddCard(NewStage, foe).1 == s;
    assert MonotoneRule([s], s);
    assert BuildStage([foe], MonotoneRule, [s], [], s, [0]) == Success((s, []));
  }

  /** The second round of the scenario, read as written: the foe's stage again ends the quest. */
  lemma LastRoundAsWritten()
    ensures var foe := Foe(0, 5);
      var s := Stage([foe], 5, Some(foe));
      BuildStages([foe], MonotoneRule, 2, [s], false, [1, 0]) == Success(Built([s, s], []))
  {
    var foe := Foe(0, 5);
    var s := Stage([foe], 5, Some(foe));
    SecondStageOfFoe();
    assert [s] + [s] == [s, s];
    assert BuildStages([foe], MonotoneRule, 2, [s, s], false, []) == Success(Built([s, s], []));
  }

  /** The sponsor's answers, read by `buildQuest` as written: the foe, in both stages. */
  lemma AsWrittenPlacesTwice()
    ensures var foe := Foe(0, 5);
      var s := Stage([foe], 5, Some(foe));
      BuildStages([foe], MonotoneRule, 2, [], false, [1, 0, 1, 0]) == Success(Built([s, s], []))
  {
    var foe := Foe(0, 5);
    var s := Stage([foe], 5, Some(foe));
    FirstStageOfFoe();
    LastRoundAsWritten();
    assert [] + [s] == [s];
    assert BuildStages([foe], MonotoneRule, 2, [] + [s], false, [1, 0]) == Success(Built([s, s], []));
  }

  /** The same answers, read so that a placed card is refused: the second stage never closes. */
  lemma ExclusiveRefuses()
    ensures var foe := Foe(0, 5);
      BuildStages([foe], MonotoneRule, 2, [], true, [1, 0, 1, 0]).Failure?
  {
    var foe := Foe(0, 5);
    var hand := [foe];
    var s := Stage([foe], 5, Some(foe));
    assert AddCard(NewStage, foe).1 == s;
    assert MonotoneRule([], s);
    assert !IsValid(NewStage);
    assert StageCards([]) == [];
    assert BuildStage(hand, MonotoneRule, [], [], s, [0, 1, 0]) == Success((s, [1, 0]));
    assert BuildStage(hand, MonotoneRule, [], [], NewStage, [1, 0, 1, 0]) == Success((s, [1, 0]));
    assert [] + [s] == [s];
    assert [s][..0] == [];
    assert StageCards([s]) == [foe];
    assert BuildStage(hand, MonotoneRule, [s], [foe], NewStage, []) == Failure(InputExhausted);
    assert BuildStage(hand, MonotoneRule, [s], [foe], NewStage, [0]) == Failure(InputExhausted);
    assert BuildStage(hand, MonotoneRule, [s], [foe], NewStage, [1, 0]) == Failure(InputExhausted);
    assert BuildStages(hand, MonotoneRule, 2, [s], true, [1, 0]).Failure?;
  }
}

=== FILE: resolve.dfy ===
/** Stage-by-stage resolution of `resolveQuest`, with `buildAttack` and `discardAttackCards`. */
module QuestResolution {
  import opened Results
  import opened Seqs
  import opened Cards
  import Stages
  import opened Attacks
  import opened Game
  import HandTrim
  import Quests
  import Sponsorship
  import QuestCleanup

  /** The seats from `p` on that are active: whom a round visits. */
  ghost predicate SeatsFrom(keys: set<nat>, active: set<nat>, p: nat, n: nat) {
    forall q :: q in keys <==> q in active && p <= q < n
  }

  /** The seats from `p` on are seat `p`, if active, and the seats after it. */
  lemma SeatsFromStep(keys: set<nat>, active: set<nat>, p: nat, n: nat)
    requires p < n && SeatsFrom(keys, active, p + 1, n)
    ensures p in active ==> SeatsFrom(keys + {p}, active, p, n)
    ensures p !in active ==> SeatsFrom(keys, active, p, n)
  {
  }

  /** The active seats from `p` on, below `n`: whom a round from seat `p` visits. */
  function ActiveFrom(active: set<nat>, p: nat, n: nat): (r: set<nat>)
    ensures SeatsFrom(r, active, p, n)
  {
    set q | q in active && p <= q < n
  }

  /** Seat `p` counts once among the active seats from `p` on if it is active. */
  lemma ActiveFromStep(active: set<nat>, p: nat, n: nat)
    requires p < n
    ensures |ActiveFrom(active, p, n)| == |ActiveFrom(active, p + 1, n)| + (if p in active then 1 else 0)
  {
    if p in active {
      assert ActiveFrom(active, p, n) == ActiveFrom(active, p + 1, n) + {p};
    } else {
      assert ActiveFrom(active, p, n) == ActiveFrom(active, p + 1, n);
    }
  }

  /** A round from seat 0 visits every active seat. */
  lemma ActiveFromAll(active: set<nat>, n: nat)
    requires forall q <- active :: q < n
    ensures ActiveFrom(active, 0, n) == active
  {
  }

  /**
   * One choice while building an attack, for a choice inside the hand: a
   * non-weapon is refused and a weapon of a type already in the attack is
   * refused, both leaving the attack as it was; any other weapon joins it.
   */
  function AttackChoice(hand: seq<AdventureCard>, a: Attack, c: int): (r: Attack)
    requires 1 <= c <= |hand|
    ensures !hand[c - 1].Weapon? ==> r == a
    ensures hand[c - 1].Weapon? && HasWeaponOfType(a.weapons, hand[c - 1].kind) ==> r == a
    ensures hand[c - 1].Weapon? && !HasWeaponOfType(a.weapons, hand[c - 1].kind) ==>
              r.weapons == a.weapons + [hand[c - 1]] && r.value == a.value + hand[c - 1].value
    ensures Inv(a) ==> Inv(r)
  {
    var card := hand[c - 1];
    if !card.Weapon? then a else AddWeapon(a, card).1
  }

  /**
   * `buildAttack`, continuing from the attack `a`: choice 0 ends it; a choice
   * inside the hand goes through `AttackChoice`; any other choice is an
   * index error. The result holds only weapons from the hand, one per type.
   */
  function BuildAttack(hand: seq<AdventureCard>, a: Attack, choices: seq<int>)
    : (r: Result<(Attack, seq<int>), Fault>)
    requires Inv(a) && forall w <- a.weapons :: w in hand
    ensures r.Failure? ==> r.error == InputExhausted || r.error == IndexOutOfRange
    ensures choices != [] && choices[0] != 0 && !(1 <= choices[0] <= |hand|) ==> r == Failure(IndexOutOfRange)
    ensures choices != [] && choices[0] == 0 ==> r == Success((a, choices[1..]))
    ensures r.Success? ==>
              var (b, rest) := r.value;
              && Inv(b) && (forall w <- b.weapons :: w in hand)
              && multiset(b.weapons) <= multiset(hand)
              && a.weapons <= b.weapons
              && |rest| < |choices| && rest == choices[|choices| - |rest|..]
    decreases |choices|
  {
    if choices == [] then Failure(InputExhausted)
    else if choices[0] == 0 then
      WeaponsDistinct(a);
      DistinctSubMultiset(a.weapons, hand);
      Success((a, choices[1..]))
    else if choices[0] < 1 || choices[0] > |hand| then Failure(IndexOutOfRange)
    else
      var a1 := AttackChoice(hand, a, choices[0]);
      assert a.weapons <= a1.weapons;
      BuildAttack(hand, a1, choices[1..])
  }

  /** `b` is `a` armed with the cards that the choices read before `rest` name, in order. */
  ghost predicate ArmedFrom(hand: seq<AdventureCard>, a: Attack, choices: seq<int>, b: Attack, rest: seq<int>) {
    && |rest| < |choices| && rest == choices[|choices| - |rest|..]
    && b == Arm(a, Picked(hand, [], choices[..|choices| - |rest|]))
  }

  /**
   * The attack `buildAttack` ends with is `a` armed with the cards the
   * choices it read name, in order: every chosen card is offered, and
   * nothing else is.
   */
  lemma {:induction false} BuildAttackArms(hand: seq<AdventureCard>, a: Attack, choices: seq<int>)
    requires Inv(a) && forall w <- a.weapons :: w in hand
    ensures var r := BuildAttack(hand, a, choices);
      r.Success? ==> ArmedFrom(hand, a, choices, r.value.0, r.value.1)
    decreases |choices|
  {
    var r := BuildAttack(hand, a, choices);
    if choices != [] && r.Success? {
      if choices[0] == 0 {
        assert choices[..1] == [0];
        assert Picked(hand, [], [0]) == Named(hand, [], 0) + Picked(hand, [], []);
      } else {
        var a1 := AttackChoice(hand, a, choices[0]);
        assert r == BuildAttack(hand, a1, choices[1..]);
        BuildAttackArms(hand, a1, choices[1..]);
        ArmResumed(hand, a, a1, choices, r.value.0, r.value.1);
      }
    }
  }

  /** Arming from the first choice on is that choice, then arming from the rest. */
  lemma ArmResumed(hand: seq<AdventureCard>, a: Attack, a1: Attack, choices: seq<int>, b: Attack, rest: seq<int>)
    requires choices != [] && 1 <= choices[0] <= |hand|
    requires a1 == AttackChoice(hand, a, choices[0])
    requires ArmedFrom(hand, a1, choices[1..], b, rest)
    ensures ArmedFrom(hand, a, choices, b, rest)
  {
    SuffixStep(choices, rest);
    PickedResumed(hand, [], choices, rest);
    var card := hand[choices[0] - 1];
    var later := Picked(hand, [], choices[1..][..|choices| - 1 - |rest|]);
    assert Named(hand, [], choices[0]) == [card];
    assert Picked(hand, [], choices[..|choices| - |rest|]) == [card] + later;
    ArmCons(a, card, later);
  }

  /** Choice `j` names a card of the hand, so the attack loop reads on past it. */
  predicate ArmsOn(hand: seq<AdventureCard>, choices: seq<int>, j: nat) {
    j < |choices| && 1 <= choices[j] <= |hand|
  }

  /** Each of the first `k` choices names a card of the hand. */
  predicate ArmsThrough(hand: seq<AdventureCard>, choices: seq<int>, k: nat) {
    forall j | 0 <= j < k :: ArmsOn(hand, choices, j)
  }

  /**
   * What the attack loop yields when choice `k` is the first that names no
   * hand card: input runs out if the choices end there, 0 ends the attack
   * armed with the cards the choices before it name, and any other choice
   * is an index error.
   */
  ghost function AttackOutcome(hand: seq<AdventureCard>, a: Attack, choices: seq<int>, k: nat)
    : (r: Result<(Attack, seq<int>), Fault>)
    requires k <= |choices|
  {
    if k == |choices| then Failure(InputExhausted)
    else if choices[k] == 0 then Success((Arm(a, Picked(hand, [], choices[..k])), choices[k + 1..]))
    else Failure(IndexOutOfRange)
  }

  /**
   * `buildAttack` reads choices up to the first that names no hand card,
   * and that choice decides the outcome as `AttackOutcome` says: a 0 there
   * ends the attack with the rest of the choices untouched, anything else
   * there is an index error, and reaching the end of the choices first
   * runs out of input. Such a stopping point always exists.
   */
  lemma {:induction false} BuildAttackStops(hand: seq<AdventureCard>, a: Attack, choices: seq<int>)
    requires Inv(a) && forall w <- a.weapons :: w in hand
    ensures exists k | 0 <= k <= |choices| :: ArmsThrough(hand, choices, k) && !ArmsOn(hand, choices, k)
    ensures forall k | 0 <= k <= |choices| && ArmsThrough(hand, choices, k) && !ArmsOn(hand, choices, k) ::
              BuildAttack(hand, a, choices) == AttackOutcome(hand, a, choices, k)
    decreases |choices|
  {
    assert choices[..0] == [];
    if !ArmsOn(hand, choices, 0) {
      assert ArmsThrough(hand, choices, 0) && !ArmsOn(hand, choices, 0);
    } else {
      var a1 := AttackChoice(hand, a, choices[0]);
      var tail := choices[1..];
      BuildAttackStops(hand, a1, tail);
      var k1 :| 0 <= k1 <= |tail| && ArmsThrough(hand, tail, k1) && !ArmsOn(hand, tail, k1);
      ArmsShift(hand, choices, k1);
      forall k | 0 <= k <= |choices| && ArmsThrough(hand, choices, k) && !ArmsOn(hand, choices, k)
        ensures BuildAttack(hand, a, choices) == AttackOutcome(hand, a, choices, k)
      {
        assert k != 0;
        ArmsShift(hand, choices, k - 1);
        AttackOutcomeStep(hand, a, choices, k);
      }
    }
  }

  /** The choices past the first name hand cards as the same choices do one position on. */
  lemma ArmsShift(hand: seq<AdventureCard>, choices: seq<int>, k: nat)
    requires choices != []
    ensures ArmsOn(hand, choices, k + 1) == ArmsOn(hand, choices[1..], k)
    ensures ArmsThrough(hand, choices, k + 1) == (ArmsOn(hand, choices, 0) && ArmsThrough(hand, choices[1..], k))
  {
    forall j | 0 <= j < |choices| - 1 ensures choices[j + 1] == choices[1..][j] { }
    if ArmsThrough(hand, choices, k + 1) {
      forall j | 0 <= j < k ensures ArmsOn(hand, choices[1..], j) {
        assert ArmsOn(hand, choices, j + 1);
      }
    }
    if ArmsOn(hand, choices, 0) && ArmsThrough(hand, choices[1..], k) {
      forall j | 0 <= j < k + 1 ensures ArmsOn(hand, choices, j) {
        if j > 0 { assert ArmsOn(hand, choices[1..], j - 1); }
      }
    }
  }

  /** Past a first choice that names a hand card, the outcome is that of the rest from the attack it gives. */
  lemma AttackOutcomeStep(hand: seq<AdventureCard>, a: Attack, choices: seq<int>, k: nat)
    requires choices != [] && 1 <= choices[0] <= |hand| && 1 <= k <= |choices|
    ensures AttackOutcome(hand, a, choices, k) == AttackOutcome(hand, AttackChoice(hand, a, choices[0]), choices[1..], k - 1)
  {
    var card := hand[choices[0] - 1];
    var later := Picked(hand, [], choices[1..][..k - 1]);
    assert choices[..k][0] == choices[0] && choices[..k][1..] == choices[1..][..k - 1];
    assert Picked(hand, [], choices[..k]) == [card] + later;
    ArmCons(a, card, later);
    assert k < |choices| ==> choices[k + 1..] == choices[1..][k..];
  }

  /**
   * `discardAttackCards`: every weapon of the attack goes onto the adventure
   * discard pile and leaves `p`'s hand; nothing else changes, and when the
   * weapons came from the hand no card appears or disappears.
   */
  function DiscardAttackCards(t: Table, p: nat, a: Attack): (r: Table)
    requires p < |t.players|
    ensures r.deck.draw == t.deck.draw && r.deck.discard == t.deck.discard + a.weapons
    ensures r.draws == t.draws
    ensures HandsKeptOutside(t, r, {p}) && ShieldsKept(t, r)
    ensures |Hand(r, p)| <= |Hand(t, p)|
    ensures multiset(a.weapons) <= multiset(Hand(t, p)) ==>
              && multiset(Hand(r, p)) == multiset(Hand(t, p)) - multiset(a.weapons)
              && AllCards(r) == AllCards(t)
  {
    if multiset(a.weapons) <= multiset(Hand(t, p)) then
      DiscardFromHandConserves(t, p, a.weapons);
      DiscardFromHand(t, p, a.weapons)
    else DiscardFromHand(t, p, a.weapons)
  }

  /** Player `q`'s attack `a` came from their hand in `t` and has left it in `t'`. */
  predicate Attacked(t: Table, t': Table, q: nat, a: Attack) {
    && q < |t.players| && |t'.players| == |t.players|
    && Inv(a)
    && multiset(a.weapons) <= multiset(Hand(t, q))
    && multiset(Hand(t', q)) == multiset(Hand(t, q)) - multiset(a.weapons)
    && |Hand(t', q)| <= |Hand(t, q)|
  }

  /**
   * What one stage's attacks leave behind: each attacker's weapons came from
   * their hand and have left it; other hands, all shields and the draw pile
   * are untouched, and no card appears or disappears.
   */
  predicate AttacksMade(t: Table, t': Table, attacks: map<nat, Attack>) {
    && HandsKeptOutside(t, t', attacks.Keys) && ShieldsKept(t, t')
    && t'.deck.draw == t.deck.draw && t'.draws == t.draws
    && AllCards(t') == AllCards(t)
    && forall q <- attacks.Keys {:trigger Attacked(t, t', q, attacks[q])} :: Attacked(t, t', q, attacks[q])
  }

  /** An attack stays made while later steps leave the attacker's hand alone. */
  lemma AttackedThen(t: Table, t1: Table, t2: Table, q: nat, a: Attack)
    requires Attacked(t, t1, q, a) && |t2.players| == |t1.players| && Hand(t2, q) == Hand(t1, q)
    ensures Attacked(t, t2, q, a)
  {
  }

  /** An attack made after steps that left the attacker's hand alone. */
  lemma AttackedAfter(t: Table, t1: Table, t2: Table, q: nat, a: Attack)
    requires Attacked(t1, t2, q, a) && |t1.players| == |t.players| && Hand(t1, q) == Hand(t, q)
    ensures Attacked(t, t2, q, a)
  {
  }

  /** A single attack, discarded from the attacker's hand. */
  lemma AttackDiscarded(t: Table, p: nat, a: Attack)
    requires p < |t.players| && Inv(a) && multiset(a.weapons) <= multiset(Hand(t, p))
    ensures AttacksMade(t, DiscardAttackCards(t, p, a), map[p := a])
  {
    var t1 := DiscardAttackCards(t, p, a);
    assert Attacked(t, t1, p, a);
    assert map[p := a].Keys == {p};
  }

  /** One player's attack followed by later players' attacks. */
  lemma AttacksMadeStep(t: Table, t1: Table, t2: Table, p: nat, a: Attack, later: map<nat, Attack>)
    requires p !in later
    requires AttacksMade(t, t1, map[p := a]) && AttacksMade(t1, t2, later)
    ensures AttacksMade(t, t2, later[p := a])
  {
    var all := later[p := a];
    assert HandsKeptOutside(t, t2, all.Keys) by {
      HandsKeptTrans(t, t1, t2, {p}, later.Keys);
      assert {p} + later.Keys == all.Keys;
    }
    assert ShieldsKept(t, t2) by {
      ShieldsKeptTrans(t, t1, t2);
    }
    forall q <- all.Keys
      ensures Attacked(t, t2, q, all[q])
    {
      if q == p {
        assert p in map[p := a].Keys;
        AttackedThen(t, t1, t2, p, a);
      } else {
        assert q in later.Keys;
        AttackedAfter(t, t1, t2, q, later[q]);
      }
    }
  }

  /**
   * The attack loop of one stage, from seat `p` on: every active participant,
   * in seating order, builds an attack from their hand, and its weapons are
   * then discarded whether or not the attack is strong enough.
   */
  function AttackRound(t: Table, active: set<nat>, p: nat, inp: Input): (r: Result<Step<map<nat, Attack>>, Fault>)
    requires p <= |t.players|
    ensures r.Failure? ==> r.error == InputExhausted || r.error == IndexOutOfRange
    ensures r.Success? ==>
              && SeatsFrom(r.value.value.Keys, active, p, |t.players|)
              && AttacksMade(t, r.value.table, r.value.value)
              && Consumed(inp, r.value.input) && r.value.input.answers == inp.answers
    decreases |t.players| - p
  {
    if p == |t.players| then Success(Step(map[], t, inp))
    else if p !in active then
      var more := AttackRound(t, active, p + 1, inp);
      if more.Failure? then more
      else
        SeatsFromStep(more.value.value.Keys, active, p, |t.players|);
        more
    else
      var b := BuildAttack(Hand(t, p), NewAttack, inp.choices);
      if b.Failure? then Failure(b.error)
      else
        var (a, rest) := b.value;
        var t1 := DiscardAttackCards(t, p, a);
        var inp1 := inp.(choices := rest);
        var more := AttackRound(t1, active, p + 1, inp1);
        if more.Failure? then Failure(more.error)
        else
          AttackDiscarded(t, p, a);
          AttacksMadeStep(t, t1, more.value.table, p, a, more.value.value);
          SeatsFromStep(more.value.value.Keys, active, p, |t.players|);
          assert more.value.value[p := a].Keys == more.value.value.Keys + {p};
          ConsumedTrans(inp, inp1, more.value.input);
          Success(Step(more.value.value[p := a], more.value.table, more.value.input))
  }

  /**
   * An attack round takes nothing from the draw pile and only adds the
   * attacks' weapons to the discard pile.
   */
  lemma {:induction false} AttackRoundKeepsDeck(t: Table, active: set<nat>, p: nat, inp: Input)
    requires p <= |t.players|
    ensures var r := AttackRound(t, active, p, inp);
            r.Success? ==> r.value.table.deck.draw == t.deck.draw && t.deck.discard <= r.value.table.deck.discard
    decreases |t.players| - p
  {
    if p < |t.players| {
      if p !in active {
        AttackRoundKeepsDeck(t, active, p + 1, inp);
      } else {
        var b := BuildAttack(Hand(t, p), NewAttack, inp.choices);
        if b.Success? {
          var t1 := DiscardAttackCards(t, p, b.value.0);
          var inp1 := inp.(choices := b.value.1);
          var more := AttackRound(t1, active, p + 1, inp1);
          AttackRoundKeepsDeck(t1, active, p + 1, inp1);
          if more.Success? {
            assert AttackRound(t, active, p, inp).value.table == more.value.table;
            assert t.deck.discard <= t1.deck.discard <= more.value.table.deck.discard;
          }
        }
      }
    }
  }

  /**
   * Player `q` drew `c` and then trimmed: the hand grew by one card, or was
   * cut back to the limit, and holds nothing but what was there and `c`.
   */
  predicate Refilled(t: Table, t': Table, q: nat, c: AdventureCard) {
    && q < |t.players| && |t'.players| == |t.players|
    && |Hand(t', q)| == HandTrim.Refill(|Hand(t, q)|, 1)
    && multiset(Hand(t', q)) <= multiset(Hand(t, q)) + multiset{c}
  }

  /** What a stage's draws leave behind: only drawers' hands changed, no card made or lost. */
  predicate DrawsMade(t: Table, t': Table, drawn: map<nat, AdventureCard>) {
    && HandsKeptOutside(t, t', drawn.Keys) && ShieldsKept(t, t')
    && AllCards(t') == AllCards(t)
    && forall q <- drawn.Keys {:trigger Refilled(t, t', q, drawn[q])} :: Refilled(t, t', q, drawn[q])
  }

  /**
   * One participant's turn at the start of a stage: draw one adventure card
   * into the hand, then trim the hand if it is over the limit.
   */
  function DrawAndTrim(t: Table, p: nat, rng: Rng, inp: Input): (r: Result<Step<AdventureCard>, Fault>)
    requires p < |t.players|
    ensures r.Failure? ==> r.error == NoCardsLeft || (r.error == InputExhausted && |Hand(t, p)| >= HandLimit)
    ensures r == Failure(NoCardsLeft) <==> HandTrim.DeckSize(t) == 0
    ensures r.Success? ==>
              && HandTrim.DeckSize(r.value.table) + 1 >= HandTrim.DeckSize(t)
              && DrawsMade(t, r.value.table, map[p := r.value.value])
              && Consumed(inp, r.value.input) && r.value.input.answers == inp.answers
  {
    var d := HandTrim.DrawThenTrim(t, p, 1, rng, inp);
    if d.Failure? then Failure(d.error)
    else
      var Step(drawn, t1, rest) := d.value;
      assert drawn == [drawn[0]];
      DrewOne(t, t1, p, drawn[0]);
      Success(Step(drawn[0], t1, rest))
  }

  /** One card drawn into `p`'s hand and trimmed is one refill. */
  lemma DrewOne(t: Table, t1: Table, p: nat, c: AdventureCard)
    requires p < |t.players| && p < |t1.players|
    requires |Hand(t1, p)| == HandTrim.Refill(|Hand(t, p)|, 1)
    requires multiset(Hand(t1, p)) <= multiset(Hand(t, p)) + multiset([c])
    requires HandsKeptOutside(t, t1, {p}) && ShieldsKept(t, t1) && AllCards(t1) == AllCards(t)
    ensures DrawsMade(t, t1, map[p := c])
  {
    assert Refilled(t, t1, p, c);
    assert map[p := c].Keys == {p};
  }

  /** A refill stays as it was while later steps leave the drawer's hand alone. */
  lemma RefilledThen(t: Table, t1: Table, t2: Table, q: nat, c: AdventureCard)
    requires Refilled(t, t1, q, c) && |t2.players| == |t1.players| && Hand(t2, q) == Hand(t1, q)
    ensures Refilled(t, t2, q, c)
  {
  }

  /** A refill after steps that left the drawer's hand alone. */
  lemma RefilledAfter(t: Table, t1: Table, t2: Table, q: nat, c: AdventureCard)
    requires Refilled(t1, t2, q, c) && |t1.players| == |t.players| && Hand(t1, q) == Hand(t, q)
    ensures Refilled(t, t2, q, c)
  {
  }

  /** One player's draw followed by later players' draws. */
  lemma DrawsMadeStep(t: Table, t1: Table, t2: Table, p: nat, c: AdventureCard, later: map<nat, AdventureCard>)
    requires p !in later
    requires DrawsMade(t, t1, map[p := c]) && DrawsMade(t1, t2, later)
    ensures DrawsMade(t, t2, later[p := c])
  {
    var all := later[p := c];
    assert HandsKeptOutside(t, t2, all.Keys) by {
      HandsKeptTrans(t, t1, t2, {p}, later.Keys);
      assert {p} + later.Keys == all.Keys;
    }
    assert ShieldsKept(t, t2) by {
      ShieldsKeptTrans(t, t1, t2);
    }
    forall q <- all.Keys
      ensures Refilled(t, t2, q, all[q])
    {
      if q == p {
        assert p in map[p := c].Keys;
        RefilledThen(t, t1, t2, p, c);
      } else {
        assert q in later.Keys;
        RefilledAfter(t, t1, t2, q, later[q]);
      }
    }
  }

  /**
   * The draw loop of one stage, from seat `p` on: every active participant,
   * in seating order, draws a card and trims.
   */
  function DrawRound(t: Table, active: set<nat>, p: nat, rng: Rng, inp: Input)
    : (r: Result<Step<map<nat, AdventureCard>>, Fault>)
    requires p <= |t.players|
    ensures r.Failure? ==> r.error == NoCardsLeft || r.error == InputExhausted
    ensures r.Success? ==>
              && SeatsFrom(r.value.value.Keys, active, p, |t.players|)
              && DrawsMade(t, r.value.table, r.value.value)
              && Consumed(inp, r.value.input) && r.value.input.answers == inp.answers
    decreases |t.players| - p
  {
    if p == |t.players| then Success(Step(map[], t, inp))
    else if p !in active then
      var more := DrawRound(t, active, p + 1, rng, inp);
      if more.Failure? then more
      else
        SeatsFromStep(more.value.value.Keys, active, p, |t.players|);
        more
    else
      var one := DrawAndTrim(t, p, rng, inp);
      if one.Failure? then Failure(one.error)
      else
        var Step(c, t1, inp1) := one.value;
        var more := DrawRound(t1, active, p + 1, rng, inp1);
        if more.Failure? then Failure(more.error)
        else
          DrawsMadeStep(t, t1, more.value.table, p, c, more.value.value);
          SeatsFromStep(more.value.value.Keys, active, p, |t.players|);
          assert more.value.value[p := c].Keys == more.value.value.Keys + {p};
          ConsumedTrans(inp, inp1, more.value.input);
          Success(Step(more.value.value[p := c], more.value.table, more.value.input))
  }

  /**
   * A draw round uses at most one card of the deck per seat it visits, so
   * a deck holding that many cards never runs dry during the round.
   */
  lemma {:induction false} DrawRoundBudget(t: Table, active: set<nat>, p: nat, rng: Rng, inp: Input)
    requires p <= |t.players|
    ensures var r := DrawRound(t, active, p, rng, inp);
            && (HandTrim.DeckSize(t) >= |ActiveFrom(active, p, |t.players|)| ==> r != Failure(NoCardsLeft))
            && (r.Success? ==> HandTrim.DeckSize(r.value.table) + |ActiveFrom(active, p, |t.players|)| >= HandTrim.DeckSize(t))
    decreases |t.players| - p
  {
    var r := DrawRound(t, active, p, rng, inp);
    if p < |t.players| {
      ActiveFromStep(active, p, |t.players|);
      if p !in active {
        DrawRoundBudget(t, active, p + 1, rng, inp);
        var more := DrawRound(t, active, p + 1, rng, inp);
        assert r == more;
      } else {
        var one := DrawAndTrim(t, p, rng, inp);
        if one.Failure? {
          assert r == Failure(one.error);
        } else {
          var t1 := one.value.table;
          DrawRoundBudget(t1, active, p + 1, rng, one.value.input);
          var more := DrawRound(t1, active, p + 1, rng, one.value.input);
          var later := |ActiveFrom(active, p + 1, |t.players|)|;
          assert HandTrim.DeckSize(t1) >= later ==> more != Failure(NoCardsLeft);
          BudgetKept(HandTrim.DeckSize(t), HandTrim.DeckSize(t1), 1, later, |ActiveFrom(active, p, |t.players|)|);
          if more.Failure? {
            assert r == Failure(more.error);
          } else {
            assert HandTrim.DeckSize(more.value.table) + later >= HandTrim.DeckSize(t1);
            BudgetSpent(HandTrim.DeckSize(t), HandTrim.DeckSize(t1), HandTrim.DeckSize(more.value.table), 1,
                        later, |ActiveFrom(active, p, |t.players|)|);
            assert r.value.table == more.value.table;
          }
        }
      }
    }
  }

  /**
   * A hand that took one drawn card and then gave up an attack's weapons
   * holds, together with those weapons, no more than the hand before plus
   * the drawn card.
   */
  lemma AttackAfterDraw(before: multiset<AdventureCard>, drew: multiset<AdventureCard>, after: multiset<AdventureCard>,
                        weapons: multiset<AdventureCard>, c: AdventureCard)
    requires drew <= before + multiset{c}
    requires weapons <= drew && after == drew - weapons
    ensures after + weapons <= before + multiset{c}
  {
    assert after + weapons == drew;
  }

  /** A stage's draws followed by its attacks. */
  lemma StagePlayed(t: Table, t1: Table, t2: Table, active: set<nat>,
                    drawn: map<nat, AdventureCard>, attacks: map<nat, Attack>)
    requires SeatsFrom(drawn.Keys, active, 0, |t.players|) && DrawsMade(t, t1, drawn)
    requires SeatsFrom(attacks.Keys, active, 0, |t1.players|) && AttacksMade(t1, t2, attacks)
    requires forall q <- active :: q < |t.players|
    ensures drawn.Keys == active && attacks.Keys == active
    ensures HandsKeptOutside(t, t2, active) && ShieldsKept(t, t2) && AllCards(t2) == AllCards(t)
    ensures forall q <- active {:trigger StageHand(t, t2, q, drawn[q], attacks[q])} :: StageHand(t, t2, q, drawn[q], attacks[q])
  {
    assert drawn.Keys == active;
    assert attacks.Keys == active;
    forall q <- active
      ensures StageHand(t, t2, q, drawn[q], attacks[q])
    {
      assert Refilled(t, t1, q, drawn[q]);
      assert Attacked(t1, t2, q, attacks[q]);
      AttackAfterDraw(multiset(Hand(t, q)), multiset(Hand(t1, q)), multiset(Hand(t2, q)),
                      multiset(attacks[q].weapons), drawn[q]);
    }
    HandsKeptTrans(t, t1, t2, active, active);
    assert active + active == active;
    ShieldsKeptTrans(t, t1, t2);
  }

  /**
   * Player `q`'s part in one stage: after drawing `c` and trimming, they
   * attacked with `a`, a legal attack whose weapons, with the hand left
   * over, came from the hand before plus `c`; the hand is within the limit.
   */
  predicate StageHand(t: Table, t': Table, q: nat, c: AdventureCard, a: Attack) {
    && q < |t.players| && q < |t'.players|
    && Inv(a)
    && |Hand(t', q)| <= HandLimit
    && multiset(Hand(t', q)) + multiset(a.weapons) <= multiset(Hand(t, q)) + multiset{c}
  }

  /** What every participant's `StageHand` gives the rest of the quest. */
  lemma StageHands(t: Table, t': Table, active: set<nat>, round: Round)
    requires forall q <- active :: q in round.drawn && q in round.attacks
    requires forall q <- active {:trigger StageHand(t, t', q, round.drawn[q], round.attacks[q])} :: StageHand(t, t', q, round.drawn[q], round.attacks[q])
    ensures forall q <- active :: q < |t'.players| && |Hand(t', q)| <= HandLimit && Inv(round.attacks[q])
  {
    forall q <- active
      ensures q < |t'.players| && |Hand(t', q)| <= HandLimit && Inv(round.attacks[q])
    {
      assert StageHand(t, t', q, round.drawn[q], round.attacks[q]);
    }
  }

  /** One stage's moves: the card each participant drew and the attack each made. */
  datatype Round = Round(drawn: map<nat, AdventureCard>, attacks: map<nat, Attack>)

  /**
   * One stage with the players still in the quest: first each draws exactly
   * one card and trims, then each builds a legal attack from their hand,
   * whose weapons are discarded.
   */
  function PlayStage(t: Table, active: set<nat>, rng: Rng, inp: Input): (r: Result<Step<Round>, Fault>)
    requires forall q <- active :: q < |t.players|
    ensures r.Failure? ==> r.error == NoCardsLeft || r.error == InputExhausted || r.error == IndexOutOfRange
    ensures r.Success? ==>
              var Step(Round(drawn, attacks), t', rest) := r.value;
              && drawn.Keys == active && attacks.Keys == active
              && HandsKeptOutside(t, t', active) && ShieldsKept(t, t')
              && AllCards(t') == AllCards(t)
              && (forall q <- active {:trigger StageHand(t, t', q, drawn[q], attacks[q])} :: StageHand(t, t', q, drawn[q], attacks[q]))
              && Consumed(inp, rest) && rest.answers == inp.answers
    ensures HandTrim.DeckSize(t) >= |active| ==> r != Failure(NoCardsLeft)
    ensures r.Success? ==> HandTrim.DeckSize(r.value.table) + |active| >= HandTrim.DeckSize(t)
  {
    ActiveFromAll(active, |t.players|);
    DrawRoundBudget(t, active, 0, rng, inp);
    var d := DrawRound(t, active, 0, rng, inp);
    if d.Failure? then Failure(d.error)
    else
      var Step(drawn, t1, inp1) := d.value;
      AttackRoundKeepsDeck(t1, active, 0, inp1);
      var a := AttackRound(t1, active, 0, inp1);
      if a.Failure? then Failure(a.error)
      else
        var Step(attacks, t2, inp2) := a.value;
        StagePlayed(t, t1, t2, active, drawn, attacks);
        ConsumedTrans(inp, inp1, inp2);
        Success(Step(Round(drawn, attacks), t2, inp2))
  }

  /**
   * The players whose attack reached the stage's value go on: an attack
   * equal to the stage's value is enough, and only attackers can go on.
   */
  function Survivors(attacks: map<nat, Attack>, stage: Stages.Stage): (r: set<nat>)
    ensures r <= attacks.Keys
    ensures forall q <- attacks.Keys :: q in r <==> attacks[q].value >= stage.value
  {
    set q <- attacks.Keys | attacks[q].value >= stage.value
  }

  /**
   * A stronger stage lets no more players through, and a stage no stronger
   * than every attack lets all of them through.
   */
  lemma SurvivorsMonotone(attacks: map<nat, Attack>, weaker: Stages.Stage, stronger: Stages.Stage)
    requires weaker.value <= stronger.value
    ensures Survivors(attacks, stronger) <= Survivors(attacks, weaker)
    ensures (forall q <- attacks.Keys :: attacks[q].value >= stronger.value) ==>
              Survivors(attacks, stronger) == attacks.Keys
  {
  }

  /**
   * The last stage's reward: each winner gains `reward` shields (the quest's
   * number of stages); hands, the deck and everyone else are left alone.
   */
  function Award(t: Table, winners: set<nat>, reward: nat): (r: Table)
    ensures HandsKeptOutside(t, r, {}) && AllCards(r) == AllCards(t)
    ensures r.deck == t.deck && r.draws == t.draws
    ensures |r.players| == |t.players|
    ensures forall q | 0 <= q < |t.players| ::
              r.players[q].shields == t.players[q].shields + (if q in winners then reward else 0)
  {
    var ps := seq(|t.players|, q requires 0 <= q < |t.players| =>
      var pl := t.players[q];
      if q in winners then pl.(shields := pl.shields + reward) else pl);
    HandsSame(t.players, ps);
    t.(players := ps)
  }

  /**
   * What the stages from `i` on did: who won, the attacks of each stage
   * played, and the card each participant drew at the start of that stage.
   */
  datatype Resolution = Resolution(winners: set<nat>, rounds: seq<map<nat, Attack>>, drawn: seq<map<nat, AdventureCard>>)

  /**
   * `rounds` is a faithful record of the stages from `i` on, starting with
   * `active`: each round is played by the survivors of the one before, play
   * stops after the last stage or once nobody survives, and the winners are
   * the survivors of the last stage when it was reached.
   */
  ghost predicate Played(stages: seq<Stages.Stage>, i: nat, active: set<nat>, res: Resolution)
    requires i <= |stages|
  {
    var rounds := res.rounds;
    && |rounds| <= |stages| - i
    && (rounds == [] <==> i == |stages| || active == {})
    && (rounds != [] ==> rounds[0].Keys == active)
    && (forall j | 0 <= j < |rounds| - 1 :: rounds[j + 1].Keys == Survivors(rounds[j], stages[i + j]))
    && (forall j | 0 <= j < |rounds| - 1 :: Survivors(rounds[j], stages[i + j]) != {})
    && (0 < |rounds| < |stages| - i ==> Survivors(rounds[|rounds| - 1], stages[i + |rounds| - 1]) == {})
    && res.winners == (if rounds != [] && |rounds| == |stages| - i
                       then Survivors(rounds[|rounds| - 1], stages[|stages| - 1]) else {})
  }

  /** Nothing played: there were no stages left or nobody in. */
  lemma PlayedNone(stages: seq<Stages.Stage>, i: nat, active: set<nat>)
    requires i <= |stages| && (i == |stages| || active == {})
    ensures Played(stages, i, active, Resolution({}, [], []))
  {
  }

  /** The last stage played: its survivors win. */
  lemma PlayedLast(stages: seq<Stages.Stage>, i: nat, active: set<nat>, attacks: map<nat, Attack>,
                   drawn: seq<map<nat, AdventureCard>>)
    requires i == |stages| - 1 && active != {} && attacks.Keys == active
    ensures Played(stages, i, active, Resolution(Survivors(attacks, stages[i]), [attacks], drawn))
  {
  }

  /** A stage before the last played, then the rest with its survivors. */
  lemma PlayedStep(stages: seq<Stages.Stage>, i: nat, active: set<nat>, attacks: map<nat, Attack>, res: Resolution,
                   drawn: seq<map<nat, AdventureCard>>)
    requires i < |stages| - 1 && active != {} && attacks.Keys == active
    requires Played(stages, i + 1, Survivors(attacks, stages[i]), res)
    ensures Played(stages, i, active, Resolution(res.winners, [attacks] + res.rounds, drawn))
  {
    var rounds := [attacks] + res.rounds;
    forall j | 0 <= j < |rounds| - 1
      ensures rounds[j + 1].Keys == Survivors(rounds[j], stages[i + j])
      ensures Survivors(rounds[j], stages[i + j]) != {}
    {
      if j > 0 {
        assert rounds[j] == res.rounds[j - 1] && rounds[j + 1] == res.rounds[j];
      }
    }
    if 0 < |rounds| < |stages| - i && res.rounds != [] {
      assert rounds[|rounds| - 1] == res.rounds[|res.rounds| - 1];
    }
    if |rounds| == |stages| - i {
      assert rounds[|rounds| - 1] == res.rounds[|res.rounds| - 1];
    }
  }

  /**
   * Every round of `res` is a legal one: the players who attacked are
   * exactly those who drew a card at the start of that stage, one card
   * each, and every attack holds only weapons, one per type, worth their sum.
   */
  ghost predicate Legal(res: Resolution) {
    && |res.drawn| == |res.rounds|
    && (forall j | 0 <= j < |res.rounds| :: res.drawn[j].Keys == res.rounds[j].Keys)
    && (forall j, q | 0 <= j < |res.rounds| && q in res.rounds[j] :: Inv(res.rounds[j][q]))
  }

  /** A legal round in front of legal rounds. */
  lemma LegalStep(round: Round, winners: set<nat>, res: Resolution)
    requires round.drawn.Keys == round.attacks.Keys && forall q <- round.attacks.Keys :: Inv(round.attacks[q])
    requires Legal(res)
    ensures Legal(Resolution(winners, [round.attacks] + res.rounds, [round.drawn] + res.drawn))
  {
    var rounds, drawn := [round.attacks] + res.rounds, [round.drawn] + res.drawn;
    forall j | 0 < j < |rounds|
      ensures drawn[j].Keys == rounds[j].Keys && forall q <- rounds[j].Keys :: Inv(rounds[j][q])
    {
      assert rounds[j] == res.rounds[j - 1] && drawn[j] == res.drawn[j - 1];
    }
  }

  /** A winner survived every round from round `k` on. */
  lemma {:induction false} WinnerSurvived(stages: seq<Stages.Stage>, i: nat, active: set<nat>, res: Resolution, q: nat, k: nat)
    requires i <= |stages| && Played(stages, i, active, res)
    requires q in res.winners && k < |res.rounds|
    ensures q in Survivors(res.rounds[k], stages[i + k])
    decreases |res.rounds| - k
  {
    if k < |res.rounds| - 1 {
      WinnerSurvived(stages, i, active, res, q, k + 1);
      assert q in res.rounds[k + 1].Keys;
    }
  }

  /**
   * The winners are exactly the players who were in every stage of the quest
   * and whose attack reached every stage's value.
   */
  lemma WinnersBeatEveryStage(stages: seq<Stages.Stage>, active: set<nat>, res: Resolution)
    requires Played(stages, 0, active, res)
    ensures forall q :: q in res.winners <==>
              && res.rounds != [] && |res.rounds| == |stages|
              && forall j | 0 <= j < |res.rounds| :: q in res.rounds[j] && res.rounds[j][q].value >= stages[j].value
  {
    forall q
      ensures q in res.winners <==>
                && res.rounds != [] && |res.rounds| == |stages|
                && forall j | 0 <= j < |res.rounds| :: q in res.rounds[j] && res.rounds[j][q].value >= stages[j].value
    {
      if q in res.winners {
        forall j | 0 <= j < |res.rounds|
          ensures q in res.rounds[j] && res.rounds[j][q].value >= stages[j].value
        {
          WinnerSurvived(stages, 0, active, res, q, j);
        }
      }
      if res.rounds != [] && |res.rounds| == |stages| &&
         forall j | 0 <= j < |res.rounds| :: q in res.rounds[j] && res.rounds[j][q].value >= stages[j].value
      {
        var last := |res.rounds| - 1;
        assert q in res.rounds[last] && res.rounds[last][q].value >= stages[last].value;
      }
    }
  }

  /**
   * Two stages of values 3 and 5, players 0 and 1 in: in the first stage 0
   * attacks with 4 and 1 with 2, so only 0 goes on; in the last stage 0
   * attacks with 5, a tie, and wins alone.
   */
  lemma TwoStageScenario(s3: Stages.Stage, s5: Stages.Stage, a4: Attack, a2: Attack, a5: Attack,
                         drawn: seq<map<nat, AdventureCard>>)
    requires s3.value == 3 && s5.value == 5
    requires a4.value == 4 && a2.value == 2 && a5.value == 5
    ensures Survivors(map[0 := a4, 1 := a2], s3) == {0}
    ensures Survivors(map[0 := a5], s5) == {0}
    ensures Played([s3, s5], 0, {0, 1}, Resolution({0}, [map[0 := a4, 1 := a2], map[0 := a5]], drawn))
  {
    var first, last := map[0 := a4, 1 := a2], map[0 := a5];
    assert first.Keys == {0, 1} && last.Keys == {0};
    assert Survivors(first, s3) == {0};
    assert Survivors(last, s5) == {0};
    PlayedLast([s3, s5], 1, {0}, last, []);
    PlayedStep([s3, s5], 0, {0, 1}, first, Resolution({0}, [last], []), drawn);
    assert [first] + [last] == [first, last];
  }

  /**
   * What the stages leave on the table: only the players who were in have
   * other hands, no card appears or disappears, the winners hold no more
   * than the hand limit, and exactly the winners gained `reward` shields.
   */
  ghost predicate Rewarded(t: Table, t': Table, active: set<nat>, winners: set<nat>, reward: nat) {
    && HandsKeptOutside(t, t', active) && AllCards(t') == AllCards(t)
    && (forall q | 0 <= q < |t.players| ::
          t'.players[q].shields == t.players[q].shields + (if q in winners then reward else 0))
    && (forall q <- winners :: q < |t'.players| && |Hand(t', q)| <= HandLimit)
  }

  /** After the last stage, the award makes the stage's survivors the winners. */
  lemma RewardedLast(t: Table, t1: Table, active: set<nat>, winners: set<nat>, reward: nat)
    requires winners <= active
    requires HandsKeptOutside(t, t1, active) && ShieldsKept(t, t1) && AllCards(t1) == AllCards(t)
    requires forall q <- active :: q < |t.players| && |Hand(t1, q)| <= HandLimit
    ensures Rewarded(t, Award(t1, winners, reward), active, winners, reward)
  {
    var t2 := Award(t1, winners, reward);
    HandsKeptTrans(t, t1, t2, active, {});
    assert active + {} == active;
  }

  /** A stage before the last, then the rest of the quest. */
  lemma RewardedStep(t: Table, t1: Table, t2: Table, active: set<nat>, next: set<nat>, winners: set<nat>, reward: nat)
    requires next <= active
    requires HandsKeptOutside(t, t1, active) && ShieldsKept(t, t1) && AllCards(t1) == AllCards(t)
    requires Rewarded(t1, t2, next, winners, reward)
    ensures Rewarded(t, t2, active, winners, reward)
  {
    HandsKeptTrans(t, t1, t2, active, next);
    assert active + next == active;
  }

  /** From `t` to `t'` the deck gave up at most `budget` cards. */
  predicate Spent(t: Table, t': Table, budget: nat) {
    HandTrim.DeckSize(t') + budget >= HandTrim.DeckSize(t)
  }

  /** A stage that takes at most one card per player stays within the budget of every stage left. */
  lemma {:induction false} SpentLast(t: Table, t1: Table, players: nat, left: nat)
    requires left > 0 && Spent(t, t1, players)
    ensures Spent(t, t1, StageDraws(players, left))
  {
    StageDrawsStep(0, players, left, left - 1);
  }

  /** A stage, then the rest with no more players, within the budget of every stage left. */
  lemma {:induction false} SpentStep(t: Table, t1: Table, t2: Table, active: set<nat>, next: set<nat>, stages: seq<Stages.Stage>, i: nat)
    requires i < |stages| && |next| <= |active|
    requires Spent(t, t1, |active|) && Spent(t1, t2, StageDraws(|next|, |stages| - (i + 1)))
    ensures Spent(t, t2, StageDraws(|active|, |stages| - i))
  {
    StageDrawsStep(|next|, |active|, |stages| - i, |stages| - (i + 1));
  }

  /**
   * What the stages from `i` on promise when they end without a fault: a
   * faithful record of legal rounds, winners among the players who were
   * in, the reward paid to exactly those winners with every card kept, no
   * more than one card of the deck per starter and stage left, and only
   * card choices used up.
   */
  ghost predicate Resolves(t: Table, stages: seq<Stages.Stage>, reward: nat, active: set<nat>, i: nat, inp: Input,
                           r: Result<Step<Resolution>, Fault>)
    requires i <= |stages|
  {
    r.Success? ==>
      var Step(res, t', rest) := r.value;
      && Played(stages, i, active, res)
      && Legal(res)
      && res.winners <= active
      && Rewarded(t, t', active, res.winners, reward)
      && Spent(t, t', StageDraws(|active|, |stages| - i))
      && Consumed(inp, rest) && rest.answers == inp.answers
  }

  /**
   * The stage loop of `resolveQuest`, from stage `i` on with the players
   * still in: a stage is played while there are stages left and someone
   * is still in.
   */
  function ResolveFrom(t: Table, stages: seq<Stages.Stage>, reward: nat, active: set<nat>, i: nat, rng: Rng, inp: Input)
    : (r: Result<Step<Resolution>, Fault>)
    requires i <= |stages|
    requires forall q <- active :: q < |t.players|
    ensures Resolves(t, stages, reward, active, i, inp, r)
    decreases |stages| - i, 1
  {
    if i == |stages| || active == {} then
      PlayedNone(stages, i, active);
      Success(Step(Resolution({}, [], []), t, inp))
    else
      PlayFrom(t, stages, reward, active, i, rng, inp)
  }

  /**
   * Stage `i` played by the players still in; after the last stage its
   * survivors get the reward, after any other the loop goes on with them.
   */
  function PlayFrom(t: Table, stages: seq<Stages.Stage>, reward: nat, active: set<nat>, i: nat, rng: Rng, inp: Input)
    : (r: Result<Step<Resolution>, Fault>)
    requires i < |stages| && active != {}
    requires forall q <- active :: q < |t.players|
    ensures Resolves(t, stages, reward, active, i, inp, r)
    decreases |stages| - i, 0
  {
    var s := PlayStage(t, active, rng, inp);
    if s.Failure? then Failure(s.error)
    else
      var Step(round, t1, inp1) := s.value;
      var next := Survivors(round.attacks, stages[i]);
      StagedByPlay(t, active, rng, inp);
      if i == |stages| - 1 then
        LastStageResolves(t, stages, reward, active, i, inp, round, t1, inp1);
        Success(Step(Resolution(next, [round.attacks], [round.drawn]), Award(t1, next, reward), inp1))
      else
        SurvivorsSeated(t1, active, round.attacks, stages[i]);
        var more := ResolveFrom(t1, stages, reward, next, i + 1, rng, inp1);
        if more.Failure? then Failure(more.error)
        else
          StageThenResolves(t, stages, reward, active, i, inp, round, t1, inp1, more);
          var Step(res, t2, inp2) := more.value;
          Success(Step(Resolution(res.winners, [round.attacks] + res.rounds, [round.drawn] + res.drawn), t2, inp2))
  }

  /**
   * What a stage played by `active` from `t` leaves for the rest of the
   * quest: one card drawn and one legal attack per player, each player's
   * hand within the limit, nothing else changed, at most one card per
   * player taken from the deck, and only card choices used up.
   */
  ghost predicate Staged(t: Table, active: set<nat>, inp: Input, round: Round, t1: Table, inp1: Input) {
    && round.drawn.Keys == active && round.attacks.Keys == active
    && HandsKeptOutside(t, t1, active) && ShieldsKept(t, t1) && AllCards(t1) == AllCards(t)
    && (forall q <- active :: q < |t1.players| && |Hand(t1, q)| <= HandLimit && Inv(round.attacks[q]))
    && Spent(t, t1, |active|)
    && Consumed(inp, inp1) && inp1.answers == inp.answers
  }

  /** A stage played without a fault is `Staged`. */
  lemma {:induction false} StagedByPlay(t: Table, active: set<nat>, rng: Rng, inp: Input)
    requires forall q <- active :: q < |t.players|
    requires PlayStage(t, active, rng, inp).Success?
    ensures var Step(round, t1, inp1) := PlayStage(t, active, rng, inp).value;
            Staged(t, active, inp, round, t1, inp1)
  {
    var Step(round, t1, inp1) := PlayStage(t, active, rng, inp).value;
    StageHands(t, t1, active, round);
  }

  /** The last stage, once played, settles the quest for the players in it. */
  lemma {:induction false} LastStageResolves(t: Table, stages: seq<Stages.Stage>, reward: nat, active: set<nat>, i: nat, inp: Input,
                          round: Round, t1: Table, inp1: Input)
    requires i == |stages| - 1 && active != {}
    requires forall q <- active :: q < |t.players|
    requires Staged(t, active, inp, round, t1, inp1)
    ensures var next := Survivors(round.attacks, stages[i]);
            Resolves(t, stages, reward, active, i, inp,
                     Success(Step(Resolution(next, [round.attacks], [round.drawn]), Award(t1, next, reward), inp1)))
  {
    var next := Survivors(round.attacks, stages[i]);
    LegalStep(round, next, Resolution({}, [], []));
    SpentLast(t, t1, |active|, |stages| - i);
    PlayedLast(stages, i, active, round.attacks, [round.drawn]);
    RewardedLast(t, t1, active, next, reward);
    assert [round.attacks] + [] == [round.attacks] && [round.drawn] + [] == [round.drawn];
  }

  /** A stage played, followed by the rest of the quest, resolves the quest from that stage. */
  lemma {:induction false} StageThenResolves(t: Table, stages: seq<Stages.Stage>, reward: nat, active: set<nat>, i: nat, inp: Input,
                          round: Round, t1: Table, inp1: Input, more: Result<Step<Resolution>, Fault>)
    requires i < |stages| - 1 && active != {}
    requires Staged(t, active, inp, round, t1, inp1)
    requires more.Success? && Resolves(t1, stages, reward, Survivors(round.attacks, stages[i]), i + 1, inp1, more)
    ensures var Step(res, t2, inp2) := more.value;
            Resolves(t, stages, reward, active, i, inp,
                     Success(Step(Resolution(res.winners, [round.attacks] + res.rounds, [round.drawn] + res.drawn), t2, inp2)))
  {
    var Step(res, t2, inp2) := more.value;
    StageThenPlayed(stages, i, active, round, res);
    StageThenKept(t, t1, t2, stages, reward, active, i, inp, round, inp1, res.winners, inp2);
  }

  /** The record of a stage played, in front of the record of the rest. */
  lemma {:induction false} StageThenPlayed(stages: seq<Stages.Stage>, i: nat, active: set<nat>, round: Round, res: Resolution)
    requires i < |stages| - 1 && active != {}
    requires round.drawn.Keys == active && round.attacks.Keys == active
    requires forall q <- active :: Inv(round.attacks[q])
    requires var next := Survivors(round.attacks, stages[i]);
             Played(stages, i + 1, next, res) && Legal(res) && res.winners <= next
    ensures var res' := Resolution(res.winners, [round.attacks] + res.rounds, [round.drawn] + res.drawn);
            Played(stages, i, active, res') && Legal(res') && res'.winners <= active
  {
    PlayedStep(stages, i, active, round.attacks, res, [round.drawn] + res.drawn);
    LegalStep(round, res.winners, res);
  }

  /** The table after a stage played, then after the rest of the quest. */
  lemma {:induction false} StageThenKept(t: Table, t1: Table, t2: Table, stages: seq<Stages.Stage>, reward: nat, active: set<nat>, i: nat,
                      inp: Input, round: Round, inp1: Input, winners: set<nat>, inp2: Input)
    requires i < |stages| - 1
    requires Staged(t, active, inp, round, t1, inp1)
    requires var next := Survivors(round.attacks, stages[i]);
             && Rewarded(t1, t2, next, winners, reward)
             && Spent(t1, t2, StageDraws(|next|, |stages| - (i + 1)))
             && Consumed(inp1, inp2) && inp2.answers == inp1.answers
    ensures && Rewarded(t, t2, active, winners, reward)
            && Spent(t, t2, StageDraws(|active|, |stages| - i))
            && Consumed(inp, inp2) && inp2.answers == inp.answers
  {
    var next := Survivors(round.attacks, stages[i]);
    SubsetSize(next, active);
    SpentStep(t, t1, t2, active, next, stages, i);
    RewardedStep(t, t1, t2, active, next, winners, reward);
    ConsumedTrans(inp, inp1, inp2);
  }

  /** The players a stage lets through were in it, so they sit at the table. */
  lemma {:induction false} SurvivorsSeated(t: Table, active: set<nat>, attacks: map<nat, Attack>, stage: Stages.Stage)
    requires attacks.Keys == active && forall q <- active :: q < |t.players|
    ensures var next := Survivors(attacks, stage);
            && next <= active && |next| <= |active|
            && forall q <- next :: q < |t.players|
  {
    SubsetSize(Survivors(attacks, stage), active);
  }

  /** A subset is no larger than its superset. */
  lemma SubsetSize(a: set<nat>, b: set<nat>)
    requires a <= b
    ensures |a| <= |b|
  {
    assert b == a + (b - a);
  }

  /**
   * The most cards `players` players can draw in `stages` stages, one each
   * per stage: `players * stages`, counted stage by stage.
   */
  function StageDraws(players: nat, stages: nat): (r: nat)
    ensures stages > 0 ==> r >= players
  {
    if stages == 0 then 0 else players + StageDraws(players, stages - 1)
  }

  /** Stage draws count one card per player and stage. */
  lemma {:induction false} StageDrawsProduct(players: nat, stages: nat)
    ensures StageDraws(players, stages) == players * stages
  {
    if stages > 0 {
      StageDrawsProduct(players, stages - 1);
      assert players * stages == players + players * (stages - 1);
    }
  }

  /** Fewer players draw no more cards. */
  lemma {:induction false} StageDrawsMonotone(fewer: nat, players: nat, stages: nat)
    requires fewer <= players
    ensures StageDraws(fewer, stages) <= StageDraws(players, stages)
  {
    if stages > 0 {
      StageDrawsMonotone(fewer, players, stages - 1);
    }
  }

  /** The first stage's draws, then no more than the rest by fewer players. */
  lemma StageDrawsStep(fewer: nat, players: nat, stages: nat, rest: nat)
    requires fewer <= players && stages == rest + 1
    ensures StageDraws(players, stages) >= players + StageDraws(fewer, rest)
  {
    StageDrawsMonotone(fewer, players, rest);
  }

  /** A deck that affords the whole budget still affords what is left after one step. */
  lemma BudgetKept(deck: int, deck1: int, used: nat, later: nat, budget: nat)
    requires deck1 + used >= deck && budget >= used + later
    ensures deck >= budget ==> deck1 >= later
  {
  }

  /** Two steps within their budgets stay within the sum. */
  lemma BudgetSpent(deck: int, deck1: int, deck2: int, used: nat, later: nat, budget: nat)
    requires deck1 + used >= deck && deck2 + later >= deck1 && budget >= used + later
    ensures deck2 + budget >= deck
  {
  }

  /** Who joined the quest, how its stages went, and what the sponsor drew at cleanup. */
  datatype QuestOutcome = QuestOutcome(participants: set<nat>, resolution: Resolution, refill: seq<AdventureCard>)

  /**
   * Every player but the sponsor was asked once, in seating order, and
   * exactly those who answered yes joined.
   */
  ghost predicate Joined(n: nat, sponsor: nat, answers: seq<bool>, participants: set<nat>) {
    && sponsor < n && |answers| >= n - 1
    && sponsor !in participants && (forall q <- participants :: q < n)
    && forall q | 0 <= q < n && q != sponsor ::
         q in participants <==> answers[if q < sponsor then q else q - 1]
  }

  /**
   * What a quest leaves on the table: only the players who were in and the
   * sponsor have other hands, and those of the winners and the sponsor are
   * within the limit; exactly the winners gained `count` shields; and the
   * game gained exactly the stage cards the sponsor did not hold.
   */
  ghost predicate QuestLeft(t: Table, t': Table, sponsor: nat, participants: set<nat>, winners: set<nat>,
                            count: nat, used: seq<AdventureCard>)
    requires sponsor < |t.players|
  {
    && HandsKeptOutside(t, t', participants + {sponsor})
    && (forall q | 0 <= q < |t.players| ::
          t'.players[q].shields == t.players[q].shields + (if q in winners then count else 0))
    && (forall q <- winners + {sponsor} :: q < |t'.players| && |Hand(t', q)| <= HandLimit)
    && AllCards(t') == AllCards(t) + (multiset(used) - multiset(Hand(t, sponsor)))
  }

  /**
   * `resolveQuest`: every player but the sponsor is asked, in seating order,
   * whether to take part; the stages are played with those who said yes;
   * then the quest is cleaned up.
   */
  function ResolveQuest(t: Table, sponsor: nat, stages: seq<Stages.Stage>, count: nat, rng: Rng, inp: Input)
    : (r: Result<Step<QuestOutcome>, Fault>)
    requires sponsor < |t.players|
    ensures r.Success? ==>
              var Step(QuestOutcome(participants, res, refill), t', rest) := r.value;
              var used := Quests.StageCards(stages);
              && Joined(|t.players|, sponsor, inp.answers, participants)
              && Played(stages, 0, participants, res) && Legal(res)
              && res.winners <= participants
              && QuestLeft(t, t', sponsor, participants, res.winners, count, used)
              && |refill| == |used| + count
              && multiset(Hand(t', sponsor)) <= multiset(Hand(t, sponsor)) - multiset(used) + multiset(refill)
              && Consumed(inp, rest)
  {
    var sel := Sponsorship.SelectParticipants(t, sponsor, inp);
    if sel.Failure? then Failure(sel.error)
    else
      var Step(participants, _, inp1) := sel.value;
      assert Joined(|t.players|, sponsor, inp.answers, participants);
      assert Consumed(inp, inp1);
      var res := ResolveFrom(t, stages, count, participants, 0, rng, inp1);
      if res.Failure? then Failure(res.error)
      else
        var Step(resolution, t1, inp2) := res.value;
        var c := QuestCleanup.Cleanup(t1, sponsor, stages, count, rng, inp2);
        if c.Failure? then Failure(c.error)
        else
          var Step(refill, t2, inp3) := c.value;
          QuestEnded(t, t1, t2, sponsor, participants, resolution.winners, count, Quests.StageCards(stages));
          ConsumedTrans(inp, inp1, inp2);
          ConsumedTrans(inp, inp2, inp3);
          Success(Step(QuestOutcome(participants, resolution, refill), t2, inp3))
  }

  /** The seats of a table of `n` players. */
  function SeatsBelow(n: nat): (r: set<nat>)
    ensures forall q: nat :: q in r <==> q < n
    ensures |r| == n
  {
    if n == 0 then {}
    else
      var below := SeatsBelow(n - 1);
      assert n - 1 !in below;
      below + {n - 1}
  }

  /** At most every player but the sponsor joins. */
  lemma JoinedSize(n: nat, sponsor: nat, participants: set<nat>)
    requires sponsor < n && sponsor !in participants && forall q <- participants :: q < n
    ensures |participants| <= n - 1
  {
    SubsetSize(participants, SeatsBelow(n) - {sponsor});
  }

  /**
   * Every player but the sponsor may draw once per stage and the sponsor
   * draws `count` more at cleanup, so a deck holding that many cards never
   * runs dry during the quest.
   */
  lemma {:induction false} ResolveQuestBudget(t: Table, sponsor: nat, stages: seq<Stages.Stage>, count: nat, rng: Rng, inp: Input)
    requires sponsor < |t.players|
    ensures HandTrim.DeckSize(t) >= StageDraws(|t.players| - 1, |stages|) + count ==>
              ResolveQuest(t, sponsor, stages, count, rng, inp) != Failure(NoCardsLeft)
  {
    var r := ResolveQuest(t, sponsor, stages, count, rng, inp);
    var sel := Sponsorship.SelectParticipants(t, sponsor, inp);
    if sel.Failure? {
      assert r == Failure(InputExhausted);
    } else {
      var participants := sel.value.value;
      JoinedSize(|t.players|, sponsor, participants);
      PlayedWithin(t, stages, count, participants, rng, sel.value.input);
      var res := ResolveFrom(t, stages, count, participants, 0, rng, sel.value.input);
      if res.Failure? {
        assert r == Failure(res.error);
      } else {
        PlayedLeaves(t, stages, count, participants, sel.value.input, res);
        var c := QuestCleanup.Cleanup(res.value.table, sponsor, stages, count, rng, res.value.input);
        assert c.Failure? ==> r == Failure(c.error);
      }
    }
  }

  /**
   * How one stage of the loop fails or goes on: a failed stage fails the
   * loop, the last stage ends it, and any other stage fails as the rest of
   * the loop fails and succeeds when the rest does.
   */
  lemma {:induction false} ResolveFromFails(t: Table, stages: seq<Stages.Stage>, reward: nat, active: set<nat>, i: nat, rng: Rng, inp: Input)
    requires i < |stages| && active != {}
    requires forall q <- active :: q < |t.players|
    ensures var r := ResolveFrom(t, stages, reward, active, i, rng, inp);
            var s := PlayStage(t, active, rng, inp);
            && (s.Failure? ==> r == Failure(s.error))
            && (s.Success? && i == |stages| - 1 ==> r.Success?)
            && (s.Success? && i < |stages| - 1 ==>
                  var more := ResolveFrom(s.value.table, stages, reward, Survivors(s.value.value.attacks, stages[i]),
                                          i + 1, rng, s.value.input);
                  && (more.Failure? ==> r == Failure(more.error))
                  && (more.Success? ==> r.Success?))
  {
    assert ResolveFrom(t, stages, reward, active, i, rng, inp) == PlayFrom(t, stages, reward, active, i, rng, inp);
  }

  /**
   * Each stage takes at most one card of the deck per player in it, so a
   * deck holding a card per starter and stage left never runs dry before
   * the stages end.
   */
  lemma {:induction false} ResolveFromBudget(t: Table, stages: seq<Stages.Stage>, reward: nat, active: set<nat>, i: nat, rng: Rng, inp: Input)
    requires i <= |stages|
    requires forall q <- active :: q < |t.players|
    ensures HandTrim.DeckSize(t) >= StageDraws(|active|, |stages| - i) ==>
              ResolveFrom(t, stages, reward, active, i, rng, inp) != Failure(NoCardsLeft)
    decreases |stages| - i, 1
  {
    if i == |stages| || active == {} {
      ResolveFromStops(t, stages, reward, active, i, rng, inp);
    } else if PlayStage(t, active, rng, inp).Success? && i < |stages| - 1 {
      RestNeverRunsOut(t, stages, reward, active, i, rng, inp);
    } else {
      StageEndsInBudget(t, stages, reward, active, i, rng, inp);
    }
  }

  /** With no stage left or nobody in, the loop stops at once. */
  lemma {:induction false} ResolveFromStops(t: Table, stages: seq<Stages.Stage>, reward: nat, active: set<nat>, i: nat, rng: Rng, inp: Input)
    requires i <= |stages| && (i == |stages| || active == {})
    requires forall q <- active :: q < |t.players|
    ensures ResolveFrom(t, stages, reward, active, i, rng, inp) == Success(Step(Resolution({}, [], []), t, inp))
  {
  }

  /** A stage that fails or is the last never fails for want of cards the budget covers. */
  lemma {:induction false} StageEndsInBudget(t: Table, stages: seq<Stages.Stage>, reward: nat, active: set<nat>, i: nat, rng: Rng, inp: Input)
    requires i < |stages| && active != {}
    requires forall q <- active :: q < |t.players|
    requires PlayStage(t, active, rng, inp).Failure? || i == |stages| - 1
    ensures HandTrim.DeckSize(t) >= StageDraws(|active|, |stages| - i) ==>
              ResolveFrom(t, stages, reward, active, i, rng, inp) != Failure(NoCardsLeft)
  {
    ResolveFromFails(t, stages, reward, active, i, rng, inp);
    StageDrawsStep(0, |active|, |stages| - i, |stages| - (i + 1));
  }

  /** A stage before the last, then the rest with its survivors, never runs out of cards the budget covers. */
  lemma {:induction false} RestNeverRunsOut(t: Table, stages: seq<Stages.Stage>, reward: nat, active: set<nat>, i: nat, rng: Rng, inp: Input)
    requires i < |stages| - 1 && active != {}
    requires forall q <- active :: q < |t.players|
    requires PlayStage(t, active, rng, inp).Success?
    ensures HandTrim.DeckSize(t) >= StageDraws(|active|, |stages| - i) ==>
              ResolveFrom(t, stages, reward, active, i, rng, inp) != Failure(NoCardsLeft)
    decreases |stages| - i, 0
  {
    var s := PlayStage(t, active, rng, inp);
    var next := Survivors(s.value.value.attacks, stages[i]);
    StageNext(t, stages, active, i, rng, inp);
    ResolveFromBudget(s.value.table, stages, reward, next, i + 1, rng, s.value.input);
    ResolveFromFails(t, stages, reward, active, i, rng, inp);
    StageDrawsStep(|next|, |active|, |stages| - i, |stages| - (i + 1));
    BudgetKept(HandTrim.DeckSize(t), HandTrim.DeckSize(s.value.table), |active|,
               StageDraws(|next|, |stages| - (i + 1)), StageDraws(|active|, |stages| - i));
  }

  /** The players a stage lets through sat at the table and were in it. */
  lemma {:induction false} StageNext(t: Table, stages: seq<Stages.Stage>, active: set<nat>, i: nat, rng: Rng, inp: Input)
    requires i < |stages| && forall q <- active :: q < |t.players|
    requires PlayStage(t, active, rng, inp).Success?
    ensures var s := PlayStage(t, active, rng, inp);
            var next := Survivors(s.value.value.attacks, stages[i]);
            && |next| <= |active|
            && (forall q <- next :: q < |s.value.table.players|)
  {
    var s := PlayStage(t, active, rng, inp);
    SurvivorsSeated(s.value.table, active, s.value.value.attacks, stages[i]);
  }

  /**
   * The stages of a quest joined by at most every player but the sponsor,
   * within the deck's budget, never run out of cards.
   */
  lemma {:induction false} PlayedWithin(t: Table, stages: seq<Stages.Stage>, count: nat, participants: set<nat>, rng: Rng, inp: Input)
    requires forall q <- participants :: q < |t.players|
    requires |participants| <= |t.players| - 1
    ensures HandTrim.DeckSize(t) >= StageDraws(|t.players| - 1, |stages|) + count ==>
              ResolveFrom(t, stages, count, participants, 0, rng, inp) != Failure(NoCardsLeft)
  {
    if HandTrim.DeckSize(t) >= StageDraws(|t.players| - 1, |stages|) + count {
      StageDrawsMonotone(|participants|, |t.players| - 1, |stages|);
      ResolveFromBudget(t, stages, count, participants, 0, rng, inp);
    }
  }

  /**
   * The stages of a quest joined by at most every player but the sponsor,
   * when they end without a fault within the deck's budget, leave at least
   * the `count` cards the sponsor draws at cleanup.
   */
  lemma {:induction false} PlayedLeaves(t: Table, stages: seq<Stages.Stage>, count: nat, participants: set<nat>, inp: Input,
                                        res: Result<Step<Resolution>, Fault>)
    requires |participants| <= |t.players| - 1
    requires Resolves(t, stages, count, participants, 0, inp, res)
    ensures res.Success? && HandTrim.DeckSize(t) >= StageDraws(|t.players| - 1, |stages|) + count ==>
              HandTrim.DeckSize(res.value.table) >= count
  {
    StageDrawsMonotone(|participants|, |t.players| - 1, |stages|);
  }

  /** The stages, then the sponsor's cleanup. */
  lemma QuestEnded(t: Table, t1: Table, t2: Table, sponsor: nat, participants: set<nat>, winners: set<nat>,
                   count: nat, used: seq<AdventureCard>)
    requires sponsor < |t.players| && sponsor !in participants && winners <= participants
    requires Rewarded(t, t1, participants, winners, count)
    requires HandsKeptOutside(t1, t2, {sponsor}) && ShieldsKept(t1, t2)
    requires |Hand(t2, sponsor)| <= HandLimit
    requires AllCards(t2) == AllCards(t1) + (multiset(used) - multiset(Hand(t1, sponsor)))
    ensures QuestLeft(t, t2, sponsor, participants, winners, count, used)
    ensures Hand(t1, sponsor) == Hand(t, sponsor)
  {
    HandsKeptTrans(t, t1, t2, participants, {sponsor});
    assert Hand(t1, sponsor) == Hand(t, sponsor);
    forall q <- winners + {sponsor}
      ensures |Hand(t2, q)| <= HandLimit
    {
      if q != sponsor {
        assert q in winners;
        assert Hand(t2, q) == Hand(t1, q);
      }
    }
  }
}

=== FILE: results.dfy ===
/** Failure-carrying result types shared by every module of the model. */
module Results {

  /** An optional value; stands for a Java reference that may be null. */
  datatype Option<+T> = None | Some(value: T)

  /** Either a value or the error that the Java code would have thrown. */
  datatype Result<+T, +E> = Success(value: T) | Failure(error: E)
}

=== FILE: seqs.dfy ===
/** Sequence facts used by the card-moving operations. */
module Seqs {

  /** No element occurs twice. */
  predicate Distinct<T(==)>(s: seq<T>) {
    forall i, j | 0 <= i < j < |s| :: s[i] != s[j]
  }

  /** `List.remove(Object)`: drop the first occurrence of `x`, if any. */
  function RemoveFirst<T(==)>(s: seq<T>, x: T): (r: seq<T>)
    ensures multiset(r) == multiset(s) - multiset{x}
    ensures x in s ==> |r| == |s| - 1
    ensures x !in s ==> r == s
  {
    if s == [] then []
    else if s[0] == x then
      assert s == [s[0]] + s[1..];
      s[1..]
    else
      assert s == [s[0]] + s[1..];
      [s[0]] + RemoveFirst(s[1..], x)
  }

  /** Remove each element of `xs`, front to back, one occurrence at a time. */
  function RemoveAll<T(==)>(s: seq<T>, xs: seq<T>): (r: seq<T>)
    ensures |r| <= |s|
    ensures multiset(r) == multiset(s) - multiset(xs)
    ensures multiset(xs) <= multiset(s) ==> |r| == |s| - |xs|
    decreases |xs|
  {
    if xs == [] then s
    else
      assert xs == [xs[0]] + xs[1..];
      var s1 := RemoveFirst(s, xs[0]);
      var r := RemoveAll(s1, xs[1..]);
      SubtractTwice(multiset(s), multiset{xs[0]}, multiset(xs[1..]));
      r
  }

  /** Taking away `b` and then `c` takes away `b + c`. */
  lemma SubtractTwice<T>(a: multiset<T>, b: multiset<T>, c: multiset<T>)
    ensures (a - b) - c == a - (b + c)
  {
    forall x
      ensures ((a - b) - c)[x] == (a - (b + c))[x]
    {
    }
  }

  /** Distinct elements all present in `ys` form a sub-multiset of `ys`. */
  lemma {:induction false} DistinctSubMultiset<T>(xs: seq<T>, ys: seq<T>)
    requires Distinct(xs)
    requires forall x <- xs :: x in ys
    ensures multiset(xs) <= multiset(ys)
  {
    if xs != [] {
      var init, x := xs[..|xs| - 1], xs[|xs| - 1];
      assert xs == init + [x];
      assert Distinct(init);
      DistinctSubMultiset(init, ys);
      assert x !in init;
      assert x in ys;
    }
  }

  /** Two distinct sequences with no common element concatenate to a distinct one. */
  lemma DistinctConcat<T>(a: seq<T>, b: seq<T>)
    requires Distinct(a) && Distinct(b)
    requires forall x <- b :: x !in a
    ensures Distinct(a + b)
  {
    forall i, j | 0 <= i < j < |a + b|
      ensures (a + b)[i] != (a + b)[j]
    {
      if j >= |a| && i < |a| {
        assert (a + b)[j] in b;
      }
    }
  }

  /** Adding the same multiset to both sides can be undone. */
  lemma MultisetCancel<T>(a: multiset<T>, b: multiset<T>, w: multiset<T>)
    requires a + w == b + w
    ensures a == b
  {
    forall x
      ensures a[x] == b[x]
    {
      assert (a + w)[x] == (b + w)[x];
    }
  }

  /**
   * `rest` is what is left of `xs` once its first element and some after it
   * were used; the used part of `xs` is its first element and the used part
   * of the tail.
   */
  lemma SuffixStep<T>(xs: seq<T>, rest: seq<T>)
    requires xs != [] && |rest| < |xs| && rest == xs[1..][|xs| - 1 - |rest|..]
    ensures rest == xs[|xs| - |rest|..]
    ensures xs[..|xs| - |rest|] == [xs[0]] + xs[1..][..|xs| - 1 - |rest|]
  {
  }
}

=== FILE: sponsor.dfy ===
/** `findSponsor` and the participant question of `resolveQuest`. */
module Sponsorship {
  import opened Results
  import opened Game

  /** The seat offered the quest `i`-th, counting from the current player `c`. */
  function Seat(c: nat, n: nat, i: nat): nat
    requires n > 0
  {
    (c + i) % n
  }

  /** A positive multiple of `n` is at least `n`. */
  lemma {:induction false} MultipleAtLeast(k: int, n: int)
    requires k >= 1 && n > 0
    ensures k * n >= n
  {
    if k > 1 {
      MultipleAtLeast(k - 1, n);
      assert k * n == (k - 1) * n + n;
    }
  }

  /** Euclidean division leaves a unique remainder. */
  lemma ModUnique(x: int, n: int, q: int, r: int)
    requires n > 0 && 0 <= r < n && x == q * n + r
    ensures x % n == r
  {
    var q', r' := x / n, x % n;
    assert x == q' * n + r';
    assert (q - q') * n == r' - r by {
      assert q * n - q' * n == (q - q') * n;
    }
    if q > q' {
      MultipleAtLeast(q - q', n);
    } else if q < q' {
      MultipleAtLeast(q' - q, n);
    }
  }

  /** No seat is offered twice within one round of `n` offers. */
  lemma SeatsDistinct(c: nat, n: nat, i: nat, j: nat)
    requires n > 0 && i < j < n
    ensures Seat(c, n, i) != Seat(c, n, j)
  {
    var a := c + i;
    var q, r := a / n, a % n;
    var d := j - i;
    assert a == q * n + r;
    if r + d < n {
      ModUnique(a + d, n, q, r + d);
    } else {
      ModUnique(a + d, n, q + 1, r + d - n);
    }
  }

  /** Every seat is offered within one round of `n` offers. */
  lemma SeatsCover(c: nat, n: nat, s: nat)
    requires s < n
    ensures exists i | 0 <= i < n :: Seat(c, n, i) == s
  {
    var i := (s - c) % n;
    var q := (s - c) / n;
    assert s - c == q * n + i;
    ModUnique(c + i, n, -q, s);
    assert Seat(c, n, i) == s;
  }

  /**
   * The offer loop from the `i`-th offer on: the `i`-th offer goes to seat
   * `Seat(c, n, i)` and is answered by `answers[i]`; the first yes wins.
   * Returns the sponsor, if any, and how many answers were used.
   */
  function Offer(c: nat, n: nat, answers: seq<bool>, i: nat): (r: Result<(Option<nat>, nat), Fault>)
    requires 0 < n && i <= n && i <= |answers|
    ensures r.Success? && r.value.0.Some? ==>
              var used := r.value.1;
              && i < used <= n && used <= |answers|
              && r.value.0.value == Seat(c, n, used - 1)
              && answers[used - 1]
              && (forall j | i <= j < used - 1 :: !answers[j])
    ensures r.Success? && r.value.0.None? ==>
              && r.value.1 == n <= |answers|
              && (forall j | i <= j < n :: !answers[j])
    ensures r.Failure? ==>
              && r.error == InputExhausted
              && |answers| < n
              && forall j | i <= j < |answers| :: !answers[j]
    decreases n - i
  {
    if i == n then Success((None, n))
    else if i == |answers| then Failure(InputExhausted)
    else if answers[i] then Success((Some(Seat(c, n, i)), i + 1))
    else Offer(c, n, answers, i + 1)
  }

  /**
   * `findSponsor`: offer the quest to every player in seating order, starting
   * with the current player and wrapping around, each at most once; the first
   * to accept sponsors it, and nobody does if all decline.
   */
  function FindSponsor(t: Table, inp: Input): (r: Result<Step<Option<nat>>, Fault>)
    requires Seated(t)
    ensures r.Success? ==> r.value.table == t && r.value.input.choices == inp.choices && Consumed(inp, r.value.input)
    ensures r.Success? && r.value.value.Some? ==>
              var k := |inp.answers| - |r.value.input.answers|;
              && 1 <= k <= |t.players|
              && r.value.value.value == Seat(t.current, |t.players|, k - 1)
              && r.value.value.value < |t.players|
              && inp.answers[k - 1]
              && (forall j | 0 <= j < k - 1 :: !inp.answers[j])
              && r.value.input.answers == inp.answers[k..]
    ensures r.Success? && r.value.value.None? ==>
              && |t.players| <= |inp.answers|
              && (forall j | 0 <= j < |t.players| :: !inp.answers[j])
              && r.value.input.answers == inp.answers[|t.players|..]
    ensures r.Failure? ==> r.error == InputExhausted && |inp.answers| < |t.players|
  {
    var o := Offer(t.current, |t.players|, inp.answers, 0);
    if o.Failure? then Failure(o.error)
    else Success(Step(o.value.0, t, inp.(answers := inp.answers[o.value.1..])))
  }

  /** How many players are asked before player `q`, asking from seat `p` on and skipping the sponsor. */
  function AskedBefore(q: nat, sponsor: nat, p: nat): nat
    requires p <= q
  {
    if p <= sponsor < q then q - p - 1 else q - p
  }

  /**
   * The participation question from seat `p` on: every player but the
   * sponsor answers once, in seating order; the yes-sayers join.
   */
  function Ask(n: nat, sponsor: nat, answers: seq<bool>, p: nat): (r: Result<(set<nat>, seq<bool>), Fault>)
    requires sponsor < n && p <= n
    ensures var m := AskedBefore(n, sponsor, p);
      && (r.Failure? <==> |answers| < m)
      && (r.Failure? ==> r.error == InputExhausted)
      && (r.Success? ==>
            && r.value.1 == answers[m..]
            && forall q :: q in r.value.0 <==>
                 p <= q < n && q != sponsor && answers[AskedBefore(q, sponsor, p)])
    decreases n - p
  {
    if p == n then Success(({}, answers))
    else if p == sponsor then Ask(n, sponsor, answers, p + 1)
    else if answers == [] then Failure(InputExhausted)
    else
      var more := Ask(n, sponsor, answers[1..], p + 1);
      if more.Failure? then Failure(more.error)
      else
        var (joined, rest) := more.value;
        assert forall q | p < q <= n :: AskedBefore(q, sponsor, p) == AskedBefore(q, sponsor, p + 1) + 1;
        Success((if answers[0] then {p} + joined else joined, rest))
  }

  /**
   * The initial participants of `resolveQuest`: exactly the players other
   * than the sponsor who answered yes, each asked once in seating order.
   */
  function SelectParticipants(t: Table, sponsor: nat, inp: Input): (r: Result<Step<set<nat>>, Fault>)
    requires sponsor < |t.players|
    ensures r.Failure? <==> |inp.answers| < |t.players| - 1
    ensures r.Failure? ==> r.error == InputExhausted
    ensures r.Success? ==>
              && r.value.table == t && r.value.input.choices == inp.choices
              && r.value.input.answers == inp.answers[|t.players| - 1..]
              && sponsor !in r.value.value
              && (forall q <- r.value.value :: q < |t.players|)
              && forall q | 0 <= q < |t.players| && q != sponsor ::
                   q in r.value.value <==> inp.answers[if q < sponsor then q else q - 1]
  {
    var a := Ask(|t.players|, sponsor, inp.answers, 0);
    if a.Failure? then Failure(a.error)
    else Success(Step(a.value.0, t, inp.(answers := a.value.1)))
  }
}

=== FILE: stage.dfy ===
/** `Stage`: a validated accumulator of adventure cards for one step of a quest. */
module Stages {
  import opened Results
  import opened Seqs
  import opened Cards

  /** The accepted cards in order, the running value, and the foe slot. */
  datatype Stage = Stage(cards: seq<AdventureCard>, value: int, foe: Option<AdventureCard>)

  /** A freshly constructed stage: no cards, value 0, no foe. */
  const NewStage: Stage := Stage([], 0, None)

  /** No two Foes in `cs`. */
  predicate OneFoeAtMost(cs: seq<AdventureCard>) {
    forall i, j | 0 <= i < j < |cs| :: !(cs[i].Foe? && cs[j].Foe?)
  }

  /** What every stage built by `AddCard` from `NewStage` satisfies. */
  predicate Inv(s: Stage) {
    && s.value == Total(s.cards)
    && OneFoeAtMost(s.cards)
    && WeaponTypesDistinct(s.cards)
    && (s.foe.Some? <==> HasFoe(s.cards))
    && (s.foe.Some? ==> s.foe.value.Foe? && s.foe.value in s.cards)
  }

  /**
   * `addCard`: a second Foe, or a Weapon whose type is already present, is
   * refused and leaves the stage as it was; any other card is appended and
   * its value added.
   */
  function AddCard(s: Stage, c: AdventureCard): (r: (bool, Stage))
    ensures !r.0 ==> r.1 == s
    ensures r.0 ==> r.1.cards == s.cards + [c] && r.1.value == s.value + c.value
    ensures Inv(s) ==> Inv(r.1)
    ensures Inv(s) ==>
              (r.0 <==> (c.Foe? && !HasFoe(s.cards)) || (c.Weapon? && !HasWeaponOfType(s.cards, c.kind)))
  {
    TotalSnoc(s.cards, c);
    if c.Foe? then
      if s.foe.Some? then (false, s)
      else (true, Stage(s.cards + [c], s.value + c.value, Some(c)))
    else if AnyWeaponOfType(s.cards, c.kind) then (false, s)
    else (true, Stage(s.cards + [c], s.value + c.value, s.foe))
  }

  /** `isValid`: a Foe has been accepted. */
  function IsValid(s: Stage): (b: bool)
    ensures Inv(s) ==> (b <==> HasFoe(s.cards))
  {
    s.foe.Some?
  }

  /** A fresh stage keeps the invariant and is not yet valid. */
  lemma NewStageInvalid()
    ensures Inv(NewStage) && !IsValid(NewStage) && NewStage.value == 0
  {
  }

  /** Offer the cards `cs` to `s` one after another, as a sequence of `addCard` calls. */
  function Place(s: Stage, cs: seq<AdventureCard>): (r: Stage)
    ensures Inv(s) ==> Inv(r)
    ensures s.cards <= r.cards
    ensures multiset(r.cards[|s.cards|..]) <= multiset(cs)
    decreases |cs|
  {
    if cs == [] then s
    else
      var (ok, s1) := AddCard(s, cs[0]);
      var r := Place(s1, cs[1..]);
      assert cs == [cs[0]] + cs[1..];
      PlacedCards(s.cards, s1.cards, r.cards, cs[0], cs[1..]);
      r
  }

  /** Placing with one card more in front is offering that card first. */
  lemma PlaceCons(s: Stage, c: AdventureCard, cs: seq<AdventureCard>)
    ensures Place(s, [c] + cs) == Place(AddCard(s, c).1, cs)
  {
    assert ([c] + cs)[1..] == cs;
  }

  /** One card offered and either refused or appended, then the rest placed after it. */
  lemma PlacedCards(cards: seq<AdventureCard>, cards1: seq<AdventureCard>, placed: seq<AdventureCard>,
                    c: AdventureCard, rest: seq<AdventureCard>)
    requires cards1 == cards || cards1 == cards + [c]
    requires cards1 <= placed && multiset(placed[|cards1|..]) <= multiset(rest)
    ensures cards <= placed && multiset(placed[|cards|..]) <= multiset([c] + rest)
  {
    if cards1 != cards {
      assert placed[|cards|..] == [c] + placed[|cards1|..];
    }
  }

  /**
   * Whatever cards are offered, a stage built from `NewStage` has value equal
   * to the sum of its cards, at most one Foe, pairwise distinct weapon types,
   * and only cards that were offered.
   */
  lemma {:induction false} BuiltStageInvariant(cs: seq<AdventureCard>)
    ensures var s := Place(NewStage, cs);
      && Inv(s)
      && s.value == Total(s.cards)
      && multiset(s.cards) <= multiset(cs)
      && (IsValid(s) <==> HasFoe(s.cards))
  {
    NewStageInvalid();
    var s := Place(NewStage, cs);
    assert s.cards[|NewStage.cards|..] == s.cards;
  }

  /** A stage's cards are pairwise distinct: one Foe at most and one Weapon per type. */
  lemma StageCardsDistinct(s: Stage)
    requires Inv(s)
    ensures Distinct(s.cards)
  {
    forall i, j | 0 <= i < j < |s.cards|
      ensures s.cards[i] != s.cards[j]
    {
    }
  }
}

=== FILE: trim.dfy ===
/** `trimHandIfNeeded`: the discard-down-to-the-limit rule. */
module HandTrim {
  import opened Results
  import opened Seqs
  import opened Cards
  import opened Game

  /**
   * One pass of the trim loop on a hand, with choice `c`: a choice between 1
   * and the hand size removes exactly that card (returned as the discarded
   * card); any other choice (0, negative, too large) changes nothing.
   */
  function TrimStep(hand: seq<AdventureCard>, c: int): (r: (seq<AdventureCard>, seq<AdventureCard>))
    ensures multiset(r.0) + multiset(r.1) == multiset(hand)
    ensures 0 < c <= |hand| ==> r.1 == [hand[c - 1]] && |r.0| == |hand| - 1
    ensures !(0 < c <= |hand|) ==> r == (hand, [])
  {
    if 0 < c <= |hand| then
      var card := hand[c - 1];
      (RemoveFirst(hand, card), [card])
    else (hand, [])
  }

  /**
   * What a finished trim promises: the hand kept is within the limit (exactly
   * at it when the hand started over it), kept and discarded cards are the
   * hand's cards, and the unused choices are a suffix of the choices.
   */
  predicate TrimmedWell(hand: seq<AdventureCard>, choices: seq<int>, kept: seq<AdventureCard>,
                        gone: seq<AdventureCard>, rest: seq<int>) {
    && |kept| <= HandLimit
    && (|hand| > HandLimit ==> |kept| == HandLimit)
    && multiset(kept) + multiset(gone) == multiset(hand)
    && |rest| <= |choices| && rest == choices[|choices| - |rest|..]
  }

  /**
   * The trim loop on a hand: while it is over the limit, apply the next
   * choice. Returns the final hand, the discarded cards in discard order and
   * the unused choices. If the choices run out first, the source would keep
   * prompting forever.
   */
  function TrimLoop(hand: seq<AdventureCard>, choices: seq<int>)
    : (r: Result<(seq<AdventureCard>, seq<AdventureCard>, seq<int>), Fault>)
    ensures |hand| <= HandLimit ==> r == Success((hand, [], choices))
    ensures r.Failure? ==> r.error == InputExhausted && |hand| > HandLimit
    ensures r.Success? ==> TrimmedWell(hand, choices, r.value.0, r.value.1, r.value.2)
    decreases |choices|
  {
    if |hand| <= HandLimit then Success((hand, [], choices))
    else if choices == [] then Failure(InputExhausted)
    else
      var (hand1, gone1) := TrimStep(hand, choices[0]);
      var more := TrimLoop(hand1, choices[1..]);
      if more.Failure? then Failure(more.error)
      else
        var (kept, gone2, rest) := more.value;
        TrimmedWellStep(hand, choices, kept, gone2, rest);
        Success((kept, gone1 + gone2, rest))
  }

  /** A finished trim after the first choice is a finished trim before it. */
  lemma {:induction false} TrimmedWellStep(hand: seq<AdventureCard>, choices: seq<int>, kept: seq<AdventureCard>,
                                           gone: seq<AdventureCard>, rest: seq<int>)
    requires |hand| > HandLimit && choices != []
    requires var hand1 := TrimStep(hand, choices[0]).0;
             && TrimmedWell(hand1, choices[1..], kept, gone, rest)
             && (|hand1| <= HandLimit ==> kept == hand1)
    ensures TrimmedWell(hand, choices, kept, TrimStep(hand, choices[0]).1 + gone, rest)
  {
    var (hand1, gone1) := TrimStep(hand, choices[0]);
    assert multiset(gone1 + gone) == multiset(gone1) + multiset(gone);
    assert rest == choices[1..][|choices| - 1 - |rest|..];
  }

  /**
   * The loop ends once the players give enough usable choices: with at least
   * as many choices as cards over the limit, each between 1 and one more than
   * the limit, trimming succeeds and uses exactly that many choices.
   */
  lemma {:induction false} TrimFinishes(hand: seq<AdventureCard>, choices: seq<int>)
    requires |choices| >= |hand| - HandLimit
    requires forall c <- choices :: 1 <= c <= HandLimit + 1
    ensures var r := TrimLoop(hand, choices);
      && r.Success?
      && (|hand| > HandLimit ==> r.value.2 == choices[|hand| - HandLimit..])
    decreases |hand|
  {
    if |hand| > HandLimit {
      assert choices[0] in choices;
      var hand1 := TrimStep(hand, choices[0]).0;
      assert |hand1| == |hand| - 1;
      assert forall c <- choices[1..] :: c in choices;
      TrimFinishes(hand1, choices[1..]);
      var more := TrimLoop(hand1, choices[1..]);
      var k := |hand| - HandLimit;
      assert k > 1 ==> more.value.2 == choices[1..][k - 1..] == choices[k..];
      assert k == 1 ==> more.value.2 == choices[1..];
    }
  }

  /**
   * The choices `cs` applied one after another by `TrimStep`, whatever the
   * hand size: the hand left and the cards removed, in order.
   */
  function TrimFold(hand: seq<AdventureCard>, cs: seq<int>): (r: (seq<AdventureCard>, seq<AdventureCard>))
    ensures multiset(r.0) + multiset(r.1) == multiset(hand)
    ensures |r.0| + |r.1| == |hand|
    decreases |cs|
  {
    if cs == [] then (hand, [])
    else
      var (hand1, gone1) := TrimStep(hand, cs[0]);
      var (kept, gone2) := TrimFold(hand1, cs[1..]);
      assert |hand1| + |gone1| == |hand| by {
        assert |multiset(hand1)| + |multiset(gone1)| == |multiset(hand)|;
      }
      (kept, gone1 + gone2)
  }

  /** The first `j` choices applied by `TrimStep`. */
  function Trimmed(hand: seq<AdventureCard>, choices: seq<int>, j: nat): (r: (seq<AdventureCard>, seq<AdventureCard>))
    requires j <= |choices|
  {
    TrimFold(hand, choices[..j])
  }

  /** Applying `j + 1` choices is applying the first, then `j` more. */
  lemma TrimmedStep(hand: seq<AdventureCard>, choices: seq<int>, j: nat)
    requires j < |choices|
    ensures var (hand1, gone1) := TrimStep(hand, choices[0]);
            Trimmed(hand, choices, j + 1) == (Trimmed(hand1, choices[1..], j).0, gone1 + Trimmed(hand1, choices[1..], j).1)
  {
    assert choices[..j + 1][0] == choices[0];
    assert choices[..j + 1][1..] == choices[1..][..j];
  }

  /** After the first `j` choices the hand is still over the limit. */
  predicate OverAfter(hand: seq<AdventureCard>, choices: seq<int>, j: nat) {
    j <= |choices| && |Trimmed(hand, choices, j).0| > HandLimit
  }

  /** Every run of fewer than `k` of the choices leaves the hand over the limit. */
  predicate StaysOver(hand: seq<AdventureCard>, choices: seq<int>, k: nat) {
    forall j | 0 <= j < k :: OverAfter(hand, choices, j)
  }

  /** Being over the limit after the first choice and `k` more, from the hand before it. */
  lemma {:induction false} StaysOverStep(hand: seq<AdventureCard>, choices: seq<int>, k: nat)
    requires |hand| > HandLimit && choices != []
    requires StaysOver(TrimStep(hand, choices[0]).0, choices[1..], k)
    ensures StaysOver(hand, choices, k + 1)
  {
    var hand1 := TrimStep(hand, choices[0]).0;
    assert choices[..0] == [];
    forall j | 0 <= j < k + 1 ensures OverAfter(hand, choices, j) {
      if j > 0 {
        assert OverAfter(hand1, choices[1..], j - 1);
        TrimmedStep(hand, choices, j - 1);
      }
    }
  }

  /**
   * `kept` and `gone` are what the choices read before `rest` give, one at
   * a time through `TrimStep`, and every shorter run of them left the hand
   * over the limit.
   */
  predicate TrimsBy(hand: seq<AdventureCard>, choices: seq<int>, kept: seq<AdventureCard>, gone: seq<AdventureCard>,
                    rest: seq<int>) {
    && |rest| <= |choices|
    && (kept, gone) == Trimmed(hand, choices, |choices| - |rest|)
    && StaysOver(hand, choices, |choices| - |rest|)
  }

  /**
   * The trim loop applies its choices one by one, each as `TrimStep` says,
   * and stops at the first one that brings the hand within the limit: the
   * hand kept and the cards discarded are those the choices it read give,
   * and every shorter run of those choices left the hand over the limit.
   * It runs out of input only if no run of the choices gets there.
   */
  lemma {:induction false} TrimLoopFollows(hand: seq<AdventureCard>, choices: seq<int>)
    ensures var r := TrimLoop(hand, choices);
      && (r.Success? ==> TrimsBy(hand, choices, r.value.0, r.value.1, r.value.2))
      && (r.Failure? ==> StaysOver(hand, choices, |choices| + 1))
    decreases |choices|
  {
    if |hand| <= HandLimit {
      TrimsByNone(hand, choices);
    } else if choices == [] {
      assert OverAfter(hand, choices, 0) by { assert choices[..0] == []; }
    } else {
      var (hand1, gone1) := TrimStep(hand, choices[0]);
      TrimLoopFollows(hand1, choices[1..]);
      var more := TrimLoop(hand1, choices[1..]);
      if more.Success? {
        TrimsByStep(hand, choices, more.value.0, more.value.1, more.value.2);
      } else {
        StaysOverStep(hand, choices, |choices|);
      }
    }
  }

  /** No choice read: the hand kept whole, nothing discarded. */
  lemma {:induction false} TrimsByNone(hand: seq<AdventureCard>, choices: seq<int>)
    ensures TrimsBy(hand, choices, hand, [], choices)
  {
    assert choices[..0] == [];
  }

  /** A trim of the hand after the first choice is a trim of the hand before it. */
  lemma {:induction false} TrimsByStep(hand: seq<AdventureCard>, choices: seq<int>, kept: seq<AdventureCard>,
                                       gone: seq<AdventureCard>, rest: seq<int>)
    requires |hand| > HandLimit && choices != []
    requires TrimsBy(TrimStep(hand, choices[0]).0, choices[1..], kept, gone, rest)
    ensures TrimsBy(hand, choices, kept, TrimStep(hand, choices[0]).1 + gone, rest)
  {
    var k := |choices[1..]| - |rest|;
    TrimmedStep(hand, choices, k);
    StaysOverStep(hand, choices, k);
  }

  /**
   * `trimHandIfNeeded` on player `p`: the trim loop on `p`'s hand, each
   * discarded card pushed onto the adventure discard pile. Nothing else
   * changes and no card appears or disappears; a hand within the limit is
   * left alone and uses no input.
   */
  function TrimHand(t: Table, p: nat, inp: Input): (r: Result<Step<seq<AdventureCard>>, Fault>)
    requires p < |t.players|
    ensures |Hand(t, p)| <= HandLimit ==> r == Success(Step([], t, inp))
    ensures r.Failure? ==> r.error == InputExhausted && |Hand(t, p)| > HandLimit
    ensures r.Success? ==>
              var Step(gone, t', rest) := r.value;
              && p < |t'.players|
              && |Hand(t', p)| <= HandLimit
              && (|Hand(t, p)| > HandLimit ==> |Hand(t', p)| == HandLimit)
              && multiset(Hand(t', p)) + multiset(gone) == multiset(Hand(t, p))
              && t'.deck.draw == t.deck.draw && t'.deck.discard == t.deck.discard + gone
              && t'.draws == t.draws
              && HandsKeptOutside(t, t', {p}) && ShieldsKept(t, t')
              && AllCards(t') == AllCards(t)
              && Consumed(inp, rest) && rest.answers == inp.answers
  {
    if |Hand(t, p)| <= HandLimit then Success(Step([], t, inp))
    else
      var loop := TrimLoop(Hand(t, p), inp.choices);
      if loop.Failure? then Failure(loop.error)
      else
        var (kept, gone, rest) := loop.value;
        var t1 := t.(deck := t.deck.(discard := t.deck.discard + gone));
        var t2 := WithHand(t1, p, kept);
        WithHandCards(t1, p, kept);
        var hand := multiset(Hand(t, p));
        assert Hands(t1.players) == Hands(t.players);
        calc {
          AllCards(t2) + hand;
          AllCards(t1) + multiset(kept);
          (AllCards(t) + multiset(gone)) + multiset(kept);
          AllCards(t) + hand;
        }
        MultisetCancel(AllCards(t2), AllCards(t), hand);
        Success(Step(gone, t2, inp.(choices := rest)))
  }

  /**
   * `trimHandIfNeeded` discards what its choices name, one choice at a
   * time, and stops as soon as the hand is within the limit: the hand left
   * and the cards pushed onto the discard pile are those the choices it
   * read give through `TrimStep`, and every shorter run of them left the
   * hand over the limit.
   */
  lemma {:induction false} TrimHandFollows(t: Table, p: nat, inp: Input)
    requires p < |t.players|
    ensures var r := TrimHand(t, p, inp);
      && (r.Success? ==> TrimsBy(Hand(t, p), inp.choices, Hand(r.value.table, p), r.value.value, r.value.input.choices))
      && (r.Failure? ==> StaysOver(Hand(t, p), inp.choices, |inp.choices| + 1))
  {
    if |Hand(t, p)| <= HandLimit {
      TrimHandWithin(t, p, inp);
    } else {
      TrimLoopFollows(Hand(t, p), inp.choices);
      TrimHandLoop(t, p, inp);
    }
  }

  /** A hand within the limit is what no choice at all leaves. */
  lemma {:induction false} TrimHandWithin(t: Table, p: nat, inp: Input)
    requires p < |t.players| && |Hand(t, p)| <= HandLimit
    ensures TrimHand(t, p, inp) == Success(Step([], t, inp))
    ensures TrimsBy(Hand(t, p), inp.choices, Hand(t, p), [], inp.choices)
  {
    assert inp.choices[..0] == [];
  }

  /** Over the limit, `trimHandIfNeeded` keeps, discards and leaves unread what the trim loop does. */
  lemma {:induction false} TrimHandLoop(t: Table, p: nat, inp: Input)
    requires p < |t.players| && |Hand(t, p)| > HandLimit
    ensures var r := TrimHand(t, p, inp);
            var loop := TrimLoop(Hand(t, p), inp.choices);
            && r.Success? == loop.Success?
            && (r.Success? ==>
                  && Hand(r.value.table, p) == loop.value.0
                  && r.value.value == loop.value.1
                  && r.value.input.choices == loop.value.2)
  {
  }

  /** The number of cards in the adventure deck, both piles together. */
  function DeckSize(t: Table): nat {
    |t.deck.draw| + |t.deck.discard|
  }

  /** The size a hand of `h` cards has after `n` more are drawn and it is trimmed. */
  function Refill(h: nat, n: nat): nat {
    if h + n <= HandLimit then h + n else HandLimit
  }

  /**
   * Draw `n` cards into `p`'s hand, then `trimHandIfNeeded`: the pattern of
   * a stage's draw, the end of a quest and both card events. The draw fails
   * exactly when the deck holds fewer than `n` cards; the trim can only run
   * out of input, and only when the hand went over the limit.
   */
  function DrawThenTrim(t: Table, p: nat, n: nat, rng: Rng, inp: Input): (r: Result<Step<seq<AdventureCard>>, Fault>)
    requires p < |t.players|
    ensures r.Failure? ==> r.error == NoCardsLeft || r.error == InputExhausted
    ensures r.Failure? && r.error == NoCardsLeft <==> n > DeckSize(t)
    ensures r.Failure? && r.error == InputExhausted ==> |Hand(t, p)| + n > HandLimit
    ensures r.Success? ==>
              var Step(drawn, t', rest) := r.value;
              && |drawn| == n && p < |t'.players|
              && |Hand(t', p)| == Refill(|Hand(t, p)|, n)
              && multiset(Hand(t', p)) <= multiset(Hand(t, p)) + multiset(drawn)
              && DeckSize(t') + |Hand(t', p)| == DeckSize(t) + |Hand(t, p)|
              && HandsKeptOutside(t, t', {p}) && ShieldsKept(t, t')
              && AllCards(t') == AllCards(t)
              && Consumed(inp, rest) && rest.answers == inp.answers
  {
    var d := DrawCards(t, p, n, rng);
    if d.Failure? then Failure(d.error)
    else
      var (drawn, t1) := d.value;
      assert |Decks.Held(t1.deck)| + n == |Decks.Held(t.deck)|;
      var tr := TrimHand(t1, p, inp);
      if tr.Failure? then Failure(tr.error)
      else
        var Step(gone, t2, rest) := tr.value;
        assert multiset(Hand(t1, p)) == multiset(Hand(t, p)) + multiset(drawn);
        assert |multiset(Hand(t2, p))| + |multiset(gone)| == |multiset(Hand(t1, p))|;
        HandsKeptTrans(t, t1, t2, {p}, {p});
        ShieldsKeptTrans(t, t1, t2);
        Success(Step(drawn, t2, rest))
  }
}
